=== FILE: README.md ===
# spectrum, modelled in Dafny

This project models the exact-arithmetic core of the `spectrum` repository.
That core is built around a *lattice* of nodes. A node is an integer id, a
state vector of exact fractions and a set of parent ids. The model covers:

- the node record and its constructor aliases (`Lattice`);
- Python's `Fraction`, modelled as a reduced rational (`Rational`);
- the canonical line serialiser and its hash (`Canonical`, `NodeOrder`);
- the replay parser that reads the lines back, and the serialise/replay round trip (`Replay`, `ReplayRoundTrip`);
- the structural graph checks: unique ids, dangling parents, acyclicity, single root, and their short-circuit composition (`GlobalInvariants`, `ParentGraph`, `Boundary`, `Compose`);
- the exact-change irreversibility detector (`Irreversibility`);
- the two deterministic expansion rules (`ExpandRules`, `ExpansionRules`);
- the two invariant miners (`Mining`);
- the map utilities over invariant mappings (`InvariantMaps`);
- the fairness metrics and the exact-division helper (`Fairness`, `Rational.RationalDivide`);
- the arithmetic instruction interpreter and the replay of its log (`Engine`, `PublicApi`);
- the three name-keyed registries and the input/output contract wrapper (`Registries`, `InvariantRegistry`, `ProofRegistry`, `EngineRegistry`, `Contracts`);
- the baseline invariant predicates (`InvariantRegistry.Baseline`, `TextBaseline`).

Modelling conventions:

- Python exceptions become `Result` failures. Their error constructors are named after the exception class: `ValueError`, `KeyError(key)`, `TypeError`, `AssertionError`, `ZeroDivisionError`, `AttributeError`, `IndexError`.
- The model keeps the order in which the code evaluates things, so the error the code would raise first is the one returned.
- An `isinstance` check becomes an `Option`: `None` is the value of the wrong type.
- Python's module-level dictionaries (`INVARIANTS`, `_PROOFS`, `ENGINE_REGISTRY`) become a registry value: a map plus the list of names in insertion order.
- Registering returns the new registry, or an error and no change.
- Where two files of the repository define functions with the same name and different behaviour, each gets its own module:
  - `GlobalInvariants.NoOrphanNodes` is the dangling-parent check;
  - `Boundary.NoOrphanNodes` is the exactly-one-root check;
  - `InvariantMaps.UniqueNodeIds` returns a set;
  - `GlobalInvariants.UniqueNodeIds` returns a bool.
- The bool `unique_node_ids` of spectrum/invariants/core.py:4-6 has the same definition as the one in src/spectrum/invariants/global_invariants.py:14-16, so both are modelled by `GlobalInvariants.UniqueNodeIds`.
- `run_deterministic` (api/public.py:11-39) is `Engine.Execute` itself. Its properties are stated on `Engine.Execute` and `PublicApi.ReplayRoundTrip`.

## Model

| member | source | states |
|---|---|---|
| Lattice.NewNode | spectrum/lattice/node.py:27-42 | the id is `id` when given, else `node_id`; the parents are `parents` when given, else `parent_ids`, else empty; state, rule label and hash are kept as passed |
| Lattice.LegacyAliases | spectrum/lattice/node.py:45-51 | the legacy `node_id=`/`parent_ids=` spelling builds exactly the node the `id=`/`parents=` spelling builds |
| Rational.Normalize | spectrum/rational/exact.py:30 | `Fraction(n, d)` is the reduced fraction whose cross product with `d` equals `n`, i.e. whose value is `n/d` |
| Rational.NormalizeReduced | spectrum/rational/exact.py:22-26 | a fraction already in lowest terms normalises to itself |
| Rational.CanonicalForm | spectrum/rational/exact.py:22-26 | two reduced fractions with the same value are the same pair, so lowest terms are unique |
| Rational.ValueInjective | spectrum/rational/exact.py:30 | reduced fractions with equal real value are equal, so structural equality is value equality |
| Rational.RationalDivide | spectrum/rational/exact.py:6-30 | fails exactly when `d == 0`; otherwise the result times `d` is exactly `n` |
| Rational.RationalDivideExact | spectrum/rational/exact.py:28-30 | every reduced `q` with `q * d == n` is the result, so exactness alone determines it |
| Rational.RationalDivideExamples | spectrum/rational/exact.py:22-26 | `(2, 4)` gives 1/2 and `(1, 3)` gives 1/3 |
| Canonical.FractionText | spectrum/serialization/canonical.py:16-17 | a fraction renders with exactly one `/` between two non-empty sides and no comma; the side before it reads back as the reduced numerator and the side after it as the denominator |
| Canonical.StateText | spectrum/serialization/canonical.py:25 | the state field is empty exactly when the state vector is empty, and holds no field separator |
| Canonical.ParentsText | spectrum/serialization/canonical.py:24 | the parents field is empty exactly when the parent set is empty, and holds no field separator |
| Canonical.SerializeNode | spectrum/serialization/canonical.py:20-27 | a line splits at the field separator into exactly the three fields `id=`, `state=`, `parents=`, carrying the id's decimal text, the state text and the parents text |
| Canonical.LineIgnoresRuleAndHash | spectrum/serialization/canonical.py:20-27 | the line depends only on id, state and parents, not on the rule label or the input hash |
| Canonical.SerializeNodes | spectrum/serialization/canonical.py:30-37 | one line per input node, the i-th line being the i-th node in ascending id order |
| Canonical.SerializeOrderIndependent | spectrum/serialization/canonical.py:34-37 | for distinct ids every permutation of the input gives the same lines |
| Canonical.HashOrderIndependent | spectrum/serialization/canonical.py:40-48 | for distinct ids the hash is the same for every permutation of the input |
| Canonical.HashEmpty | spectrum/serialization/canonical.py:44-48 | the empty input hashes the empty message |
| NodeOrder.SortById | spectrum/serialization/canonical.py:36 | the sort by id returns a permutation of its input, sorted by id; it is stable, so the nodes sharing an id keep their input order; an already sorted input comes back unchanged |
| NodeOrder.SortMembers | spectrum/serialization/canonical.py:36 | the sorted sequence holds exactly the input nodes |
| NodeOrder.SortOrderIndependent | spectrum/serialization/canonical.py:36 | for distinct ids all permutations sort to the same sequence |
| Decimal.IntToString | spectrum/serialization/canonical.py:16-17 | `str(i)` is the digits of the absolute value of `i` with no leading zero, preceded by `-` exactly when `i` is negative, and never a `+` |
| Decimal.ParseInt | src/spectrum/replay/replay.py:21 | `int(s)` is defined exactly on one or more ASCII digits with an optional leading `+` or `-`, and its value is the digits' value, negated after a `-` |
| Decimal.IntRoundTrip | src/spectrum/replay/replay.py:21 | `int(str(i)) == i` for every integer `i` |
| Replay.ToInt | src/spectrum/replay/replay.py:21 | `int(s)` succeeds exactly on an optionally signed numeral of ASCII decimal digits, otherwise ValueError |
| Replay.ParseFraction | src/spectrum/replay/replay.py:10-12 | succeeds exactly when the text has one `/` between two integers and the denominator is not zero, with the value `num/den`; integer sides with a zero denominator are exactly the ZeroDivisionError case; every other failure is ValueError |
| Replay.Fields | src/spectrum/replay/replay.py:19 | fails with ValueError exactly when a part has no `=`; the keys are the parts' prefixes and the last part with a key wins |
| Replay.ParseState | src/spectrum/replay/replay.py:23-27 | all-empty tokens give the empty state; when no token is empty every token must parse, the first failure deciding the error |
| Replay.EmptyTokenSkipped | src/spectrum/replay/replay.py:26 | an empty token anywhere among the state tokens changes nothing |
| Replay.ParseIds | src/spectrum/replay/replay.py:30 | succeeds exactly when every token is an integer, and the result holds exactly the tokens' values |
| Replay.ParseParents | src/spectrum/replay/replay.py:29-33 | an empty field gives the empty set, otherwise the comma tokens must all be integers |
| Replay.ParseNode | src/spectrum/replay/replay.py:15-41 | a part without `=` is ValueError, a missing `id` is KeyError("id"); the line parses exactly when its fields hold an `id`, `state` and `parents` that each parse, and otherwise fails as the field steps do; a parsed node has default rule and hash and fields that parse from the line |
| Replay.NodeFromFields | src/spectrum/replay/replay.py:21-41 | succeeds exactly when `id`, `state` and `parents` are all present and each parses, and then yields the node of those three values with default rule and hash; otherwise the first failing step decides the error: KeyError for the first missing key, ValueError for a bad id, or the state or parents parser's own error |
| Replay.ReplayNodes | src/spectrum/replay/replay.py:44-49 | succeeds exactly when every line parses, failing with the first bad line's error; on success it is the parsed nodes, one per line, sorted by id with a stable sort, so nodes sharing an id keep their line order |
| Replay.ReplayDefaults | src/spectrum/replay/replay.py:35-41 | every replayed node has rule None and an empty hash |
| ReplayRoundTrip.FractionRoundTrip | src/spectrum/replay/replay.py:10-12 | parsing the rendering of a fraction gives the fraction back |
| ReplayRoundTrip.StateRoundTrip | src/spectrum/replay/replay.py:23-27 | parsing the state field of a vector gives the vector back, including the empty one |
| ReplayRoundTrip.ParentsRoundTrip | src/spectrum/replay/replay.py:29-33 | parsing the parents field of a set gives the set back, including the empty one |
| ReplayRoundTrip.LineRoundTrip | src/spectrum/replay/replay.py:15-41 | parsing a node's line gives the node with its rule and hash reset to their defaults |
| ReplayRoundTrip.ReplaySerialized | src/spectrum/replay/replay.py:44-49 | replaying the lines of any collection gives its nodes sorted by id, with rule and hash reset |
| ReplayRoundTrip.ReplayIdentity | tests/test_replay_engine.py:7-16 | id-sorted nodes with default rule and hash come back unchanged from serialise-then-replay |
| ReplayRoundTrip.ReplayHashStable | tests/test_replay_engine.py:19-28 | serialise-then-replay succeeds and keeps the hash, even for unsorted input |
| ReplayRoundTrip.ParseNodeEmptyFields | src/spectrum/replay/replay.py:23-33 | a line for id 0 whose state and parents fields are both empty parses to node 0 with empty state and no parents |
| ReplayExamples.ParseFractionNormalises | src/spectrum/replay/replay.py:12 | `2/4` parses to 1/2 |
| ReplayExamples.ParseFractionZero | src/spectrum/replay/replay.py:12 | `1/0` is ZeroDivisionError |
| ReplayExamples.ParseFractionShape | src/spectrum/replay/replay.py:11 | `1` and `1/2/3` are ValueError |
| ReplayExamples.ParseNodeMissingField | src/spectrum/replay/replay.py:29-31 | a line with no `parents` field is KeyError("parents") |
| ReplayExamples.ParseNodeNoEquals | src/spectrum/replay/replay.py:19 | a part without `=` is ValueError |
| GlobalInvariants.UniqueNodeIds | src/spectrum/invariants/global_invariants.py:14-16 | true exactly when no two nodes share an id |
| GlobalInvariants.NoOrphanNodes | src/spectrum/invariants/global_invariants.py:19-25 | true exactly when every parent id of every node names some node |
| GlobalInvariants.ParentsAreAcyclic | src/spectrum/invariants/global_invariants.py:28-47 | true exactly when the child-to-parent graph has no cycle (self-loops included) |
| ParentGraph.BuildGraph | src/spectrum/invariants/global_invariants.py:29 | the graph has one vertex per id, holding the parent set of the last node with that id |
| ParentGraph.RankedAcyclic | src/spectrum/invariants/global_invariants.py:34-45 | a graph whose vertices all carry a finishing rank that decreases along edges has no cycle |
| ParentGraph.CycleFromWalk | src/spectrum/invariants/global_invariants.py:35-36 | meeting a vertex already on the search path closes a cycle |
| GlobalInvariantsExamples.ChainWellFormed | tests/test_global_invariants.py:10-28 | the chain 0, 1, 2 has unique ids and no dangling parent |
| GlobalInvariantsExamples.ChainAcyclic | tests/test_global_invariants.py:10-28 | the chain has no cycle |
| GlobalInvariantsExamples.MutualPairCycles | tests/test_global_invariants.py:10-28 | two nodes that are each other's parent form a cycle |
| GlobalInvariantsExamples.SelfLoopCycles | src/spectrum/invariants/global_invariants.py:35-41 | a node that is its own parent is a cycle |
| GlobalInvariantsExamples.DanglingParentIsLeaf | src/spectrum/invariants/global_invariants.py:40 | a parent id naming no node is a leaf and closes no cycle |
| Boundary.NoOrphanNodes | src/spectrum/boundary/checks.py:4-14 | true exactly when the input is empty, or there is a parentless node and all parentless nodes share its id |
| Boundary.RootsSingleton | src/spectrum/boundary/checks.py:13-14 | the root-id set has exactly one element exactly when all roots share one id |
| Compose.AllInvariantsHold | spectrum/invariants/compose.py:6-18 | true exactly when every invariant holds; on failure the invariant that failed is the last one called and all earlier ones held |
| ComposeExamples.RootAndChildPasses | tests/test_invariant_composition.py:7-25 | a root with one child passes the composition |
| ComposeExamples.DuplicateRootsFails | tests/test_invariant_composition.py:7-25 | two nodes with id 0 fail the unique-id check though the root check passes |
| ComposeExamples.TwoRootsFail | tests/test_invariants.py:13-25 | two parentless nodes with different ids fail the root check |
| ComposeExamples.NoRootFails | src/spectrum/boundary/checks.py:13-14 | when every node has a parent there is no root and the check fails |
| ComposeExamples.DanglingParentIgnored | src/spectrum/boundary/checks.py:13-14 | a parent id naming no node is not examined by the root check |
| SpectrumInvariantsCore.CheckInvariants | spectrum/invariants/core.py:8-14 | the report has exactly the registered names, each true; no names give the empty report |
| SpectrumInvariantsCore.CheckIgnoresState | spectrum/invariants/core.py:8-9 | the report does not depend on the state |
| Irreversibility.FindIrreversible | src/spectrum/irreversibility/detect.py:18-43 | a leading Transition returns the input unchanged; a Transition after a node is AttributeError; nodes give exactly the edges the detector flags |
| Irreversibility.DetectNodes | src/spectrum/irreversibility/detect.py:34-43 | exactly the pairs (p, c) where p is a parent of child c, p names a node, and the last node with id p has a different state |
| Irreversibility.FindOnNodes | src/spectrum/irreversibility/detect.py:34-43 | graph mode on a node sequence returns the detected edge set |
| Irreversibility.EmptyInput | src/spectrum/irreversibility/detect.py:30-43 | the empty input gives the empty edge set |
| Irreversibility.DistinctIdsEdges | src/spectrum/irreversibility/detect.py:35-41 | with distinct ids an edge is reported exactly when parent and child are nodes, linked, with different states |
| Irreversibility.DanglingSkipped | src/spectrum/irreversibility/detect.py:39-40 | a parent id naming no node never yields an edge |
| Irreversibility.EqualStatesNotFlagged | tests/test_irreversibility.py:27-33 | when all states are equal nothing is flagged |
| Irreversibility.ReportedEdgesExist | src/spectrum/irreversibility/detect.py:37-41 | both ends of a reported edge are node ids |
| IrreversibilityExamples.ChangedStateFlagged | tests/test_irreversibility.py:6-24 | the edge (0, 1) is flagged when states 0 and 1 differ |
| IrreversibilityExamples.SameStateNotFlagged | tests/test_irreversibility.py:27-33 | a root and two children that all share one state give no irreversible edge |
| IrreversibilityExamples.TransitionsUnchanged | src/spectrum/irreversibility/detect.py:30-31 | a sequence of Transition records comes back as it is |
| IrreversibilityExamples.MixedInputFails | src/spectrum/irreversibility/detect.py:35 | a Transition after a node is AttributeError |
| ExpandRules.ApplyRuleAddConstant | src/spectrum/expand/rules.py:10-26 | the child has the given id, parent set {node.id}, each state component plus the constant, and the label `add(c)` |
| ExpandRules.MaxId | src/spectrum/expand/rules.py:38 | the largest id of a non-empty collection: an id of it, at least every id |
| ExpandRules.ExpandDeterministically | src/spectrum/expand/rules.py:29-49 | fails exactly on empty input; otherwise one child per node, the k-th child of the k-th node by id having id max_id + k + 1, so children are strictly increasing; each child has that node as its only parent, its state shifted by the constant, the rule label `add(c)` and an empty causal hash |
| ExpandRules.ChildIdsFresh | src/spectrum/expand/rules.py:38-46 | every child id exceeds every input id |
| ExpandRules.ParentsAscending | src/spectrum/expand/rules.py:37-47 | children follow their parents in ascending id order |
| ExpandRules.OneChildPerNode | src/spectrum/expand/rules.py:41-47 | for distinct ids every input node has a child pointing at it |
| ExpandRules.ExpandOrderIndependent | src/spectrum/expand/rules.py:37 | for distinct ids every permutation of the input expands the same |
| ExpandRules.AddLabelInjective | src/spectrum/expand/rules.py:25 | different constants give different rule labels |
| ExpandRules.FractionStrInjective | src/spectrum/expand/rules.py:25 | `str(Fraction)` tells different fractions apart |
| ExpansionRules.ExpandNode | spectrum/expansion/rules.py:17-34 | one child with id 2·id+1, the parent state with 1 appended, parents {id} and default rule and hash |
| ExpansionRules.ChildIdInjective | spectrum/expansion/rules.py:25 | two nodes' children share an id exactly when the nodes do |
| ExpansionRules.ExpandLayer | spectrum/expansion/rules.py:37-47 | one child per input node, as a permutation sorted by id; the sort is stable, so children sharing an id keep the order of their parents |
| ExpansionRules.LayerParents | spectrum/expansion/rules.py:43-47 | each output node is the child of some input node and points at it |
| ExpansionRules.ChildrenDistinct | spectrum/expansion/rules.py:25 | distinct input ids give distinct child ids |
| ExpansionRules.LayerOrderIndependent | tests/test_expansion_rules.py:22-30 | for distinct ids the layer does not depend on input order |
| ExpansionExamples.AddOneToTwoRoots | tests/test_expand_rules.py:7-19 | roots 0:(0) and 1:(1) plus 1 give children (1) under {0} and (2) under {1} |
| ExpansionExamples.ExpandEmptyFails | src/spectrum/expand/rules.py:38 | the empty lattice is ValueError |
| ExpansionExamples.ExpandNodeTwo | tests/test_expansion_rules.py:13-19 | node 2 with state (3) has child 5 with state (3, 1) |
| ExpansionExamples.LayerEitherOrder | tests/test_expansion_rules.py:22-30 | the layer of nodes 1 and 3 is the same in either order |
| Mining.Mine | spectrum/invariant/mine.py:11-43 | empty input mines nothing; a state shorter than the first is IndexError; otherwise a mined fact is present exactly when it holds in every state |
| Mining.MinedHoldEverywhere | spectrum/invariant/mine.py:19-41 | every mined constant or equality holds in every state |
| Mining.EqualOrdered | spectrum/invariant/mine.py:31-41 | an `equal` pair (i, j) always has i < j |
| Mining.MoreStatesFewerInvariants | spectrum/invariant/mine.py:17-43 | adding a state can only remove mined facts |
| Mining.SingleValue | src/spectrum/invariant/mine.py:31-39 | a coordinate has one value across states exactly when it is constant |
| Mining.MineStates | src/spectrum/invariant/mine.py:21-51 | the same miner over state coordinates: empty gives nothing, a shorter state fails, otherwise exactly the facts holding everywhere |
| MiningExamples.ConstantCoordinate | tests/test_invariant_mining.py:6-14 | coordinate 0 fixed at 1 is mined; the varying coordinate is not |
| MiningExamples.EqualCoordinates | tests/test_invariant_mining.py:17-24 | coordinates 0 and 1 equal in both states give the pair (0, 1) |
| InvariantMaps.UniqueNodeIds | invariants/core.py:21-29 | the set of the input's elements; as large as the input exactly when there are no duplicates |
| InvariantMaps.ComposeInvariants | invariants/core.py:32-44 | the keys are the union of the inputs' keys, each value from the last mapping holding the key |
| InvariantMaps.ComposeSnoc | invariants/core.py:32-44 | composing one more mapping is a right-biased union with it |
| InvariantMaps.FlattenInvariants | invariants/core.py:47-55 | holds exactly the elements of the inner sequences |
| InvariantMaps.FlattenAppend | invariants/core.py:47-55 | flattening distributes over concatenation, so the order is kept |
| InvariantMaps.AsTupleInjective | invariants/core.py:62-76 | an invariant is determined by its pair |
| InvariantMaps.ToInvariants | invariants/core.py:79-83 | one invariant per item, whose pair is the item |
| InvariantMaps.ToInvariantsRoundTrip | invariants/core.py:62-83 | taking the pairs of the built invariants gives the items back |
| InvariantMaps.InvariantDifference | invariants/core.py:86-100 | exactly the entries of `a` whose key `b` lacks or maps to another value |
| InvariantMaps.DifferenceEmpty | invariants/core.py:86-100 | the difference is empty exactly when `a` is contained in `b` |
| InvariantMaps.DifferenceRestores | invariants/core.py:86-100 | composing `b` with `a - b` equals composing `b` with `a` |
| InvariantMaps.ConsistentCompose | invariants/core.py:32-44 | when consistent, composition keeps every input's value |
| InvariantMaps.VerifyCompositionConsistency | invariants/core.py:107-118 | true exactly when no key is given two different values |
| InvariantMapsExamples.ComposeExample | invariants/core.py:32-44 | later mappings win when composing |
| InvariantMapsExamples.DifferenceExample | invariants/core.py:86-100 | `{x:1, y:2} - {y:2}` is `{x:1}` |
| InvariantMapsExamples.ConsistencyExamples | invariants/core.py:107-118 | a key with two values is inconsistent; disjoint keys are consistent |
| Registries.Register | src/spectrum/invariants/core.py:22-26 | refused exactly when the name is taken; a well-formed registry stays well formed |
| Registries.RegisterThenLookup | src/spectrum/invariants/core.py:25 | after registering, the name maps to its value and is listed last; every other name keeps its entry |
| Registries.RegisterTwiceFails | src/spectrum/invariants/core.py:23-24 | a name cannot be registered twice |
| InvariantRegistry.RegisterInvariant | src/spectrum/invariants/core.py:18-27 | a taken name is ValueError; otherwise the registry gains the name and the function is handed back unchanged |
| InvariantRegistry.CheckInvariants | src/spectrum/invariants/core.py:30-43 | a non-mapping is TypeError; otherwise one result per registered name, in registration order, each the predicate's value |
| InvariantRegistry.ReportAllTrue | src/spectrum/invariants/core.py:40-43 | every result is true exactly when every predicate holds |
| InvariantRegistry.NonEmptyState | src/spectrum/invariants/baseline.py:4-6 | true exactly when the state has an entry |
| InvariantRegistry.Baseline | src/spectrum/invariants/baseline.py:4-16 | the three baseline predicates registered under three distinct names, in file order |
| InvariantRegistry.BaselineLookup | src/spectrum/invariants/baseline.py:9-16 | the baseline checks mean: some entry, no `time` key, no `random` key |
| InvariantRegistry.BaselineReportTime | src/spectrum/invariants/baseline.py:9-11 | a state with a `time` key fails only the time check |
| InvariantRegistry.BaselineNamesTaken | src/spectrum/invariants/core.py:23-24 | re-registering a baseline name is ValueError |
| ProofRegistry.RegisterProof | src/spectrum/invariants/proof.py:8-14 | a taken name is ValueError; otherwise the proof is added under its name |
| ProofRegistry.RunProofs | src/spectrum/invariants/proof.py:16-23 | true exactly when every registered proof passes; proofs run in order and stop at the first failure |
| ProofRegistry.ListProofs | src/spectrum/invariants/proof.py:25-26 | exactly the registered names, each once |
| ProofRegistry.RegisterListsLast | src/spectrum/invariants/proof.py:25-26 | a newly registered name is listed last, after the earlier names in order |
| Contracts.ValidateInput | spectrum/contracts/core.py:22-32 | non-mapping input is TypeError; otherwise it passes exactly when all required keys are present and no forbidden key is, reporting the first missing key, then the first present forbidden key |
| Contracts.ValidateOutput | spectrum/contracts/core.py:34-39 | passes exactly when the output has the declared type, else TypeError |
| Contracts.Enforce | spectrum/contracts/core.py:42-48 | succeeds exactly when the input is admitted and the output has the declared type, returning fn's result unchanged; an input error wins over an output error |
| Contracts.EnforceContract | spectrum/contracts/core.py:42-48 | the wrapped function behaves as the validated call on every input |
| Contracts.InputCheckedFirst | spectrum/contracts/core.py:45-46 | a rejected input fails whatever the wrapped function does |
| Contracts.MissingBeforeForbidden | spectrum/contracts/core.py:26-32 | a missing required key is reported as KeyError even when a forbidden key is present |
| ContractsExamples.AcceptsValidInput | tests/test_contracts.py:9-23 | `{x: 1}` through `x + 1` gives 2 |
| ContractsExamples.RejectsMissingKey | tests/test_contracts.py:26-42 | an empty mapping is KeyError("x") |
| ContractsExamples.RejectsWrongOutputType | tests/test_contracts.py:45-61 | an int output where a str is declared is TypeError |
| EngineRegistry.EngineIdSplit | src/spectrum/engines/registry.py:34 | the key `name@version` splits back into name and version when the name has no `@` |
| EngineRegistry.RegisterEngine | src/spectrum/engines/registry.py:33-45 | a taken key is AssertionError; otherwise name, version, description and the code hash are stored under the key |
| EngineRegistry.GetEngineSpec | src/spectrum/engines/registry.py:48-62 | an unknown key is KeyError; a code-hash mismatch is AssertionError; otherwise the stored spec, whose hash matches |
| EngineRegistry.RegisterThenGet | src/spectrum/engines/registry.py:40-62 | looking up a just-registered engine with the same function returns its spec |
| EngineRegistry.TamperedCodeRejected | src/spectrum/engines/registry.py:57-60 | looking up with a function whose hash differs is AssertionError |
| EngineRegistry.EngineIdInjective | src/spectrum/engines/registry.py:34 | keys are unique for names without `@` |
| EngineRegistry.EngineIdCollision | src/spectrum/engines/registry.py:34-38 | `a@b`/`c` and `a`/`b@c` share a key, so the second registration is refused |
| TextBaseline.NonEmptyState | spectrum/invariants/baseline.py:4-6 | false exactly for the empty string |
| TextBaseline.NoTimeDependency | spectrum/invariants/baseline.py:9-11 | false exactly when `time` occurs in the text |
| TextBaseline.NoNondeterministicSources | spectrum/invariants/baseline.py:14-33 | false exactly when one of the eight listed substrings occurs |
| TextBaseline.PiecesPass | spectrum/invariants/baseline.py:33 | a piece of a passing text passes |
| TextBaseline.TimeCallMentionsTime | spectrum/invariants/baseline.py:9-27 | a text calling `time.time(` also fails the time check |
| TextBaseline.EmptyText | spectrum/invariants/baseline.py:4-33 | the empty string fails the non-empty check and passes the other two |
| Fairness.Rates | spectrum/metrics/fairness.py:11-29 | keys are exactly the groups of the zipped prefix; each rate times the group's count is its number of positives |
| Fairness.RateOf | spectrum/metrics/fairness.py:24-29 | any reduced fraction equal to positives over count is the group's rate |
| Fairness.TallyCounts | spectrum/metrics/fairness.py:24-26 | the loop counts each group's samples and sums its outputs |
| Fairness.DemographicParityDifference | spectrum/metrics/fairness.py:32-52 | non-negative; 0 with no groups; otherwise the largest rate minus the smallest |
| Fairness.DemographicParityRatio | spectrum/metrics/fairness.py:55-79 | 1 with no groups or a zero largest rate; otherwise the smallest rate over the largest |
| Fairness.RatesInUnitInterval | spectrum/metrics/fairness.py:24-29 | with 0/1 outputs every rate lies in [0, 1] |
| Fairness.BinaryDifferenceInUnitInterval | spectrum/metrics/fairness.py:51-52 | with 0/1 outputs the difference lies in [0, 1] |
| Fairness.BinaryRatioInUnitInterval | spectrum/metrics/fairness.py:76-79 | with 0/1 outputs the ratio lies in [0, 1] |
| Fairness.OpportunityTally | spectrum/metrics/fairness.py:101-105 | actual positives are counted for exactly the groups with a label-1 sample; true positives only among those |
| Fairness.TruePositiveRates | spectrum/metrics/fairness.py:108-112 | a rate for exactly the groups with a label-1 sample |
| Fairness.TruePositiveRatesAreRates | spectrum/metrics/fairness.py:101-112 | the true-positive rates are the parity rates of the label-1 samples read as hits |
| Fairness.EqualOpportunityDifference | spectrum/metrics/fairness.py:82-118 | non-negative, and 0 when no sample is labelled 1 |
| Fairness.EqualOpportunityIsParityOfHits | spectrum/metrics/fairness.py:97-118 | equal-opportunity difference is the parity difference of the label-1 samples' hits |
| FairnessExamples.TwoGroupRates | tests/test_determinism.py:18-33 | outputs 1,0,1,1,0,0 over groups a,a,b,b,b,a give a 1/3 and b 2/3 |
| FairnessExamples.EmptyInputs | tests/test_determinism.py:162-172 | empty inputs give no rates, difference 0 and ratio 1 |
| FairnessExamples.ZipTruncates | spectrum/metrics/fairness.py:24 | outputs without a group are dropped by the zip |
| Engine.Divide | engine/core.py:52-67 | ValueError with the division message exactly when b is 0; otherwise the quotient times b is a |
| Engine.Apply | engine/core.py:90-108 | an unknown name is "Unknown operation"; otherwise it succeeds exactly when not dividing by 0, and the result is the named operation's |
| Engine.Step | engine/core.py:99-116 | `operation`, `a`, `b` are read in that order, a missing one being KeyError; success records step, name, operands and the computed result |
| Engine.Execute | engine/core.py:70-123 | succeeds exactly when every step does, with entry i the i-th step and the log equal to the results; a failure is the first failing step's error |
| Engine.ExecuteComputes | engine/core.py:99-116 | every result entry satisfies its operation's arithmetic |
| Engine.MissingOperandBeforeUnknownName | engine/core.py:100-105 | a missing operand is KeyError even for an unknown operation |
| Engine.Inverses | engine/core.py:13-67 | subtracting undoes adding, and dividing undoes multiplying by a non-zero b |
| PublicApi.Rebuild | api/public.py:64-70 | an entry missing `operation`, `operands`, `a` or `b` is KeyError for it, checked in that order; otherwise the instruction of its name and operands |
| PublicApi.Replay | api/public.py:42-75 | all entries are rebuilt before anything runs, and the first malformed entry decides the KeyError; once every entry rebuilds, the replay succeeds exactly when every rebuilt step does, fails with the first failing step's error otherwise, and a success has one result per entry, with the entry's step, name and operands and a correct result |
| PublicApi.RebuildLogEntry | api/public.py:64-70 | a logged entry rebuilds to the instruction that produced it |
| PublicApi.ReplayRoundTrip | tests/test_engine.py:145-156 | replaying the log of a successful run gives that run's results |
| PublicApi.ExecutePrefix | tests/test_engine.py:191-213 | a prefix of a successful run's instructions runs to the prefixes of its results and log |
| PublicApi.PartialLogReplays | tests/test_engine.py:191-213 | when step i fails the whole run fails, and the log of the steps before it replays to their results |
| PublicApi.ReplayIgnoresRecorded | api/public.py:64-70 | replay ignores the recorded step numbers and results |
| EngineExamples.TwoInstructions | engine/core.py:99-123 | add 5 3 then multiply 2 4 give results 8 and 8 with the matching log |
| EngineExamples.UnknownOperation | tests/test_engine.py:283-288 | `power` is "Unknown operation: power" |
| EngineExamples.MissingOperand | tests/test_engine.py:290-295 | an instruction without `b` is KeyError("b") |
| EngineExamples.DivisionByZeroInSequence | tests/test_engine.py:297-306 | a division by zero after a good step fails the whole run |
| EngineExamples.EmptyInstructions | tests/test_engine.py:308-315 | the empty program gives empty results and log |
| EngineExamples.RebuildBeforeRun | api/public.py:64-73 | a malformed later entry is reported before an earlier entry's division by zero |
| EngineExamples.PartialLog | api/public.py:64-73 | a hand-written one-entry log for `add` with operands 5 and 3 replays to the single result 8 at step 0 |

## Left out

- SHA-256 and UTF-8 encoding are left out (spectrum/serialization/canonical.py:44-48). `Canonical.HashNodes` takes the digest as a function parameter applied to the newline-terminated message. Its hex length and collision freedom are not stated.
- `inspect.getsource` plus SHA-256 (src/spectrum/engines/registry.py:24-26) is also a parameter, `hashOf`. Computing the hash before the duplicate check is unobservable in a pure model.
- Lattice.NewNode: when neither `id` nor `node_id` is given, the code builds a node whose id is `None`. The model returns no node, because ids are integers here.
- Lattice.NewNode: `state_vector` defaults to `None` in spectrum/lattice/node.py:30. The model always takes a state sequence, so a node built without one is not modelled.
- Replay.ToInt: Python's `int()` also accepts non-ASCII Unicode decimal digits, surrounding whitespace and `_` digit separators. The model, through `Decimal.ParseInt`, accepts only an optional sign followed by ASCII digits, so such ids are ValueError here.
- Engine numbers are mathematical reals, not IEEE-754 floats. Rounding, overflow, NaN and the bit-identity tests are not modelled.
- The engine's dictionary deep copy of the log is modelled as the same value, because values are immutable here.
- Fairness.Rates: the rate map is a Dafny map, so the sorted key order of the returned dict is not stated. `sorted()` raising on incomparable groups is not modelled either.
- Fairness: `int(output)` is modelled on integer outputs; string or float outputs are not modelled.
- Fairness.EqualOpportunityDifference: its own contract states only the sign and the empty case. The full value is stated by `Fairness.EqualOpportunityIsParityOfHits`.
- Replay.ParseState: its own contract covers only the all-empty and no-empty token cases. Empty tokens among others are covered by `Replay.EmptyTokenSkipped`.
- The module-level registries are global mutable dictionaries in the code. The model passes the registry value explicitly, so decorator side effects and import-time registration become calls of `Register…`.
- spectrum/invariants/baseline.py imports `invariant` from spectrum/invariants/core.py, which does not define it, so that module cannot be imported as written. Its three predicates are modelled on their own (`TextBaseline`), without the registration.
- The floating-point entropy classifier of spectrum/irreversibility/__init__.py is left out: it uses logarithms and a tolerance.
- JSON canonicalisation and trace hashing (spectrum/api.py, spectrum/logging/core.py, proof/replay_proof.py) are thin serialisation and SHA-256 wrappers and are not part of this model.
- Placeholders that return constants are not part of this model: spectrum/irreversibility/detect.py, spectrum/invariants/mine.py, src/spectrum/boundary/map.py, src/spectrum/lattice/expand.py, causality/irreversible.py, spectrum/api/measure.py, spectrum/api/verify.py, lattice/state.py, spectrum/lattice/state.py.
- Glue and I/O are not part of this model: the execute and verify API wrappers, `__init__.py` re-exports, setup.py, demo.py.
- `no_orphan_nodes` (src/spectrum/invariants/global_invariants.py:20-21) and `parents_are_acyclic` (lines 29 and 47 of the same file) iterate their input twice, which would exhaust a generator. Inputs are sequences here, so the second pass always sees every node.
- GlobalInvariants.ParentsAreAcyclic: the code's recursive `visit` (src/spectrum/invariants/global_invariants.py:34-45) raises RecursionError on parent chains deeper than Python's recursion limit. The model has no recursion limit and always returns a verdict.
- Mining.MineStates: src/spectrum/invariant/mine.py:15 imports `LatticeState` from spectrum/lattice/state.py, whose record (lines 4-7) has only a `value` field, so the code as written raises AttributeError at mine.py:26. The model assumes the state the miner expects instead: a `coordinates` sequence with `dimension() == len(coordinates)`.
- Set iteration order is not modelled: parent sets are Dafny sets and are rendered in ascending order, as the code sorts them.
- The repeated-call determinism tests are not stated, because every member here is a pure function.

=== FILE: boundary.dfy ===
/**
  The boundary check of src/spectrum/boundary/checks.py, which shares the
  name `no_orphan_nodes` with the dangling-parent check but tests something
  else: a non-empty lattice must have exactly one root id, a root being a
  node without parents. Parent ids themselves are not examined.
 */
module Boundary {
  import opened Lattice
  import opened Collections

  /** `{n.node_id for n in nodes if not n.parent_ids}`. */
  function RootIds(nodes: seq<Node>): set<int> {
    set i | 0 <= i < |nodes| && nodes[i].parents == {} :: nodes[i].id
  }

  /** `x` is the id of a parentless node, and every parentless node has id `x`. */
  predicate IsOnlyRoot(nodes: seq<Node>, x: int) {
    (exists i :: 0 <= i < |nodes| && nodes[i].parents == {} && nodes[i].id == x) &&
    forall i :: 0 <= i < |nodes| && nodes[i].parents == {} ==> nodes[i].id == x
  }

  /** `no_orphan_nodes` (boundary): empty input passes, otherwise there is exactly one root id. */
  function NoOrphanNodes(nodes: seq<Node>): (r: bool)
    ensures r <==> |nodes| == 0 || exists x :: IsOnlyRoot(nodes, x)
  {
    if |nodes| == 0 then true
    else
      RootsSingleton(nodes);
      |RootIds(nodes)| == 1
  }

  lemma RootsSingleton(nodes: seq<Node>)
    ensures |RootIds(nodes)| == 1 <==> exists x :: IsOnlyRoot(nodes, x)
  {
    if |RootIds(nodes)| == 1 {
      SingletonSize(RootIds(nodes));
      var x :| RootIds(nodes) == {x};
      OnlyRootOf(nodes, x);
    }
    if exists x :: IsOnlyRoot(nodes, x) {
      var x :| IsOnlyRoot(nodes, x);
      RootsOf(nodes, x);
    }
  }

  lemma OnlyRootOf(nodes: seq<Node>, x: int)
    requires RootIds(nodes) == {x}
    ensures IsOnlyRoot(nodes, x)
  {
    assert x in RootIds(nodes);
    forall i | 0 <= i < |nodes| && nodes[i].parents == {}
      ensures nodes[i].id == x
    {
      assert nodes[i].id in RootIds(nodes);
    }
  }

  lemma RootsOf(nodes: seq<Node>, x: int)
    requires IsOnlyRoot(nodes, x)
    ensures RootIds(nodes) == {x}
  {
    var i :| 0 <= i < |nodes| && nodes[i].parents == {} && nodes[i].id == x;
    assert x in RootIds(nodes);
    forall y | y in RootIds(nodes)
      ensures y == x
    {
      var j :| 0 <= j < |nodes| && nodes[j].parents == {} && nodes[j].id == y;
    }
  }
}

=== FILE: canonical.dfy ===
/**
  The canonical text form of lattice nodes (spectrum/serialization/canonical.py):
  one line `id=<id>|state=<n/d,...>|parents=<p,...>` per node, lines in
  ascending id order, parent ids in ascending order. `HashNodes` digests the
  lines, each followed by a newline; the digest itself (SHA-256 of the UTF-8
  bytes) is a parameter of the model.
 */
module Canonical {
  import opened Wrappers
  import opened Decimal
  import opened Text
  import opened Rational
  import opened Lattice
  import opened NodeOrder
  import opened IdSets

  /** Characters of `str(f.numerator)/str(f.denominator)`. */
  predicate IsFractionChar(c: char) {
    IsNumeral(c) || c == '/'
  }

  /** Characters of a comma-separated list of integers or fractions. */
  predicate IsTokenChar(c: char) {
    IsFractionChar(c) || c == ','
  }

  /** `_serialize_fraction`: numerator and denominator of the reduced form. */
  function FractionText(f: Fraction): (s: string)
    ensures |s| >= 3 && ',' !in s
    ensures OnlyChars(s, IsFractionChar)
    ensures exists k :: 0 < k < |s| - 1 && s[k] == '/' && '/' !in s[..k] && '/' !in s[k + 1..]
    ensures var p := Split(s, '/'); |p| == 2 && ParseInt(p[0]) == Some(f.num) && ParseInt(p[1]) == Some(f.den)
  {
    var a, b := IntToString(f.num), IntToString(f.den);
    var s := a + "/" + b;
    assert s[..|a|] == a && s[|a| + 1..] == b;
    SplitTwo(a, b, '/');
    assert Split(s, '/') == [a, b] by { assert s == a + ['/'] + b; }
    IntRoundTrip(f.num);
    IntRoundTrip(f.den);
    s
  }

  /** The rendered components of a state vector. */
  function FractionTexts(state: seq<Fraction>): (r: seq<string>)
    ensures |r| == |state| && forall i :: 0 <= i < |state| ==> r[i] == FractionText(state[i])
  {
    seq(|state|, i requires 0 <= i < |state| => FractionText(state[i]))
  }

  /** The rendered members of a sequence of ids. */
  function IdTexts(ids: seq<int>): (r: seq<string>)
    ensures |r| == |ids| && forall i :: 0 <= i < |ids| ==> r[i] == IntToString(ids[i])
  {
    seq(|ids|, i requires 0 <= i < |ids| => IntToString(ids[i]))
  }

  /** The text after `state=`: the components in vector order, comma-separated. */
  function StateText(state: seq<Fraction>): (s: string)
    ensures OnlyChars(s, IsTokenChar)
    ensures |state| == 0 <==> s == ""
  {
    var parts := FractionTexts(state);
    JoinOnlyChars(parts, ',', IsTokenChar);
    if |state| > 0 then JoinNonEmpty(parts, ','); Join(parts, ',') else Join(parts, ',')
  }

  /** The text after `parents=`: the parent ids in ascending order, comma-separated. */
  function ParentsText(ps: set<int>): (s: string)
    ensures OnlyChars(s, IsTokenChar)
    ensures ps == {} <==> s == ""
  {
    var parts := IdTexts(SortedIds(ps));
    JoinOnlyChars(parts, ',', IsTokenChar);
    if ps != {} then JoinNonEmpty(parts, ','); Join(parts, ',') else Join(parts, ',')
  }

  /**
    `serialize_node`. The line splits on `|` into exactly the three fields
    `id=`, `state=` and `parents=`, since no field text holds a `|`.
   */
  function SerializeNode(n: Node): (line: string)
    ensures Split(line, '|') == ["id=" + IntToString(n.id), "state=" + StateText(n.state), "parents=" + ParentsText(n.parents)]
  {
    IdTokens(n.id);
    SplitLine(IntToString(n.id), StateText(n.state), ParentsText(n.parents));
    ("id=" + IntToString(n.id)) + "|" + ("state=" + StateText(n.state)) + "|" + ("parents=" + ParentsText(n.parents))
  }

  lemma IdTokens(i: int)
    ensures OnlyChars(IntToString(i), IsTokenChar)
  {
  }

  /** Field texts without `|` split back out of the line that joins them. */
  lemma SplitLine(id: string, state: string, parents: string)
    requires OnlyChars(id, IsTokenChar) && OnlyChars(state, IsTokenChar) && OnlyChars(parents, IsTokenChar)
    ensures Split(("id=" + id) + "|" + ("state=" + state) + "|" + ("parents=" + parents), '|') ==
      ["id=" + id, "state=" + state, "parents=" + parents]
  {
    var a, b, c := "id=" + id, "state=" + state, "parents=" + parents;
    NoBar("id=", id);
    NoBar("state=", state);
    NoBar("parents=", parents);
    SplitThree(a, b, c, '|');
    assert a + "|" + b + "|" + c == a + ['|'] + b + ['|'] + c;
  }

  lemma NoBar(tag: string, t: string)
    requires '|' !in tag && OnlyChars(t, IsTokenChar)
    ensures '|' !in tag + t
  {
  }

  /** The line of a node depends only on its id, state and parents. */
  lemma LineIgnoresRuleAndHash(n: Node)
    ensures SerializeNode(Strip(n)) == SerializeNode(n)
  {
  }

  /** Parent ids appear in ascending order whatever the set: equal sets print equally. */
  lemma ParentsOrderIndependent(n: Node, m: Node)
    requires n.id == m.id && n.state == m.state && n.parents == m.parents
    ensures SerializeNode(n) == SerializeNode(m)
  {
  }

  /** `serialize_nodes`: one line per node, in the stable order by id. */
  function SerializeNodes(ns: seq<Node>): (lines: seq<string>)
    ensures |lines| == |ns|
    ensures forall i :: 0 <= i < |lines| ==> lines[i] == SerializeNode(SortById(ns)[i])
  {
    var sorted := SortById(ns);
    SortMembers(ns);
    seq(|sorted|, i requires 0 <= i < |sorted| => SerializeNode(sorted[i]))
  }

  /** For distinct ids, every permutation of the input gives the same lines. */
  lemma SerializeOrderIndependent(a: seq<Node>, b: seq<Node>)
    requires multiset(a) == multiset(b) && DistinctIds(a)
    ensures SerializeNodes(a) == SerializeNodes(b)
  {
    SortOrderIndependent(a, b);
  }

  /** The bytes `hash_nodes` feeds the digest: every line followed by a newline. */
  function HashMessage(lines: seq<string>): (m: string)
    ensures |lines| == 0 <==> m == ""
  {
    if |lines| == 0 then "" else lines[0] + "\n" + HashMessage(lines[1..])
  }

  /** `hash_nodes`, for a given digest function over the message. */
  function HashNodes<D>(ns: seq<Node>, digest: string -> D): (h: D)
    ensures h == digest(HashMessage(SerializeNodes(ns)))
  {
    digest(HashMessage(SerializeNodes(ns)))
  }

  /** The hash is permutation-invariant for distinct ids. */
  lemma HashOrderIndependent<D>(a: seq<Node>, b: seq<Node>, digest: string -> D)
    requires multiset(a) == multiset(b) && DistinctIds(a)
    ensures HashNodes(a, digest) == HashNodes(b, digest)
  {
    SerializeOrderIndependent(a, b);
  }

  /** The empty collection hashes the empty message. */
  lemma HashEmpty<D>(digest: string -> D)
    ensures HashNodes([], digest) == digest("")
  {
  }
}

=== FILE: collections.dfy ===
/**
  Generic facts about Python lists and sets: `set(xs)` and the fact behind
  every `len(xs) == len(set(xs))` check (the set is as large as the list
  exactly when no element repeats), list comprehensions, and the first
  element a `for` loop stops at.
 */
module Collections {
  import opened Wrappers

  /** `set(xs)`. */
  function Elements<T>(xs: seq<T>): set<T> {
    set x | x in xs
  }

  predicate NoDuplicates<T(==)>(xs: seq<T>) {
    forall i, j :: 0 <= i < j < |xs| ==> xs[i] != xs[j]
  }

  lemma {:induction false} ElementsSize<T>(xs: seq<T>)
    ensures |Elements(xs)| <= |xs|
    ensures |Elements(xs)| == |xs| <==> NoDuplicates(xs)
  {
    if |xs| > 0 {
      var rest := xs[1..];
      ElementsSize(rest);
      assert Elements(xs) == {xs[0]} + Elements(rest) by {
        assert xs == [xs[0]] + rest;
      }
      NoDuplicatesCons(xs);
    }
  }

  lemma NoDuplicatesCons<T>(xs: seq<T>)
    requires |xs| > 0
    ensures NoDuplicates(xs) <==> NoDuplicates(xs[1..]) && xs[0] !in xs[1..]
  {
    var rest := xs[1..];
    if NoDuplicates(rest) && xs[0] !in rest {
      forall i, j | 0 <= i < j < |xs|
        ensures xs[i] != xs[j]
      {
        assert xs[j] == rest[j - 1];
        if i > 0 {
          assert xs[i] == rest[i - 1];
        }
      }
    }
  }

  /** A non-empty set has a member to pick. */
  lemma Member<T>(s: set<T>) returns (y: T)
    requires s != {}
    ensures y in s
  {
    y :| y in s;
  }

  /** A set has exactly one element when it is a singleton. */
  lemma SingletonSize<T>(s: set<T>)
    ensures |s| == 1 <==> exists x :: s == {x}
  {
    if |s| == 1 {
      var x := Member(s);
      assert |s - {x}| == 0;
      assert s == {x};
    }
  }

  /** `[f(x) for x in xs]`. */
  function Map<A, B>(xs: seq<A>, f: A -> B): (r: seq<B>)
    ensures |r| == |xs| && forall i :: 0 <= i < |xs| ==> r[i] == f(xs[i])
  {
    seq(|xs|, i requires 0 <= i < |xs| => f(xs[i]))
  }

  /** Mapping two permutations of each other gives two permutations of each other. */
  lemma {:induction false} MapMultiset<A, B>(a: seq<A>, b: seq<A>, f: A -> B)
    requires multiset(a) == multiset(b)
    ensures multiset(Map(a, f)) == multiset(Map(b, f))
  {
    if |a| == 0 {
      assert |b| == |multiset(b)| == 0;
    } else {
      var x := a[0];
      assert x in multiset(b);
      var k :| 0 <= k < |b| && b[k] == x;
      var rest := RemoveAt(a, b, k);
      MapMultiset(a[1..], rest, f);
      MapRemoveAt(b, k, f);
      assert Map(a, f) == [f(x)] + Map(a[1..], f);
    }
  }

  /** `b` without position `k`, where `b[k]` is the head of its permutation `a`. */
  function RemoveAt<A>(a: seq<A>, b: seq<A>, k: int): (rest: seq<A>)
    requires multiset(a) == multiset(b) && 0 <= k < |b| && |a| > 0 && b[k] == a[0]
    ensures rest == b[..k] + b[k + 1..]
    ensures multiset(a[1..]) == multiset(rest)
  {
    var rest := b[..k] + b[k + 1..];
    assert b == b[..k] + [b[k]] + b[k + 1..];
    assert a == [a[0]] + a[1..];
    assert multiset(rest) == multiset(b) - multiset{a[0]};
    rest
  }

  lemma MapRemoveAt<A, B>(b: seq<A>, k: int, f: A -> B)
    requires 0 <= k < |b|
    ensures multiset(Map(b, f)) == multiset(Map(b[..k] + b[k + 1..], f)) + multiset{f(b[k])}
  {
    var m := Map(b, f);
    assert m == Map(b[..k], f) + [f(b[k])] + Map(b[k + 1..], f);
    assert Map(b[..k] + b[k + 1..], f) == Map(b[..k], f) + Map(b[k + 1..], f);
  }

  /** The position a `for x in xs: if p(x): ...` loop stops at, if any. */
  function FirstIndex<T>(xs: seq<T>, p: T -> bool): (r: Option<nat>)
    ensures r.None? <==> forall i :: 0 <= i < |xs| ==> !p(xs[i])
    ensures r.Some? ==> r.value < |xs| && p(xs[r.value]) && forall j :: 0 <= j < r.value ==> !p(xs[j])
  {
    if |xs| == 0 then None
    else if p(xs[0]) then Some(0)
    else
      match FirstIndex(xs[1..], p)
      case None => None
      case Some(i) => Some(i + 1)
  }
}

=== FILE: compose.dfy ===
/**
  The composition law of spectrum/invariants/compose.py: a lattice is valid
  exactly when every invariant holds, checked in order with a short-circuit
  AND.
 */
module Compose {
  import opened Lattice

  /**
    `all_invariants_hold`. `calls` is the number of invariants evaluated:
    all of them when every one holds, otherwise up to and including the
    first that fails and none after it.
   */
  method AllInvariantsHold(nodes: seq<Node>, invariants: seq<seq<Node> -> bool>) returns (ok: bool, calls: nat)
    ensures ok <==> forall i :: 0 <= i < |invariants| ==> invariants[i](nodes)
    ensures ok ==> calls == |invariants|
    ensures !ok ==> 1 <= calls <= |invariants| && !invariants[calls - 1](nodes)
    ensures !ok ==> forall i :: 0 <= i < calls - 1 ==> invariants[i](nodes)
  {
    calls := 0;
    while calls < |invariants|
      invariant 0 <= calls <= |invariants|
      invariant forall i :: 0 <= i < calls ==> invariants[i](nodes)
    {
      var holds := invariants[calls](nodes);
      calls := calls + 1;
      if !holds {
        return false, calls;
      }
    }
    return true, calls;
  }
}

=== FILE: compose_examples.dfy ===
/**
  The lattices of tests/test_invariant_composition.py and
  tests/test_invariants.py, checked against the id check, the single-root
  boundary check and their composition.
 */
module ComposeExamples {
  import opened Rational
  import opened Lattice
  import opened GlobalInvariants
  import Boundary

  function RootAndChild(): seq<Node> {
    [Plain(0, [FromInt(0)], {}), Plain(1, [FromInt(1)], {0})]
  }

  function DuplicateRoots(): seq<Node> {
    [Plain(0, [FromInt(0)], {}), Plain(0, [FromInt(1)], {})]
  }

  function TwoRoots(): seq<Node> {
    [Plain(0, [FromInt(0)], {}), Plain(1, [FromInt(1)], {})]
  }

  function MutualPair(): seq<Node> {
    [Plain(0, [FromInt(0)], {1}), Plain(1, [FromInt(1)], {0})]
  }

  /** The invariant list of the composition tests. */
  function Checks(): seq<seq<Node> -> bool> {
    [UniqueNodeIds, Boundary.NoOrphanNodes]
  }

  /** A root with one child passes both checks, so the composition holds. */
  lemma RootAndChildPasses()
    ensures forall i :: 0 <= i < |Checks()| ==> Checks()[i](RootAndChild())
  {
    var ns := RootAndChild();
    assert ns[0].parents == {} && ns[0].id == 0 && ns[1].parents != {};
    assert Boundary.IsOnlyRoot(ns, 0);
  }

  /**
    Two nodes with id 0 fail the first check, so the composition fails and
    stops there; both are roots of the one id 0, so the boundary check alone
    would pass.
   */
  lemma DuplicateRootsFails()
    ensures !Checks()[0](DuplicateRoots())
    ensures Boundary.NoOrphanNodes(DuplicateRoots())
  {
    var ns := DuplicateRoots();
    assert ns[0].id == ns[1].id;
    assert ns[0].parents == {} && ns[0].id == 0;
    assert Boundary.IsOnlyRoot(ns, 0);
  }

  /** Two parentless nodes with different ids fail the boundary check. */
  lemma TwoRootsFail()
    ensures !Boundary.NoOrphanNodes(TwoRoots())
  {
    var ns := TwoRoots();
    assert ns[0].parents == {} && ns[1].parents == {};
    if x :| Boundary.IsOnlyRoot(ns, x) {
      assert false;
    }
  }

  /** When every node has a parent there is no root, and the boundary check fails. */
  lemma NoRootFails()
    ensures !Boundary.NoOrphanNodes(MutualPair())
  {
    var ns := MutualPair();
    assert forall i :: 0 <= i < |ns| ==> ns[i].parents != {};
    if x :| Boundary.IsOnlyRoot(ns, x) {
      assert false;
    }
  }

  /** A parent id naming no node is not examined by the boundary check. */
  lemma DanglingParentIgnored()
    ensures Boundary.NoOrphanNodes([Plain(0, [], {}), Plain(1, [], {5})])
  {
    var ns := [Plain(0, [], {}), Plain(1, [], {5})];
    assert ns[0].parents == {} && ns[0].id == 0 && ns[1].parents != {};
    assert Boundary.IsOnlyRoot(ns, 0);
  }
}

=== FILE: contracts.dfy ===
/**
  Interface contracts of spectrum/contracts/core.py. A contract names the
  keys an input mapping must hold, the keys it must not hold, and the type
  of the output. Python's `isinstance(data, Mapping)` is modelled by an
  `Option`: `None` stands for an input that is not a mapping. The output
  type is a predicate on output values.
 */
module Contracts {
  import opened Wrappers
  import opened Collections

  datatype Contract<!O> = Contract(
    name: string,
    inputKeys: seq<string>,
    outputType: O -> bool,
    forbiddenKeys: seq<string>)

  datatype ContractError = TypeError | KeyError(key: string) | AssertionError(key: string)

  /** All required keys are present and no forbidden key is. */
  predicate Admits<V, O>(c: Contract<O>, data: map<string, V>) {
    && (forall i :: 0 <= i < |c.inputKeys| ==> c.inputKeys[i] in data)
    && (forall i :: 0 <= i < |c.forbiddenKeys| ==> c.forbiddenKeys[i] !in data)
  }

  /**
    `validate_input`: a non-mapping is a TypeError; then the first required
    key that is missing, in declaration order, is a KeyError; then the first
    forbidden key that is present is an AssertionError. `None` means the
    input is accepted.
   */
  function ValidateInput<V, O>(c: Contract<O>, data: Option<map<string, V>>): (r: Option<ContractError>)
    ensures data.None? <==> r == Some(TypeError)
    ensures data.Some? ==> (r.None? <==> Admits(c, data.value))
    ensures r.Some? && r.value.KeyError? ==>
      && data.Some?
      && exists i :: 0 <= i < |c.inputKeys| && c.inputKeys[i] == r.value.key && r.value.key !in data.value
           && forall j :: 0 <= j < i ==> c.inputKeys[j] in data.value
    ensures r.Some? && r.value.AssertionError? ==>
      && data.Some?
      && (forall i :: 0 <= i < |c.inputKeys| ==> c.inputKeys[i] in data.value)
      && exists i :: 0 <= i < |c.forbiddenKeys| && c.forbiddenKeys[i] == r.value.key && r.value.key in data.value
           && forall j :: 0 <= j < i ==> c.forbiddenKeys[j] !in data.value
  {
    match data
    case None => Some(TypeError)
    case Some(m) =>
      match FirstIndex(c.inputKeys, k => k !in m)
      case Some(i) => Some(KeyError(c.inputKeys[i]))
      case None =>
        match FirstIndex(c.forbiddenKeys, k => k in m)
        case Some(i) => Some(AssertionError(c.forbiddenKeys[i]))
        case None => None
  }

  /** `validate_output`: an output not of the declared type is a TypeError. */
  function ValidateOutput<O>(c: Contract<O>, output: O): (r: Option<ContractError>)
    ensures r.None? <==> c.outputType(output)
    ensures r.Some? ==> r.value == TypeError
  {
    if c.outputType(output) then None else Some(TypeError)
  }

  /**
    One call of the wrapper `enforce_contract` builds: the input is checked
    before `fn` is applied, the output after, and an accepted output is
    `fn`'s result unchanged.
   */
  function Enforce<V, O>(c: Contract<O>, fn: map<string, V> -> O, data: Option<map<string, V>>): (r: Result<O, ContractError>)
    ensures r.Success? <==> data.Some? && Admits(c, data.value) && c.outputType(fn(data.value))
    ensures r.Success? ==> r.value == fn(data.value)
    ensures ValidateInput(c, data).Some? ==> r == Failure(ValidateInput(c, data).value)
    ensures data.Some? && Admits(c, data.value) && !c.outputType(fn(data.value)) ==> r == Failure(TypeError)
  {
    match ValidateInput(c, data)
    case Some(e) => Failure(e)
    case None =>
      var result := fn(data.value);
      match ValidateOutput(c, result)
      case Some(e) => Failure(e)
      case None => Success(result)
  }

  /** `enforce_contract(contract, fn)`: the wrapped function. */
  function EnforceContract<V(!new), O>(c: Contract<O>, fn: map<string, V> -> O): (w: Option<map<string, V>> -> Result<O, ContractError>)
    ensures forall data :: w(data) == Enforce(c, fn, data)
  {
    data => Enforce(c, fn, data)
  }

  /** A rejected input is rejected whatever the wrapped function is: the input check comes first. */
  lemma InputCheckedFirst<V, O>(c: Contract<O>, f: map<string, V> -> O, g: map<string, V> -> O, data: Option<map<string, V>>)
    requires data.None? || !Admits(c, data.value)
    ensures Enforce(c, f, data) == Enforce(c, g, data)
    ensures Enforce(c, f, data).Failure?
  {
  }

  /** Missing required keys win over forbidden keys that are present. */
  lemma MissingBeforeForbidden<V, O>(c: Contract<O>, fn: map<string, V> -> O, m: map<string, V>, k: string)
    requires k in c.inputKeys && k !in m
    ensures Enforce(c, fn, Some(m)).Failure? && Enforce(c, fn, Some(m)).error.KeyError?
  {
    var i :| 0 <= i < |c.inputKeys| && c.inputKeys[i] == k;
    assert !Admits(c, m);
  }
}

=== FILE: contracts_examples.dfy ===
/**
  The contract scenarios of tests/test_contracts.py, with `add_one` reading
  key `x` and adding one. Python values are a small tagged union so that
  `output_type=int` and `output_type=str` can be told apart.
 */
module ContractsExamples {
  import opened Wrappers
  import opened Contracts

  datatype PyValue = IntValue(i: int) | StrValue(s: string)

  predicate IsInt(v: PyValue) {
    v.IntValue?
  }

  predicate IsStr(v: PyValue) {
    v.StrValue?
  }

  /** `state["x"] + 1`; the input check guarantees `x` is present before it runs. */
  function AddOne(state: map<string, PyValue>): PyValue {
    if "x" in state && state["x"].IntValue? then IntValue(state["x"].i + 1) else IntValue(0)
  }

  function AddOneContract(): Contract<PyValue> {
    Contract("add-one", ["x"], IsInt, [])
  }

  lemma AcceptsValidInput()
    ensures Enforce(AddOneContract(), AddOne, Some(map["x" := IntValue(1)])) == Success(IntValue(2))
  {
  }

  lemma RejectsMissingKey()
    ensures Enforce(AddOneContract(), AddOne, Some(map[])) == Failure(KeyError("x"))
  {
  }

  lemma RejectsWrongOutputType()
    ensures Enforce(Contract("bad-output", ["x"], IsStr, []), AddOne, Some(map["x" := IntValue(1)])) == Failure(TypeError)
  {
  }

  lemma RejectsNonMapping()
    ensures Enforce(AddOneContract(), AddOne, None) == Failure(TypeError)
  {
  }

  /** A forbidden key is reported only once every required key is present. */
  lemma ForbiddenKeyOrdering()
    ensures var c := Contract("guarded", ["x"], IsInt, ["debug"]);
      && Enforce(c, AddOne, Some(map["x" := IntValue(1), "debug" := IntValue(0)])) == Failure(AssertionError("debug"))
      && Enforce(c, AddOne, Some(map["debug" := IntValue(0)])) == Failure(KeyError("x"))
  {
  }
}

=== FILE: decimal.dfy ===
/**
  Decimal text of Python integers: `str(i)` and `int(s)`.
 */
module Decimal {
  import opened Wrappers

  predicate IsDigit(c: char) {
    '0' <= c <= '9'
  }

  predicate AllDigits(s: string) {
    forall i :: 0 <= i < |s| ==> IsDigit(s[i])
  }

  /** Characters that can appear in `str(i)`. */
  predicate IsNumeral(c: char) {
    IsDigit(c) || c == '-'
  }

  function DigitChar(d: nat): (c: char)
    requires d < 10
    ensures IsDigit(c) && DigitValue(c) == d
  {
    ('0' as int + d) as char
  }

  function DigitValue(c: char): nat
    requires IsDigit(c)
  {
    c as int - '0' as int
  }

  /** The number a string of decimal digits denotes (most significant first). */
  function DigitsValue(s: string): nat
    requires AllDigits(s)
  {
    if |s| == 0 then 0 else DigitsValue(s[..|s| - 1]) * 10 + DigitValue(s[|s| - 1])
  }

  /** `str(n)` for `n >= 0`: at least one digit and no leading zero. */
  function NatToString(n: nat): (s: string)
    ensures |s| >= 1 && AllDigits(s)
    ensures |s| > 1 ==> s[0] != '0'
    ensures s[0] == '0' <==> n == 0
    decreases n
  {
    if n < 10 then [DigitChar(n)] else NatToString(n / 10) + [DigitChar(n % 10)]
  }

  /** `str(i)`: a minus sign for negatives, then the digits of `|i|`. */
  function IntToString(i: int): (s: string)
    ensures |s| >= 1
    ensures forall k :: 0 <= k < |s| ==> IsNumeral(s[k])
    ensures i >= 0 ==> AllDigits(s) && (|s| > 1 ==> s[0] != '0')
    ensures i < 0 ==> |s| >= 2 && s[0] == '-' && AllDigits(s[1..]) && s[1] != '0'
  {
    if i < 0 then "-" + NatToString(-i) else NatToString(i)
  }

  /**
    `int(s)`: an optional `+` or `-` followed by at least one decimal digit;
    anything else is a ValueError, modelled as `None`.
   */
  function ParseInt(s: string): (r: Option<int>)
    ensures r.Some? ==> |s| >= 1
    ensures r.Some? <==>
      || (|s| >= 1 && AllDigits(s))
      || (|s| >= 2 && (s[0] == '-' || s[0] == '+') && AllDigits(s[1..]))
    ensures |s| >= 1 && AllDigits(s) ==> r == Some(DigitsValue(s) as int)
    ensures |s| >= 2 && s[0] == '-' && AllDigits(s[1..]) ==> r == Some(-(DigitsValue(s[1..]) as int))
    ensures |s| >= 2 && s[0] == '+' && AllDigits(s[1..]) ==> r == Some(DigitsValue(s[1..]) as int)
  {
    if |s| >= 2 && (s[0] == '-' || s[0] == '+') && AllDigits(s[1..]) then
      Some(if s[0] == '-' then -(DigitsValue(s[1..]) as int) else DigitsValue(s[1..]))
    else if |s| >= 1 && AllDigits(s) then
      Some(DigitsValue(s))
    else
      None
  }

  lemma {:induction false} NatToStringValue(n: nat)
    ensures DigitsValue(NatToString(n)) == n
    decreases n
  {
    if n >= 10 {
      var s := NatToString(n);
      NatToStringValue(n / 10);
      assert s[..|s| - 1] == NatToString(n / 10);
    }
  }

  /** `int(str(i)) == i` for every integer. */
  lemma IntRoundTrip(i: int)
    ensures ParseInt(IntToString(i)) == Some(i)
  {
    if i < 0 {
      var s := IntToString(i);
      assert s[1..] == NatToString(-i);
      NatToStringValue(-i);
    } else {
      NatToStringValue(i);
    }
  }
}

=== FILE: divisibility.dfy ===
/**
  Greatest common divisors on natural numbers, with the facts the fraction
  model needs: the gcd divides both arguments, every common divisor divides
  it, it scales with a common factor, and Euclid's lemma.
 */
module Divisibility {

  /** Euclid's algorithm; `Gcd(0, 0) == 0`, as Python's `math.gcd`. */
  function Gcd(a: nat, b: nat): nat
    decreases b
  {
    if b == 0 then a else Gcd(b, a % b)
  }

  /** `d` is a positive divisor of `n`. */
  predicate Divides(d: int, n: int) {
    d > 0 && n % d == 0
  }

  /** Euclidean division by a positive modulus is unique. */
  lemma DivModUnique(x: int, m: int, q: int, r: int)
    requires m > 0 && 0 <= r < m && x == q * m + r
    ensures x / m == q && x % m == r
  {
    var q', r' := x / m, x % m;
    if q' < q {
      assert (q - q') * m == r' - r;
      MulAtLeast(q - q', m);
    } else if q' > q {
      assert (q' - q) * m == r - r';
      MulAtLeast(q' - q, m);
    }
  }

  lemma MulAtLeast(c: int, m: int)
    requires c >= 1 && m > 0
    ensures c * m >= m
  {
    assert c * m == (c - 1) * m + m;
  }

  lemma MultipleIsDivisible(d: int, k: int)
    requires d > 0
    ensures Divides(d, d * k)
  {
    DivModUnique(d * k, d, k, 0);
  }

  /** A positive divisor of `n` factors it exactly. */
  lemma DividesFactor(d: int, n: int)
    requires Divides(d, n)
    ensures n == d * (n / d)
  {
  }

  lemma DividesLinear(d: int, a: int, b: int, x: int, y: int)
    requires Divides(d, a) && Divides(d, b)
    ensures Divides(d, x * a + y * b)
  {
    var s, t := a / d, b / d;
    DividesFactor(d, a);
    DividesFactor(d, b);
    calc {
      x * a + y * b;
      x * (d * s) + y * (d * t);
      d * (x * s + y * t);
    }
    MultipleIsDivisible(d, x * s + y * t);
  }

  lemma DividesLe(d: int, n: int)
    requires Divides(d, n) && n > 0
    ensures d <= n
  {
    DividesFactor(d, n);
    MulAtLeast(n / d, d);
  }

  lemma GcdPositive(a: nat, b: nat)
    requires a > 0 || b > 0
    ensures Gcd(a, b) > 0
    decreases b
  {
    if b > 0 {
      GcdPositive(b, a % b);
    }
  }

  /** The gcd divides both of its arguments. */
  lemma GcdDivides(a: nat, b: nat)
    requires a > 0 || b > 0
    ensures Divides(Gcd(a, b), a) && Divides(Gcd(a, b), b)
    decreases b
  {
    if b == 0 {
      MultipleIsDivisible(a, 1);
    } else {
      var g := Gcd(b, a % b);
      GcdDivides(b, a % b);
      assert a == (a / b) * b + 1 * (a % b);
      DividesLinear(g, b, a % b, a / b, 1);
    }
  }

  /** Every common divisor divides the gcd. */
  lemma GcdGreatest(a: nat, b: nat, d: int)
    requires Divides(d, a) && Divides(d, b)
    ensures Divides(d, Gcd(a, b))
    decreases b
  {
    if b > 0 {
      assert a % b == 1 * a + (-(a / b)) * b;
      DividesLinear(d, a, b, 1, -(a / b));
      GcdGreatest(b, a % b, d);
    }
  }

  lemma ModScale(k: nat, a: nat, b: nat)
    requires k > 0 && b > 0
    ensures (a * k) % (b * k) == (a % b) * k
  {
    var q, r := a / b, a % b;
    assert a * k == q * (b * k) + r * k;
    MulAtLeast(b - r, k);
    assert b * k - r * k == (b - r) * k;
    DivModUnique(a * k, b * k, q, r * k);
  }

  /** A common factor comes out of the gcd. */
  lemma GcdScale(k: nat, a: nat, b: nat)
    requires k > 0
    ensures Gcd(a * k, b * k) == Gcd(a, b) * k
    decreases b
  {
    if b > 0 {
      ModScale(k, a, b);
      GcdScale(k, b, a % b);
    }
  }

  /** Euclid's lemma: a divisor of a product, coprime to one factor, divides the other. */
  lemma Euclid(d: nat, a: nat, b: nat)
    requires Gcd(a, d) == 1 && b > 0 && Divides(d, a * b)
    ensures Divides(d, b)
  {
    MultipleIsDivisible(d, b);
    GcdScale(b, a, d);
    CommonDivisorOfGcd(d, a * b, d * b, b);
  }

  lemma CommonDivisorOfGcd(d: int, x: nat, y: nat, g: nat)
    requires Gcd(x, y) == g && Divides(d, x) && Divides(d, y)
    ensures Divides(d, g)
  {
    GcdGreatest(x, y, d);
  }

  lemma DividesAntisymmetric(x: int, y: int)
    requires Divides(x, y) && Divides(y, x)
    ensures x == y
  {
    DividesLe(x, y);
    DividesLe(y, x);
  }
}

=== FILE: engine.dfy ===
/**
  The arithmetic instruction engine of engine/core.py. Operands are
  mathematical reals (the source uses Python floats; rounding is not
  modelled). An instruction is a mapping that may lack any of its three
  keys, so each key is an `Option`. The returned log holds the same
  entries as the results, in the mapping shape a replay reads back.
 */
module Engine {
  import opened Wrappers
  import opened Results
  import opened Collections

  datatype Instruction = Instruction(operation: Option<string>, a: Option<real>, b: Option<real>)

  /** One result entry: `{'step', 'operation', 'operands': {'a', 'b'}, 'result'}`. */
  datatype Entry = Entry(step: nat, operation: string, a: real, b: real, result: real)

  /** The operands mapping of a log entry; either key may be missing. */
  datatype Operands = Operands(a: Option<real>, b: Option<real>)

  /** A log entry as a replay reads it: any of its keys may be missing. */
  datatype LogEntry = LogEntry(step: Option<int>, operation: Option<string>, operands: Option<Operands>, result: Option<real>)

  datatype EngineError = KeyError(key: string) | ValueError(message: string)

  const DivisionByZero: string := "Division by zero is not allowed"

  /** The four names of the dispatch table. */
  predicate IsOperation(name: string) {
    name == "add" || name == "subtract" || name == "multiply" || name == "divide"
  }

  /** `result` is what operation `name` gives for `a` and `b`. */
  predicate Computes(name: string, a: real, b: real, result: real) {
    || (name == "add" && result == a + b)
    || (name == "subtract" && result == a - b)
    || (name == "multiply" && result == a * b)
    || (name == "divide" && b != 0.0 && result * b == a)
  }

  /** `divide(a, b)`: a ValueError when `b` is 0. */
  function Divide(a: real, b: real): (r: Result<real, EngineError>)
    ensures r.Failure? <==> b == 0.0
    ensures r.Failure? ==> r.error == ValueError(DivisionByZero)
    ensures r.Success? ==> r.value * b == a
  {
    if b == 0.0 then Failure(ValueError(DivisionByZero)) else Success(a / b)
  }

  /** Dispatch on the operation name: `operations[name](a, b)`, or "Unknown operation". */
  function Apply(name: string, a: real, b: real): (r: Result<real, EngineError>)
    ensures !IsOperation(name) ==> r == Failure(ValueError("Unknown operation: " + name))
    ensures name == "divide" && b == 0.0 ==> r == Failure(ValueError(DivisionByZero))
    ensures r.Success? <==> IsOperation(name) && (name == "divide" ==> b != 0.0)
    ensures r.Success? ==> Computes(name, a, b, r.value)
  {
    if name == "add" then Success(a + b)
    else if name == "subtract" then Success(a - b)
    else if name == "multiply" then Success(a * b)
    else if name == "divide" then Divide(a, b)
    else Failure(ValueError("Unknown operation: " + name))
  }

  /**
    One iteration of the loop of `execute_instructions`: the operation, `a`
    and `b` are read in that order (a missing key is a KeyError), then the
    name is checked, then the operation runs.
   */
  function Step(step: nat, ins: Instruction): (r: Result<Entry, EngineError>)
    ensures ins.operation.None? ==> r == Failure(KeyError("operation"))
    ensures ins.operation.Some? && ins.a.None? ==> r == Failure(KeyError("a"))
    ensures ins.operation.Some? && ins.a.Some? && ins.b.None? ==> r == Failure(KeyError("b"))
    ensures ins.operation.Some? && ins.a.Some? && ins.b.Some? ==>
      r == (match Apply(ins.operation.value, ins.a.value, ins.b.value)
            case Success(v) => Success(Entry(step, ins.operation.value, ins.a.value, ins.b.value, v))
            case Failure(e) => Failure(e))
    ensures r.Success? ==>
      && r.value.step == step
      && Some(r.value.operation) == ins.operation && Some(r.value.a) == ins.a && Some(r.value.b) == ins.b
      && Computes(r.value.operation, r.value.a, r.value.b, r.value.result)
  {
    if ins.operation.None? then Failure(KeyError("operation"))
    else if ins.a.None? then Failure(KeyError("a"))
    else if ins.b.None? then Failure(KeyError("b"))
    else
      var name, a, b := ins.operation.value, ins.a.value, ins.b.value;
      match Apply(name, a, b)
      case Failure(e) => Failure(e)
      case Success(v) => Success(Entry(step, name, a, b, v))
  }

  /** `enumerate(instructions)`. */
  function Enumerate<T>(xs: seq<T>): (r: seq<(nat, T)>)
    ensures |r| == |xs| && forall i :: 0 <= i < |xs| ==> r[i] == (i, xs[i])
  {
    seq(|xs|, i requires 0 <= i < |xs| => (i as nat, xs[i]))
  }

  /** The log form of a result entry: every key present. */
  function ToLogEntry(e: Entry): LogEntry {
    LogEntry(Some(e.step), Some(e.operation), Some(Operands(Some(e.a), Some(e.b))), Some(e.result))
  }

  /** Instruction `i` fails with `e` and every instruction before it succeeds. */
  predicate FirstFailingStep(instrs: seq<Instruction>, i: int, e: EngineError) {
    && 0 <= i < |instrs|
    && Step(i, instrs[i]) == Failure(e)
    && forall j :: 0 <= j < i ==> Step(j, instrs[j]).Success?
  }

  /**
    `execute_instructions(instructions)`: all steps in order, or the error of
    the first failing step with no partial results. On success the pair is
    the results and the log, which holds the same entries.
   */
  function Execute(instrs: seq<Instruction>): (r: Result<(seq<Entry>, seq<LogEntry>), EngineError>)
    ensures r.Success? <==> forall i :: 0 <= i < |instrs| ==> Step(i, instrs[i]).Success?
    ensures r.Success? ==>
      && |r.value.0| == |instrs|
      && (forall i :: 0 <= i < |instrs| ==> Step(i, instrs[i]) == Success(r.value.0[i]))
      && r.value.1 == Map(r.value.0, ToLogEntry)
    ensures r.Failure? ==> exists i :: FirstFailingStep(instrs, i, r.error)
  {
    var pairs := Enumerate(instrs);
    var run := (p: (nat, Instruction)) => Step(p.0, p.1);
    match MapAll(pairs, run)
    case Failure(e) =>
      assert exists i :: FirstFailingStep(instrs, i, e) by {
        var i :| 0 <= i < |pairs| && run(pairs[i]) == Failure(e) && FirstFailure(pairs, run, i);
        assert forall j :: 0 <= j < i ==> run(pairs[j]).Success?;
        assert FirstFailingStep(instrs, i, e);
      }
      Failure(e)
    case Success(results) => Success((results, Map(results, ToLogEntry)))
  }

  /** A successful run computes every entry: step i holds instruction i's operation, operands and result. */
  lemma ExecuteComputes(instrs: seq<Instruction>)
    requires Execute(instrs).Success?
    ensures forall i :: 0 <= i < |instrs| ==>
      var e := Execute(instrs).value.0[i];
      && e.step == i && Some(e.operation) == instrs[i].operation
      && Some(e.a) == instrs[i].a && Some(e.b) == instrs[i].b
      && Computes(e.operation, e.a, e.b, e.result)
  {
  }

  /**
    Operands are read before the name is checked: an unknown operation with
    a missing operand is a KeyError, not "Unknown operation".
   */
  lemma MissingOperandBeforeUnknownName(name: string, a: real)
    ensures Step(0, Instruction(Some(name), Some(a), None)) == Failure(KeyError("b"))
    ensures Step(0, Instruction(Some(name), None, None)) == Failure(KeyError("a"))
  {
  }

  /** Quotient and product undo each other; difference undoes sum. */
  lemma Inverses(a: real, b: real)
    ensures Apply("subtract", Apply("add", a, b).value, b) == Success(a)
    ensures b != 0.0 ==> Apply("divide", Apply("multiply", a, b).value, b) == Success(a)
  {
    if b != 0.0 {
      var q := Apply("divide", a * b, b).value;
      assert q * b == a * b;
      assert (q - a) * b == 0.0;
    }
  }
}

=== FILE: engine_examples.dfy ===
/** The behaviours the engine's tests describe, stated on the model. */
module EngineExamples {
  import opened Wrappers
  import opened Results
  import opened Engine
  import opened PublicApi
  import Collections

  function Ins(name: string, a: real, b: real): Instruction {
    Instruction(Some(name), Some(a), Some(b))
  }

  lemma EmptyInstructions()
    ensures RunDeterministic([]) == Success(([], []))
  {
  }

  /** `5 + 3` then `2 * 4`: two entries, steps 0 and 1, both results 8. */
  lemma TwoInstructions()
    ensures RunDeterministic([Ins("add", 5.0, 3.0), Ins("multiply", 2.0, 4.0)])
         == Success(([Entry(0, "add", 5.0, 3.0, 8.0), Entry(1, "multiply", 2.0, 4.0, 8.0)],
                     [ToLogEntry(Entry(0, "add", 5.0, 3.0, 8.0)), ToLogEntry(Entry(1, "multiply", 2.0, 4.0, 8.0))]))
  {
    var xs := [Ins("add", 5.0, 3.0), Ins("multiply", 2.0, 4.0)];
    var e0, e1 := Entry(0, "add", 5.0, 3.0, 8.0), Entry(1, "multiply", 2.0, 4.0, 8.0);
    assert Step(0, xs[0]) == Success(e0);
    assert Step(1, xs[1]) == Success(e1);
    var r := Execute(xs).value;
    assert r.0[0] == e0 && r.0[1] == e1;
    assert r.0 == [e0, e1];
    assert r.1 == Collections.Map([e0, e1], ToLogEntry);
    assert r.1 == [ToLogEntry(e0), ToLogEntry(e1)];
  }

  lemma UnknownOperation()
    ensures RunDeterministic([Ins("power", 2.0, 3.0)]) == Failure(ValueError("Unknown operation: power"))
  {
    assert !IsOperation("power") by {
      assert "power"[0] == 'p';
    }
    assert "Unknown operation: " + "power" == "Unknown operation: power";
    assert Step(0, Ins("power", 2.0, 3.0)) == Failure(ValueError("Unknown operation: power"));
  }

  lemma MissingOperand()
    ensures RunDeterministic([Instruction(Some("add"), Some(5.0), None)]) == Failure(KeyError("b"))
  {
    assert Step(0, Instruction(Some("add"), Some(5.0), None)) == Failure(KeyError("b"));
  }

  /** The failing division aborts the whole run; the later multiplication never counts. */
  lemma DivisionByZeroInSequence()
    ensures RunDeterministic([Ins("add", 5.0, 3.0), Ins("divide", 10.0, 0.0), Ins("multiply", 2.0, 4.0)])
         == Failure(ValueError("Division by zero is not allowed"))
  {
    var xs := [Ins("add", 5.0, 3.0), Ins("divide", 10.0, 0.0), Ins("multiply", 2.0, 4.0)];
    assert Step(1, xs[1]) == Failure(ValueError(DivisionByZero));
    assert FirstFailingStep(xs, 1, ValueError(DivisionByZero));
  }

  /** A hand-written one-entry log replays to the single result 8. */
  lemma PartialLog()
    ensures Replay([LogEntry(Some(0), Some("add"), Some(Operands(Some(5.0), Some(3.0))), Some(8.0))])
         == Success([Entry(0, "add", 5.0, 3.0, 8.0)])
  {
    var log := [LogEntry(Some(0), Some("add"), Some(Operands(Some(5.0), Some(3.0))), Some(8.0))];
    assert Rebuild(log[0]) == Success(Ins("add", 5.0, 3.0));
    var rebuilt := MapAll(log, Rebuild);
    assert rebuilt.Success? && rebuilt.value[0] == Ins("add", 5.0, 3.0);
    assert rebuilt.value == [Ins("add", 5.0, 3.0)];
    assert Step(0, Ins("add", 5.0, 3.0)) == Success(Entry(0, "add", 5.0, 3.0, 8.0));
    assert Execute([Ins("add", 5.0, 3.0)]).value.0 == [Entry(0, "add", 5.0, 3.0, 8.0)];
  }

  /**
    Replay rebuilds every instruction before running any: a log whose first
    entry divides by zero and whose second lacks its operands is a KeyError.
   */
  lemma RebuildBeforeRun()
    ensures Replay([ToLogEntry(Entry(0, "divide", 1.0, 0.0, 0.0)), LogEntry(None, Some("add"), None, None)])
         == Failure(KeyError("operands"))
  {
    var log := [ToLogEntry(Entry(0, "divide", 1.0, 0.0, 0.0)), LogEntry(None, Some("add"), None, None)];
    assert Rebuild(log[1]) == Failure(KeyError("operands"));
  }
}

=== FILE: engine_registry.dfy ===
/**
  The sealed engine registry of src/spectrum/engines/registry.py. Engines
  are keyed by `name@version` and store the hash of their code; a lookup
  must present code with the same hash. The code hash (SHA-256 of the
  function's source text) is the parameter `hashOf`.
 */
module EngineRegistry {
  import opened Wrappers
  import opened Text
  import opened Registries

  datatype EngineSpec<H> = EngineSpec(name: string, version: string, codeHash: H, description: string)

  datatype EngineError = AssertionError(engineId: string) | KeyError(engineId: string)

  /** `f"{name}@{version}"`. */
  function EngineId(name: string, version: string): string {
    name + "@" + version
  }

  /** For a name without `@`, splitting the key at its first `@` gives back name and version. */
  lemma EngineIdSplit(name: string, version: string)
    requires '@' !in name
    ensures SplitOnce(EngineId(name, version), '@') == Some((name, version))
  {
    assert EngineId(name, version) == name + ['@'] + version;
    SplitOnceAt(name, version, '@');
  }

  /** `register_engine(name=..., version=..., fn=..., description=...)`; a taken key is an AssertionError. */
  function RegisterEngine<F, H>(
    reg: Registry<EngineSpec<H>>, name: string, version: string, fn: F, description: string,
    hashOf: F -> H): (r: Result<Registry<EngineSpec<H>>, EngineError>)
    ensures r.Failure? <==> EngineId(name, version) in reg.entries
    ensures r.Failure? ==> r.error == AssertionError(EngineId(name, version))
    ensures r.Success? ==> Some(r.value) == Register(reg, EngineId(name, version), EngineSpec(name, version, hashOf(fn), description))
  {
    var id := EngineId(name, version);
    match Register(reg, id, EngineSpec(name, version, hashOf(fn), description))
    case None => Failure(AssertionError(id))
    case Some(out) => Success(out)
  }

  /**
    `get_engine_spec(name, version, fn)`: an unknown key is a KeyError, a
    code hash that differs from the stored one is an AssertionError,
    otherwise the stored spec.
   */
  function GetEngineSpec<F, H(==)>(
    reg: Registry<EngineSpec<H>>, name: string, version: string, fn: F,
    hashOf: F -> H): (r: Result<EngineSpec<H>, EngineError>)
    ensures EngineId(name, version) !in reg.entries <==> r == Failure(KeyError(EngineId(name, version)))
    ensures r == Failure(AssertionError(EngineId(name, version))) <==>
      EngineId(name, version) in reg.entries && reg.entries[EngineId(name, version)].codeHash != hashOf(fn)
    ensures r.Success? ==>
      && EngineId(name, version) in reg.entries
      && r.value == reg.entries[EngineId(name, version)]
      && r.value.codeHash == hashOf(fn)
  {
    var id := EngineId(name, version);
    if id !in reg.entries then Failure(KeyError(id))
    else
      var spec := reg.entries[id];
      if spec.codeHash != hashOf(fn) then Failure(AssertionError(id))
      else Success(spec)
  }

  /** A registered engine is found again with the same code, with all four fields as registered. */
  lemma RegisterThenGet<F, H>(
    reg: Registry<EngineSpec<H>>, name: string, version: string, fn: F, description: string, hashOf: F -> H)
    requires RegisterEngine(reg, name, version, fn, description, hashOf).Success?
    ensures GetEngineSpec(RegisterEngine(reg, name, version, fn, description, hashOf).value, name, version, fn, hashOf)
      == Success(EngineSpec(name, version, hashOf(fn), description))
  {
  }

  /** Code whose hash differs from the registered code is rejected. */
  lemma TamperedCodeRejected<F, H>(
    reg: Registry<EngineSpec<H>>, name: string, version: string, fn: F, other: F, description: string, hashOf: F -> H)
    requires RegisterEngine(reg, name, version, fn, description, hashOf).Success?
    requires hashOf(other) != hashOf(fn)
    ensures GetEngineSpec(RegisterEngine(reg, name, version, fn, description, hashOf).value, name, version, other, hashOf)
      == Failure(AssertionError(EngineId(name, version)))
  {
  }

  /** Names without `@` give distinct keys to distinct (name, version) pairs. */
  lemma EngineIdInjective(n1: string, v1: string, n2: string, v2: string)
    requires '@' !in n1 && '@' !in n2
    requires EngineId(n1, v1) == EngineId(n2, v2)
    ensures n1 == n2 && v1 == v2
  {
    EngineIdSplit(n1, v1);
    EngineIdSplit(n2, v2);
  }

  /**
    With an `@` inside the name two different engines share a key: `a@b`
    version `c` and `a` version `b@c` are both `a@b@c`, so the second
    cannot be registered.
   */
  lemma EngineIdCollision<F, H>(fn: F, g: F, hashOf: F -> H)
    ensures EngineId("a@b", "c") == EngineId("a", "b@c")
    ensures var r := RegisterEngine(Empty(), "a@b", "c", fn, "", hashOf);
      r.Success? && RegisterEngine(r.value, "a", "b@c", g, "", hashOf).Failure?
  {
  }
}

=== FILE: expand_rules.dfy ===
/**
  The additive expansion rule of src/spectrum/expand/rules.py: every node,
  taken in ascending id order, gets one child whose state is the parent's
  state shifted by a constant, with fresh ids counting up from the largest
  input id.
 */
module ExpandRules {
  import opened Wrappers
  import opened Decimal
  import opened Text
  import opened Rational
  import opened Lattice
  import opened NodeOrder
  import opened Canonical

  /** `max` of an empty sequence. */
  datatype ExpandError = ValueError

  /** `str(f)` for a Fraction: the numerator alone when the denominator is 1, else `n/d`. */
  function FractionStr(f: Fraction): (s: string)
    ensures f.den == 1 ==> s == IntToString(f.num)
    ensures f.den != 1 ==> s == FractionText(f)
  {
    if f.den == 1 then IntToString(f.num) else FractionText(f)
  }

  /** The transition-rule label `f"add({constant})"`. */
  function AddLabel(c: Fraction): string {
    "add(" + FractionStr(c) + ")"
  }

  /** `t` is `s` with `c` added to every component. */
  ghost predicate Shifted(s: seq<Fraction>, c: Fraction, t: seq<Fraction>) {
    |t| == |s| && forall i :: 0 <= i < |s| ==> Value(t[i]) == Value(s[i]) + Value(c)
  }

  /** `apply_rule_add_constant(node, constant, next_id)`. */
  function ApplyRuleAddConstant(node: Node, c: Fraction, nextId: int): (r: Node)
    ensures r.id == nextId && r.parents == {node.id}
    ensures Shifted(node.state, c, r.state)
    ensures r.rule == Some(AddLabel(c)) && r.causalHash == []
  {
    Node(nextId, seq(|node.state|, i requires 0 <= i < |node.state| => Add(node.state[i], c)), {node.id}, Some(AddLabel(c)), [])
  }

  /** The largest id of a non-empty collection. */
  function MaxId(ns: seq<Node>): (m: int)
    requires |ns| > 0
    ensures m in IdSet(ns) && forall i :: 0 <= i < |ns| ==> ns[i].id <= m
  {
    if |ns| == 1 then ns[0].id
    else
      var rest := MaxId(ns[1..]);
      assert forall i :: 1 <= i < |ns| ==> ns[i] == ns[1..][i - 1];
      if ns[0].id >= rest then ns[0].id else rest
  }

  /**
    `expand_deterministically(nodes, constant)`: the k-th node in ascending
    id order (k from 1) gets the child with id `max_id + k`. An empty input
    fails in `max`.
   */
  function ExpandDeterministically(nodes: seq<Node>, c: Fraction): (r: Result<seq<Node>, ExpandError>)
    ensures r.Failure? <==> |nodes| == 0
    ensures r.Failure? ==> r.error == ValueError
    ensures r.Success? ==> |r.value| == |nodes| && StrictlySortedById(r.value)
    ensures r.Success? ==> forall k :: 0 <= k < |nodes| ==>
      r.value[k].id == MaxId(nodes) + k + 1 &&
      r.value[k].parents == {SortById(nodes)[k].id} &&
      Shifted(SortById(nodes)[k].state, c, r.value[k].state) &&
      r.value[k].rule == Some(AddLabel(c)) &&
      r.value[k].causalHash == []
  {
    if |nodes| == 0 then Failure(ValueError)
    else
      var sorted := SortById(nodes);
      SortMembers(nodes);
      var maxId := MaxId(sorted);
      assert maxId == MaxId(nodes) by {
        SortedIdSet(nodes);
      }
      Success(Children(sorted, c, maxId))
  }

  /** The loop of `expand_deterministically`: the k-th node (from 0) gets id `maxId + k + 1`. */
  function Children(sorted: seq<Node>, c: Fraction, maxId: int): (r: seq<Node>)
    ensures |r| == |sorted| && StrictlySortedById(r)
    ensures forall k :: 0 <= k < |sorted| ==>
      r[k].id == maxId + k + 1 && r[k].parents == {sorted[k].id} &&
      Shifted(sorted[k].state, c, r[k].state) && r[k].rule == Some(AddLabel(c)) &&
      r[k].causalHash == []
  {
    var r := seq(|sorted|, k requires 0 <= k < |sorted| => ApplyRuleAddConstant(sorted[k], c, maxId + k + 1));
    ConsecutiveIdsAscend(r, maxId);
    r
  }

  /** Ids that count up by one from `base + 1` are strictly increasing. */
  lemma ConsecutiveIdsAscend(r: seq<Node>, base: int)
    requires forall k :: 0 <= k < |r| ==> r[k].id == base + k + 1
    ensures StrictlySortedById(r)
  {
  }

  /** Every child id exceeds every input id, so no child collides with an input. */
  lemma ChildIdsFresh(nodes: seq<Node>, c: Fraction, k: int, i: int)
    requires ExpandDeterministically(nodes, c).Success?
    requires 0 <= k < |nodes| && 0 <= i < |nodes|
    ensures ExpandDeterministically(nodes, c).value[k].id > nodes[i].id
  {
  }

  /** The children's parent ids ascend with the children. */
  lemma ParentsAscending(nodes: seq<Node>, c: Fraction, k: int, l: int)
    requires ExpandDeterministically(nodes, c).Success?
    requires 0 <= k < l < |nodes|
    ensures ExpandDeterministically(nodes, c).value[k].parents == {SortById(nodes)[k].id}
    ensures SortById(nodes)[k].id <= SortById(nodes)[l].id
  {
  }

  /** Each input node is the parent of exactly one child. */
  lemma OneChildPerNode(nodes: seq<Node>, c: Fraction, i: int)
    requires DistinctIds(nodes) && 0 <= i < |nodes|
    ensures ExpandDeterministically(nodes, c).Success?
    ensures exists k :: 0 <= k < |nodes| && ExpandDeterministically(nodes, c).value[k].parents == {nodes[i].id}
  {
    SortMembers(nodes);
    assert nodes[i] in SortById(nodes);
    var k :| 0 <= k < |nodes| && SortById(nodes)[k] == nodes[i];
    assert ExpandDeterministically(nodes, c).value[k].parents == {nodes[i].id};
  }

  /** For distinct ids the expansion does not depend on the input order. */
  lemma ExpandOrderIndependent(a: seq<Node>, b: seq<Node>, c: Fraction)
    requires multiset(a) == multiset(b) && DistinctIds(a)
    ensures ExpandDeterministically(a, c) == ExpandDeterministically(b, c)
  {
    SortOrderIndependent(a, b);
    assert |a| == |multiset(a)| == |b|;
  }

  /** The label records the constant: different constants give different labels. */
  lemma AddLabelInjective(c: Fraction, d: Fraction)
    requires AddLabel(c) == AddLabel(d)
    ensures c == d
  {
    var s, t := FractionStr(c), FractionStr(d);
    var lc, ld := AddLabel(c), AddLabel(d);
    assert s == lc[4..|lc| - 1] && t == ld[4..|ld| - 1];
    FractionStrInjective(c, d);
  }

  lemma FractionStrInjective(c: Fraction, d: Fraction)
    requires FractionStr(c) == FractionStr(d)
    ensures c == d
  {
    if c.den == 1 && d.den == 1 {
      IntRoundTrip(c.num);
      IntRoundTrip(d.num);
    } else if c.den != 1 && d.den != 1 {
      var a, b := IntToString(c.num), IntToString(c.den);
      var x, y := IntToString(d.num), IntToString(d.den);
      NoSlash(c.num);
      NoSlash(c.den);
      NoSlash(d.num);
      NoSlash(d.den);
      assert a + "/" + b == a + ['/'] + b;
      assert x + "/" + y == x + ['/'] + y;
      SplitOnceAt(a, b, '/');
      SplitOnceAt(x, y, '/');
      IntRoundTrip(c.num);
      IntRoundTrip(c.den);
      IntRoundTrip(d.num);
      IntRoundTrip(d.den);
    } else {
      NoSlash(if c.den == 1 then c.num else d.num);
      assert false;
    }
  }

  lemma NoSlash(n: int)
    ensures '/' !in IntToString(n)
  {
  }

  /** Sorting keeps the set of ids. */
  lemma SortedIdSet(nodes: seq<Node>)
    ensures IdSet(SortById(nodes)) == IdSet(nodes)
  {
    var sorted := SortById(nodes);
    SortMembers(nodes);
    forall x | x in IdSet(nodes)
      ensures x in IdSet(sorted)
    {
      var i :| 0 <= i < |nodes| && nodes[i].id == x;
      assert nodes[i] in sorted;
    }
    forall x | x in IdSet(sorted)
      ensures x in IdSet(nodes)
    {
      var i :| 0 <= i < |sorted| && sorted[i].id == x;
      assert sorted[i] in nodes;
    }
  }
}

=== FILE: expansion_examples.dfy ===
/** The cases of tests/test_expand_rules.py and tests/test_expansion_rules.py. */
module ExpansionExamples {
  import opened Wrappers
  import opened Rational
  import opened Lattice
  import opened NodeOrder
  import opened ExpandRules
  import opened ExpansionRules

  /** Adding 1 to the roots 0:(0) and 1:(1) gives children (1) under {0} and (2) under {1}. */
  lemma AddOneToTwoRoots()
    ensures var r := ExpandDeterministically([Plain(0, [FromInt(0)], {}), Plain(1, [FromInt(1)], {})], FromInt(1));
      r.Success? && |r.value| == 2 &&
      r.value[0].parents == {0} && r.value[1].parents == {1} &&
      r.value[0].state == [FromInt(1)] && r.value[1].state == [FromInt(2)] &&
      r.value[0].id == 2 && r.value[1].id == 3
  {
    var ns := [Plain(0, [FromInt(0)], {}), Plain(1, [FromInt(1)], {})];
    assert SortedById(ns);
    assert SortById(ns) == ns;
    assert MaxId(ns) == 1;
    var r := ExpandDeterministically(ns, FromInt(1));
    assert r.Success? && |r.value| == 2;
    ShiftedSingle(FromInt(0), FromInt(1), r.value[0].state, FromInt(1));
    ShiftedSingle(FromInt(1), FromInt(1), r.value[1].state, FromInt(2));
  }

  /** A one-component state shifted by `c` is the one-component state of the sum. */
  lemma ShiftedSingle(x: Fraction, c: Fraction, t: seq<Fraction>, sum: Fraction)
    requires Shifted([x], c, t) && Value(sum) == Value(x) + Value(c)
    ensures t == [sum]
  {
    ValueInjective(t[0], sum);
  }

  /** An empty lattice cannot be expanded. */
  lemma ExpandEmptyFails()
    ensures ExpandDeterministically([], FromInt(1)) == Failure(ExpandRules.ValueError)
  {
  }

  /** The rule label of the constant 1 is `add(1)`, and of 3/2 is `add(3/2)`. */
  lemma Labels()
    ensures AddLabel(FromInt(1)) == "add(1)"
    ensures AddLabel(Normalize(3, 2)) == "add(3/2)"
  {
    assert Normalize(3, 2) == Rat(3, 2) by {
      ValueInjective(Normalize(3, 2), Rat(3, 2));
    }
  }

  /** Node 2 with state (3) has the child 5 with state (3, 1) and parent {2}. */
  lemma ExpandNodeTwo()
    ensures Child(Plain(2, [FromInt(3)], {})) == Plain(5, [FromInt(3), FromInt(1)], {2})
  {
  }

  /** The layer of nodes 1 and 3 is the same in either order, and sorted by id. */
  lemma LayerEitherOrder()
    ensures ExpandLayer([Plain(1, [FromInt(0)], {}), Plain(3, [FromInt(1)], {})])
         == ExpandLayer([Plain(3, [FromInt(1)], {}), Plain(1, [FromInt(0)], {})])
  {
    var a := [Plain(1, [FromInt(0)], {}), Plain(3, [FromInt(1)], {})];
    var b := [Plain(3, [FromInt(1)], {}), Plain(1, [FromInt(0)], {})];
    assert a == [a[0]] + [a[1]] && b == [a[1]] + [a[0]];
    LayerOrderIndependent(a, b);
  }
}

=== FILE: expansion_rules.dfy ===
/**
  The doubling expansion of spectrum/expansion/rules.py: a node with id `i`
  has the single child `2*i + 1`, whose state is the parent's with the
  component 1 appended; a layer expands every node and sorts the children
  by id.
 */
module ExpansionRules {
  import opened Rational
  import opened Lattice
  import opened NodeOrder
  import opened Collections
  import opened Results

  /** `expand_node(node)`: a one-element tuple holding the child. */
  function ExpandNode(n: Node): (r: seq<Node>)
    ensures |r| == 1
    ensures (r[0].id - 1) / 2 == n.id && r[0].id % 2 == 1
    ensures |r[0].state| == |n.state| + 1 && r[0].state[..|n.state|] == n.state
    ensures Value(r[0].state[|n.state|]) == 1.0
    ensures r[0].parents == {n.id} && HasDefaults(r[0])
  {
    [Plain(n.id * 2 + 1, n.state + [FromInt(1)], {n.id})]
  }

  /** The child of a node. */
  function Child(n: Node): Node {
    ExpandNode(n)[0]
  }

  /** Different parent ids give different child ids. */
  lemma ChildIdInjective(a: Node, b: Node)
    ensures Child(a).id == Child(b).id <==> a.id == b.id
  {
  }

  /** `expanded.extend(expand_node(n))` for every `n`: one child per node, in input order. */
  function Expanded(ns: seq<Node>): (r: seq<Node>)
    ensures r == Map(ns, Child)
  {
    if |ns| == 0 then []
    else Expanded(ns[..|ns| - 1]) + ExpandNode(ns[|ns| - 1])
  }

  /**
    `expand_layer(nodes)`: the children sorted by id. The sort is stable, so
    children that share an id stay in the order of their parents.
   */
  function ExpandLayer(ns: seq<Node>): (r: seq<Node>)
    ensures |r| == |ns| && SortedById(r)
    ensures multiset(r) == multiset(Map(ns, Child))
    ensures forall k :: Filter(r, HasId(k)) == Filter(Map(ns, Child), HasId(k))
  {
    SortById(Expanded(ns))
  }

  /** Every child of the layer has one input node as its parent. */
  lemma LayerParents(ns: seq<Node>, k: int)
    requires 0 <= k < |ns|
    ensures exists i :: 0 <= i < |ns| && ExpandLayer(ns)[k] == Child(ns[i]) && ExpandLayer(ns)[k].parents == {ns[i].id}
  {
    var r := ExpandLayer(ns);
    assert r[k] in multiset(Map(ns, Child));
  }

  /** Distinct parent ids give distinct child ids. */
  lemma ChildrenDistinct(ns: seq<Node>)
    requires DistinctIds(ns)
    ensures DistinctIds(Map(ns, Child))
  {
    var cs := Map(ns, Child);
    forall i, j | 0 <= i < j < |cs|
      ensures cs[i].id != cs[j].id
    {
      ChildIdInjective(ns[i], ns[j]);
    }
  }

  /** For distinct ids, the layer does not depend on the input order. */
  lemma LayerOrderIndependent(a: seq<Node>, b: seq<Node>)
    requires multiset(a) == multiset(b) && DistinctIds(a)
    ensures ExpandLayer(a) == ExpandLayer(b)
  {
    MapMultiset(a, b, Child);
    ChildrenDistinct(a);
    SortOrderIndependent(Expanded(a), Expanded(b));
  }
}

=== FILE: fairness.dfy ===
/**
  The fairness metrics of spectrum/metrics/fairness.py: per-group positive
  rates, their spread (max minus min) and ratio (min over max), and the
  spread of true-positive rates. Counts are integers and rates exact
  fractions. Python's `zip` stops at the shorter list, so only the first
  `ZipLen` samples are read.
 */
module Fairness {
  import opened Wrappers
  import opened Rational
  import opened Collections

  /** Number of tuples `zip` yields for two lists. */
  function ZipLen(a: nat, b: nat): (r: nat)
    ensures r <= a && r <= b && (r == a || r == b)
  {
    if a < b then a else b
  }

  /** `d.get(g, 0)`. */
  function Get<G>(m: map<G, int>, g: G): int {
    if g in m then m[g] else 0
  }

  /** Sum of the outputs of the samples in group `g`, read from the front. */
  function Positives<G(==)>(os: seq<int>, gs: seq<G>, g: G): int
    requires |os| == |gs|
  {
    if |gs| == 0 then 0
    else (if gs[0] == g then os[0] else 0) + Positives(os[1..], gs[1..], g)
  }

  lemma {:induction false} PositivesSnoc<G>(os: seq<int>, gs: seq<G>, x: int, h: G, g: G)
    requires |os| == |gs|
    ensures Positives(os + [x], gs + [h], g) == Positives(os, gs, g) + (if h == g then x else 0)
  {
    if |gs| > 0 {
      assert (os + [x])[1..] == os[1..] + [x];
      assert (gs + [h])[1..] == gs[1..] + [h];
      PositivesSnoc(os[1..], gs[1..], x, h, g);
    }
  }

  /** A group with no samples has no positives. */
  lemma {:induction false} PositivesAbsent<G>(os: seq<int>, gs: seq<G>, g: G)
    requires |os| == |gs| && g !in gs
    ensures Positives(os, gs, g) == 0
  {
    if |gs| > 0 {
      assert g !in gs[1..];
      PositivesAbsent(os[1..], gs[1..], g);
    }
  }

  lemma ElementsSnoc<G>(gs: seq<G>, x: G)
    ensures Elements(gs + [x]) == Elements(gs) + {x}
  {
  }

  lemma PositivesLast<G>(os: seq<int>, gs: seq<G>)
    requires |os| == |gs| > 0
    ensures forall k :: Positives(os, gs, k) == Positives(os[..|os| - 1], gs[..|gs| - 1], k) + (if gs[|gs| - 1] == k then os[|os| - 1] else 0)
  {
    var n := |gs| - 1;
    assert gs == gs[..n] + [gs[n]];
    assert os == os[..n] + [os[n]];
    forall k
      ensures Positives(os, gs, k) == Positives(os[..n], gs[..n], k) + (if gs[n] == k then os[n] else 0)
    {
      PositivesSnoc(os[..n], gs[..n], os[n], gs[n], k);
    }
  }

  /** One step of a counting loop: group `g` gets one more sample, and `x` more positives. */
  function Bump<G>(t: (map<G, int>, map<G, int>), g: G, x: int): (map<G, int>, map<G, int>) {
    (t.0[g := Get(t.0, g) + 1], t.1[g := Get(t.1, g) + x])
  }

  /**
    The counting loop of `demographic_parity_rates`: per group seen, the
    number of its samples and the sum of their outputs.
   */
  function Tally<G(==)>(os: seq<int>, gs: seq<G>): (map<G, int>, map<G, int>)
    requires |os| == |gs|
  {
    if |gs| == 0 then (map[], map[])
    else
      var n := |gs| - 1;
      Bump(Tally(os[..n], gs[..n]), gs[n], os[n])
  }

  /** The two tallies count the samples of `gs` and sum their outputs, per group seen. */
  ghost predicate Counts<G>(t: (map<G, int>, map<G, int>), os: seq<int>, gs: seq<G>)
    requires |os| == |gs|
  {
    && t.0.Keys == Elements(gs) && t.1.Keys == Elements(gs)
    && forall g :: g in t.0 ==> t.0[g] == multiset(gs)[g] && t.1[g] == Positives(os, gs, g)
  }

  /** Bumping the last sample's group extends counts of the prefix to counts of the whole. */
  lemma BumpCounts<G(!new)>(prev: (map<G, int>, map<G, int>), os: seq<int>, gs: seq<G>)
    requires |os| == |gs| > 0
    requires Counts(prev, os[..|os| - 1], gs[..|gs| - 1])
    ensures Counts(Bump(prev, gs[|gs| - 1], os[|os| - 1]), os, gs)
  {
    var n := |gs| - 1;
    var g := gs[n];
    var next := Bump(prev, g, os[n]);
    assert gs == gs[..n] + [g];
    ElementsSnoc(gs[..n], g);
    PositivesLast(os, gs);
    assert multiset(gs) == multiset(gs[..n]) + multiset{g};
    if g !in prev.0 {
      PositivesAbsent(os[..n], gs[..n], g);
    }
    forall k | k in next.0
      ensures next.0[k] == multiset(gs)[k] && next.1[k] == Positives(os, gs, k)
    {
    }
  }

  /** The loop counts each group's samples and sums their outputs. */
  lemma {:induction false} TallyCounts<G(!new)>(os: seq<int>, gs: seq<G>)
    requires |os| == |gs|
    ensures Tally(os, gs).0.Keys == Elements(gs) && Tally(os, gs).1.Keys == Elements(gs)
    ensures forall g :: g in Tally(os, gs).0 ==>
      Tally(os, gs).0[g] == multiset(gs)[g] && Tally(os, gs).1[g] == Positives(os, gs, g)
  {
    if |gs| > 0 {
      var n := |gs| - 1;
      TallyCounts(os[..n], gs[..n]);
      BumpCounts(Tally(os[..n], gs[..n]), os, gs);
    }
    assert Counts(Tally(os, gs), os, gs);
  }

  /**
    `demographic_parity_rates(outputs, groups)`: each group among the zipped
    samples mapped to the sum of its outputs divided by its sample count.
   */
  function Rates<G(==,!new)>(outputs: seq<int>, groups: seq<G>): (r: map<G, Fraction>)
    ensures var n := ZipLen(|outputs|, |groups|);
      && r.Keys == Elements(groups[..n])
      && forall g :: g in r ==>
           && multiset(groups[..n])[g] > 0
           && r[g].num * multiset(groups[..n])[g] == Positives(outputs[..n], groups[..n], g) * r[g].den
  {
    var n := ZipLen(|outputs|, |groups|);
    var t := Tally(outputs[..n], groups[..n]);
    TallyCounts(outputs[..n], groups[..n]);
    map g | g in t.0 :: Normalize(t.1[g], t.0[g])
  }

  /**
    A group's rate is the one fraction in lowest terms that times the
    group's sample count gives the sum of its outputs.
   */
  lemma RateOf<G(!new)>(outputs: seq<int>, groups: seq<G>, g: G, q: Fraction)
    requires |outputs| == |groups| && g in groups
    requires q.num * multiset(groups)[g] == Positives(outputs, groups, g) * q.den
    ensures g in Rates(outputs, groups) && Rates(outputs, groups)[g] == q
  {
    assert outputs[..|outputs|] == outputs && groups[..|groups|] == groups;
    assert g in Elements(groups);
    var r := Rates(outputs, groups)[g];
    var c, p := multiset(groups)[g], Positives(outputs, groups, g);
    CrossCancel(r.num, r.den, q.num, q.den, c, p);
    CanonicalForm(r, q);
  }

  /** The largest rate over the groups of `gs`. */
  function MaxRate<G>(rates: map<G, Fraction>, gs: seq<G>): (r: Fraction)
    requires |gs| > 0 && forall i :: 0 <= i < |gs| ==> gs[i] in rates
    ensures exists i :: 0 <= i < |gs| && r == rates[gs[i]]
    ensures forall i :: 0 <= i < |gs| ==> Value(rates[gs[i]]) <= Value(r)
  {
    if |gs| == 1 then rates[gs[0]]
    else
      var rest := MaxRate(rates, gs[1..]);
      assert forall i :: 1 <= i < |gs| ==> gs[i] == gs[1..][i - 1];
      Max(rates[gs[0]], rest)
  }

  /** The smallest rate over the groups of `gs`. */
  function MinRate<G>(rates: map<G, Fraction>, gs: seq<G>): (r: Fraction)
    requires |gs| > 0 && forall i :: 0 <= i < |gs| ==> gs[i] in rates
    ensures exists i :: 0 <= i < |gs| && r == rates[gs[i]]
    ensures forall i :: 0 <= i < |gs| ==> Value(r) <= Value(rates[gs[i]])
  {
    if |gs| == 1 then rates[gs[0]]
    else
      var rest := MinRate(rates, gs[1..]);
      assert forall i :: 1 <= i < |gs| ==> gs[i] == gs[1..][i - 1];
      Min(rates[gs[0]], rest)
  }

  /** `hi` carries a largest and `lo` a smallest rate of the map. */
  ghost predicate Extremes<G>(rates: map<G, Fraction>, hi: G, lo: G) {
    && hi in rates && lo in rates
    && forall g :: g in rates ==> Value(rates[lo]) <= Value(rates[g]) <= Value(rates[hi])
  }

  /** Over a sequence covering every key, MaxRate and MinRate are the extremes of the map. */
  lemma ExtremesOf<G>(rates: map<G, Fraction>, gs: seq<G>)
    requires |gs| > 0 && Elements(gs) == rates.Keys
    ensures exists hi, lo :: Extremes(rates, hi, lo) && MaxRate(rates, gs) == rates[hi] && MinRate(rates, gs) == rates[lo]
  {
    var hiR, loR := MaxRate(rates, gs), MinRate(rates, gs);
    var i :| 0 <= i < |gs| && hiR == rates[gs[i]];
    var j :| 0 <= j < |gs| && loR == rates[gs[j]];
    forall g | g in rates
      ensures Value(rates[gs[j]]) <= Value(rates[g]) <= Value(rates[gs[i]])
    {
      assert g in Elements(gs);
      var k :| 0 <= k < |gs| && gs[k] == g;
    }
    assert Extremes(rates, gs[i], gs[j]);
  }

  /** The spread of a rate map over the sequence of its groups: 0 for no groups, else max minus min. */
  function Spread<G>(rates: map<G, Fraction>, gs: seq<G>): (r: Fraction)
    requires forall i :: 0 <= i < |gs| ==> gs[i] in rates
    ensures Value(r) >= 0.0
    ensures |gs| == 0 ==> r == FromInt(0)
  {
    if |gs| == 0 then FromInt(0)
    else Sub(MaxRate(rates, gs), MinRate(rates, gs))
  }

  /** Over a sequence covering every key, the spread is the largest rate minus the smallest. */
  lemma SpreadOfExtremes<G>(rates: map<G, Fraction>, gs: seq<G>)
    requires |gs| > 0 && Elements(gs) == rates.Keys
    ensures forall i :: 0 <= i < |gs| ==> gs[i] in rates
    ensures exists hi, lo :: Extremes(rates, hi, lo) && Value(Spread(rates, gs)) == Value(rates[hi]) - Value(rates[lo])
  {
    assert forall i :: 0 <= i < |gs| ==> gs[i] in Elements(gs);
    ExtremesOf(rates, gs);
  }

  /**
    `demographic_parity_difference(outputs, groups)`: 0 when no sample is
    read, otherwise the largest rate minus the smallest.
   */
  function DemographicParityDifference<G(==,!new)>(outputs: seq<int>, groups: seq<G>): (r: Fraction)
    ensures Value(r) >= 0.0
    ensures Rates(outputs, groups) == map[] ==> r == FromInt(0)
    ensures Rates(outputs, groups) != map[] ==> exists hi, lo ::
      Extremes(Rates(outputs, groups), hi, lo) &&
      Value(r) == Value(Rates(outputs, groups)[hi]) - Value(Rates(outputs, groups)[lo])
  {
    var gs := groups[..ZipLen(|outputs|, |groups|)];
    var rates := Rates(outputs, groups);
    if |gs| > 0 then
      SpreadOfExtremes(rates, gs);
      Spread(rates, gs)
    else
      FromInt(0)
  }

  /** The ratio over the sequence of groups: 1 for no groups or a largest rate of 0, else min over max. */
  function RatioOver<G>(rates: map<G, Fraction>, gs: seq<G>): Fraction
    requires forall i :: 0 <= i < |gs| ==> gs[i] in rates
  {
    if |gs| == 0 then FromInt(1)
    else
      var maxRate, minRate := MaxRate(rates, gs), MinRate(rates, gs);
      if maxRate.num == 0 then FromInt(1) else Div(minRate, maxRate)
  }

  /** `q` is `x / y`. */
  ghost predicate Quotient(q: Fraction, x: Fraction, y: Fraction) {
    Value(q) * Value(y) == Value(x)
  }

  /**
    With `hi` and `lo` a largest and a smallest rate, `r` is 1 when the
    largest rate is 0 and the smallest over the largest otherwise.
   */
  ghost predicate RatioAt<G>(rates: map<G, Fraction>, r: Fraction, hi: G, lo: G) {
    && Extremes(rates, hi, lo)
    && (rates[hi].num == 0 ==> r == FromInt(1))
    && (rates[hi].num != 0 ==> Quotient(r, rates[lo], rates[hi]))
  }

  /** `r` is the parity ratio of the rate map: 1 for an empty map, otherwise `RatioAt` some extremes. */
  ghost predicate IsRatio<G(!new)>(rates: map<G, Fraction>, r: Fraction) {
    && (rates == map[] ==> r == FromInt(1))
    && (rates != map[] ==> exists hi, lo :: RatioAt(rates, r, hi, lo))
  }

  lemma DivQuotient(x: Fraction, y: Fraction)
    requires y.num != 0
    ensures Quotient(Div(x, y), x, y)
  {
  }

  lemma RatioWitness<G(!new)>(rates: map<G, Fraction>, hi: G, lo: G, r: Fraction)
    requires Extremes(rates, hi, lo)
    requires rates[hi].num == 0 ==> r == FromInt(1)
    requires rates[hi].num != 0 ==> r == Div(rates[lo], rates[hi])
    ensures IsRatio(rates, r)
  {
    if rates[hi].num != 0 {
      DivQuotient(rates[lo], rates[hi]);
    }
    assert RatioAt(rates, r, hi, lo);
  }

  lemma RatioOfExtremes<G(!new)>(rates: map<G, Fraction>, gs: seq<G>)
    requires Elements(gs) == rates.Keys
    ensures forall i :: 0 <= i < |gs| ==> gs[i] in rates
    ensures IsRatio(rates, RatioOver(rates, gs))
  {
    assert forall i :: 0 <= i < |gs| ==> gs[i] in Elements(gs);
    if |gs| > 0 {
      assert gs[0] in rates;
      ExtremesOf(rates, gs);
      var hi, lo :| Extremes(rates, hi, lo) && MaxRate(rates, gs) == rates[hi] && MinRate(rates, gs) == rates[lo];
      RatioWitness(rates, hi, lo, RatioOver(rates, gs));
    } else {
      assert rates == map[];
    }
  }

  /**
    `demographic_parity_ratio(outputs, groups)`: 1 when no sample is read or
    the largest rate is 0, otherwise the smallest rate over the largest.
   */
  function DemographicParityRatio<G(==,!new)>(outputs: seq<int>, groups: seq<G>): (r: Fraction)
    ensures IsRatio(Rates(outputs, groups), r)
  {
    var gs := groups[..ZipLen(|outputs|, |groups|)];
    var rates := Rates(outputs, groups);
    RatioOfExtremes(rates, gs);
    RatioOver(rates, gs)
  }

  /** Every output is 0 or 1. */
  predicate Binary(os: seq<int>) {
    forall i :: 0 <= i < |os| ==> os[i] == 0 || os[i] == 1
  }

  lemma {:induction false} BinaryPositives<G>(os: seq<int>, gs: seq<G>, g: G)
    requires |os| == |gs| && Binary(os)
    ensures 0 <= Positives(os, gs, g) <= multiset(gs)[g]
  {
    if |gs| > 0 {
      assert gs == [gs[0]] + gs[1..];
      assert multiset(gs) == multiset{gs[0]} + multiset(gs[1..]);
      BinaryPositives(os[1..], gs[1..], g);
    }
  }

  lemma MulPositive(a: int, b: int)
    requires a > 0 && b > 0
    ensures a * b > 0
  {
  }

  lemma MulNonNegative(a: int, b: int)
    requires a >= 0 && b >= 0
    ensures a * b >= 0
  {
  }

  lemma UnitNumerator(x: Fraction, c: nat, p: int)
    requires c > 0 && 0 <= p <= c && x.num * c == p * x.den
    ensures 0 <= x.num <= x.den
  {
    MulNonNegative(p, x.den);
    if x.num < 0 {
      MulPositive(-x.num, c);
      assert false;
    }
    if x.num > x.den {
      MulPositive(x.num - x.den, c);
      MulNonNegative(c - p, x.den);
      assert false;
    }
  }

  lemma UnitQuotient(n: int, d: int)
    requires 0 <= n <= d && d > 0
    ensures 0.0 <= n as real / d as real <= 1.0
  {
  }

  /** A fraction whose cross product with a count `c` is at most `c` lies in [0, 1]. */
  lemma UnitFraction(x: Fraction, c: nat, p: int)
    requires c > 0 && 0 <= p <= c && x.num * c == p * x.den
    ensures 0.0 <= Value(x) <= 1.0
  {
    UnitNumerator(x, c, p);
    UnitQuotient(x.num, x.den);
  }

  /** With 0/1 outputs every rate lies between 0 and 1. */
  lemma RatesInUnitInterval<G(!new)>(outputs: seq<int>, groups: seq<G>)
    requires Binary(outputs)
    ensures forall g :: g in Rates(outputs, groups) ==> 0.0 <= Value(Rates(outputs, groups)[g]) <= 1.0
  {
    var n := ZipLen(|outputs|, |groups|);
    var rates := Rates(outputs, groups);
    assert Binary(outputs[..n]);
    forall g | g in rates
      ensures 0.0 <= Value(rates[g]) <= 1.0
    {
      BinaryPositives(outputs[..n], groups[..n], g);
      UnitFraction(rates[g], multiset(groups[..n])[g], Positives(outputs[..n], groups[..n], g));
    }
  }

  lemma QuotientInUnit(q: real, hi: real, lo: real)
    requires 0.0 <= lo <= hi && hi != 0.0 && q * hi == lo
    ensures 0.0 <= q <= 1.0
  {
  }

  /** With 0/1 outputs the parity difference lies between 0 and 1. */
  lemma BinaryDifferenceInUnitInterval<G(!new)>(outputs: seq<int>, groups: seq<G>)
    requires Binary(outputs)
    ensures 0.0 <= Value(DemographicParityDifference(outputs, groups)) <= 1.0
  {
    RatesInUnitInterval(outputs, groups);
  }

  /** A ratio of rates that all lie in [0, 1] lies in [0, 1]. */
  lemma RatioInUnit<G(!new)>(rates: map<G, Fraction>, r: Fraction)
    requires IsRatio(rates, r)
    requires forall g :: g in rates ==> 0.0 <= Value(rates[g]) <= 1.0
    ensures 0.0 <= Value(r) <= 1.0
  {
    if rates != map[] {
      var hi, lo :| RatioAt(rates, r, hi, lo);
      if rates[hi].num != 0 {
        QuotientOfUnits(r, rates[lo], rates[hi]);
      }
    }
  }

  lemma QuotientOfUnits(q: Fraction, x: Fraction, y: Fraction)
    requires Quotient(q, x, y) && y.num != 0
    requires 0.0 <= Value(x) <= Value(y)
    ensures 0.0 <= Value(q) <= 1.0
  {
    NonZeroValue(y);
    QuotientInUnit(Value(q), Value(y), Value(x));
  }

  lemma NonZeroValue(x: Fraction)
    requires x.num != 0
    ensures Value(x) != 0.0
  {
  }

  /** With 0/1 outputs the parity ratio lies between 0 and 1. */
  lemma BinaryRatioInUnitInterval<G(!new)>(outputs: seq<int>, groups: seq<G>)
    requires Binary(outputs)
    ensures 0.0 <= Value(DemographicParityRatio(outputs, groups)) <= 1.0
  {
    RatesInUnitInterval(outputs, groups);
    RatioInUnit(Rates(outputs, groups), DemographicParityRatio(outputs, groups));
  }

  /** The samples labelled 1, in order. */
  function Labelled<T>(xs: seq<T>, ls: seq<int>): (r: seq<T>)
    requires |xs| == |ls|
    ensures |r| <= |xs|
    ensures forall x :: x in r ==> x in xs
  {
    if |xs| == 0 then []
    else
      var n := |xs| - 1;
      Labelled(xs[..n], ls[..n]) + (if ls[n] == 1 then [xs[n]] else [])
  }

  /** Each output read as a hit: 1 when it is 1, else 0. */
  function Hits(os: seq<int>): (r: seq<int>)
    ensures |r| == |os| && Binary(r)
    ensures forall i :: 0 <= i < |os| ==> (r[i] == 1 <==> os[i] == 1)
  {
    seq(|os|, i requires 0 <= i < |os| => if os[i] == 1 then 1 else 0)
  }

  /**
    The counting loop of `equal_opportunity_difference`: over the samples
    labelled 1, per group the number of them (actual positives) and the
    number of them also predicted 1 (true positives).
   */
  function OpportunityTally<G(==,!new)>(os: seq<int>, ls: seq<int>, gs: seq<G>): (r: (map<G, int>, map<G, int>))
    requires |os| == |ls| == |gs|
    ensures r.0.Keys == Elements(Labelled(gs, ls))
    ensures r.1.Keys <= r.0.Keys
  {
    if |gs| == 0 then (map[], map[])
    else
      var n := |gs| - 1;
      var prev := OpportunityTally(os[..n], ls[..n], gs[..n]);
      var g := gs[n];
      if ls[n] == 1 then
        ElementsSnoc(Labelled(gs[..n], ls[..n]), g);
        var ap := prev.0[g := Get(prev.0, g) + 1];
        if os[n] == 1 then (ap, prev.1[g := Get(prev.1, g) + 1]) else (ap, prev.1)
      else
        prev
  }

  /**
    The tallies of `equal_opportunity_difference` are those of
    `demographic_parity_rates` run on the labelled samples with hits as
    outputs.
   */
  ghost predicate TalliesAgree<G(!new)>(os: seq<int>, ls: seq<int>, gs: seq<G>)
    requires |os| == |ls| == |gs|
  {
    && |Labelled(Hits(os), ls)| == |Labelled(gs, ls)|
    && var t := Tally(Labelled(Hits(os), ls), Labelled(gs, ls));
       && OpportunityTally(os, ls, gs).0 == t.0
       && t.1.Keys == t.0.Keys
       && forall g :: g in t.0 ==> Get(OpportunityTally(os, ls, gs).1, g) == t.1[g]
  }

  lemma {:induction false} OpportunityTallyMatches<G(!new)>(os: seq<int>, ls: seq<int>, gs: seq<G>)
    requires |os| == |ls| == |gs|
    ensures TalliesAgree(os, ls, gs)
  {
    if |gs| > 0 {
      var n := |gs| - 1;
      OpportunityTallyMatches(os[..n], ls[..n], gs[..n]);
      if ls[n] == 1 {
        LabelledStep(os, ls, gs);
      } else {
        UnlabelledStep(os, ls, gs);
      }
    }
  }

  lemma LabelledSplit<G>(os: seq<int>, ls: seq<int>, gs: seq<G>)
    requires |os| == |ls| == |gs| > 0
    ensures var n := |gs| - 1;
      && Labelled(Hits(os), ls) == Labelled(Hits(os[..n]), ls[..n]) + (if ls[n] == 1 then [Hits(os)[n]] else [])
      && Labelled(gs, ls) == Labelled(gs[..n], ls[..n]) + (if ls[n] == 1 then [gs[n]] else [])
  {
    var n := |gs| - 1;
    assert Hits(os)[..n] == Hits(os[..n]);
  }

  lemma UnlabelledStep<G(!new)>(os: seq<int>, ls: seq<int>, gs: seq<G>)
    requires |os| == |ls| == |gs| > 0 && ls[|gs| - 1] != 1
    requires TalliesAgree(os[..|gs| - 1], ls[..|gs| - 1], gs[..|gs| - 1])
    ensures TalliesAgree(os, ls, gs)
  {
    var n := |gs| - 1;
    LabelledSplit(os, ls, gs);
    assert Labelled(Hits(os), ls) == Labelled(Hits(os[..n]), ls[..n]);
    assert Labelled(gs, ls) == Labelled(gs[..n], ls[..n]);
    assert OpportunityTally(os, ls, gs) == OpportunityTally(os[..n], ls[..n], gs[..n]);
  }

  lemma LabelledStep<G(!new)>(os: seq<int>, ls: seq<int>, gs: seq<G>)
    requires |os| == |ls| == |gs| > 0 && ls[|gs| - 1] == 1
    requires TalliesAgree(os[..|gs| - 1], ls[..|gs| - 1], gs[..|gs| - 1])
    ensures TalliesAgree(os, ls, gs)
  {
    var n := |gs| - 1;
    LabelledSplit(os, ls, gs);
    var l0, m0 := Labelled(Hits(os[..n]), ls[..n]), Labelled(gs[..n], ls[..n]);
    TallySnoc(l0, m0, Hits(os)[n], gs[n]);
    var prev := OpportunityTally(os[..n], ls[..n], gs[..n]);
    var t0 := Tally(l0, m0);
    assert Labelled(Hits(os), ls) == l0 + [Hits(os)[n]];
    assert Labelled(gs, ls) == m0 + [gs[n]];
    var tp := if os[n] == 1 then prev.1[gs[n] := Get(prev.1, gs[n]) + 1] else prev.1;
    assert OpportunityTally(os, ls, gs) == (prev.0[gs[n] := Get(prev.0, gs[n]) + 1], tp);
    MatchStep(prev.0, prev.1, t0.0, t0.1, gs[n], os[n] == 1);
  }

  lemma TallySnoc<G>(l0: seq<int>, m0: seq<G>, h: int, g: G)
    requires |l0| == |m0|
    ensures Tally(l0 + [h], m0 + [g]) == Bump(Tally(l0, m0), g, h)
  {
    var l, m := l0 + [h], m0 + [g];
    assert l[..|l| - 1] == l0 && m[..|m| - 1] == m0;
  }

  lemma MatchStep<G>(ap0: map<G, int>, tp0: map<G, int>, ta: map<G, int>, tb: map<G, int>, g: G, hit: bool)
    requires ap0 == ta && tp0.Keys <= ap0.Keys && tb.Keys == ta.Keys
    requires forall k :: k in ta ==> Get(tp0, k) == tb[k]
    ensures var tp := if hit then tp0[g := Get(tp0, g) + 1] else tp0;
      && ap0[g := Get(ap0, g) + 1] == ta[g := Get(ta, g) + 1]
      && forall k :: k in ap0[g := Get(ap0, g) + 1] ==> Get(tp, k) == tb[g := Get(tb, g) + (if hit then 1 else 0)][k]
  {
  }

  /** Number of tuples `zip` yields for three lists. */
  function ZipLen3(a: nat, b: nat, c: nat): (r: nat)
    ensures r <= a && r <= b && r <= c && (r == a || r == b || r == c)
  {
    ZipLen(ZipLen(a, b), c)
  }

  /**
    The true-positive rate of each group with a sample labelled 1: its hits
    over its labelled samples.
   */
  function TruePositiveRates<G(==,!new)>(os: seq<int>, ls: seq<int>, gs: seq<G>): (r: map<G, Fraction>)
    requires |os| == |ls| == |gs|
    ensures r.Keys == Elements(Labelled(gs, ls))
  {
    var t := OpportunityTally(os, ls, gs);
    OpportunityTallyMatches(os, ls, gs);
    assert TalliesAgree(os, ls, gs);
    TallyCounts(Labelled(Hits(os), ls), Labelled(gs, ls));
    map g | g in t.0 :: Normalize(Get(t.1, g), t.0[g])
  }

  /** The true-positive rates are the parity rates of the labelled samples read as hits. */
  lemma TruePositiveRatesAreRates<G(!new)>(os: seq<int>, ls: seq<int>, gs: seq<G>)
    requires |os| == |ls| == |gs|
    ensures |Labelled(Hits(os), ls)| == |Labelled(gs, ls)|
    ensures TruePositiveRates(os, ls, gs) == Rates(Labelled(Hits(os), ls), Labelled(gs, ls))
  {
    var hits, sel := Labelled(Hits(os), ls), Labelled(gs, ls);
    OpportunityTallyMatches(os, ls, gs);
    assert TalliesAgree(os, ls, gs);
    TallyCounts(hits, sel);
    var k := ZipLen(|hits|, |sel|);
    assert hits[..k] == hits && sel[..k] == sel;
    var t, u := OpportunityTally(os, ls, gs), Tally(hits, sel);
    assert Rates(hits, sel) == map g | g in u.0 :: Normalize(u.1[g], u.0[g]);
    SameRates(t.0, t.1, u.0, u.1);
  }

  lemma SameRates<G>(ap: map<G, int>, tp: map<G, int>, ua: map<G, int>, ub: map<G, int>)
    requires ap == ua && ub.Keys == ua.Keys
    requires forall g :: g in ua ==> ua[g] != 0 && Get(tp, g) == ub[g]
    ensures (map g | g in ap :: Normalize(Get(tp, g), ap[g])) == (map g | g in ua :: Normalize(ub[g], ua[g]))
  {
  }

  /**
    `equal_opportunity_difference(outputs, labels, groups)`: the largest
    true-positive rate minus the smallest, or 0 when no sample is labelled 1.
   */
  function EqualOpportunityDifference<G(==,!new)>(outputs: seq<int>, labels: seq<int>, groups: seq<G>): (r: Fraction)
    ensures Value(r) >= 0.0
    ensures var n := ZipLen3(|outputs|, |labels|, |groups|);
      Labelled(groups[..n], labels[..n]) == [] ==> r == FromInt(0)
  {
    var n := ZipLen3(|outputs|, |labels|, |groups|);
    var os, ls, gs := outputs[..n], labels[..n], groups[..n];
    var sel := Labelled(gs, ls);
    var tpr := TruePositiveRates(os, ls, gs);
    assert forall i :: 0 <= i < |sel| ==> sel[i] in Elements(sel);
    Spread(tpr, sel)
  }

  /**
    The true-positive spread is the parity difference of the samples
    labelled 1, each read as a hit (1 when predicted 1, else 0).
   */
  lemma EqualOpportunityIsParityOfHits<G(!new)>(outputs: seq<int>, labels: seq<int>, groups: seq<G>)
    ensures var n := ZipLen3(|outputs|, |labels|, |groups|);
      var os, ls, gs := outputs[..n], labels[..n], groups[..n];
      EqualOpportunityDifference(outputs, labels, groups) == DemographicParityDifference(Labelled(Hits(os), ls), Labelled(gs, ls))
  {
    var n := ZipLen3(|outputs|, |labels|, |groups|);
    var os, ls, gs := outputs[..n], labels[..n], groups[..n];
    var hits, sel := Labelled(Hits(os), ls), Labelled(gs, ls);
    TruePositiveRatesAreRates(os, ls, gs);
    assert ZipLen(|hits|, |sel|) == |sel|;
    assert sel[..|sel|] == sel;
  }
}

=== FILE: fairness_examples.dfy ===
/**
  The fairness scenarios of tests/test_determinism.py, worked through the
  model.
 */
module FairnessExamples {
  import opened Rational
  import opened Collections
  import opened Fairness

  function Outputs(): seq<int> {
    [1, 0, 1, 1, 0, 0]
  }

  function Groups(): seq<string> {
    ["a", "a", "b", "b", "b", "a"]
  }

  lemma GroupCounts()
    ensures Elements(Groups()) == {"a", "b"}
    ensures multiset(Groups())["a"] == 3 && multiset(Groups())["b"] == 3
    ensures Positives(Outputs(), Groups(), "a") == 1 && Positives(Outputs(), Groups(), "b") == 2
  {
  }

  lemma WholeInput()
    ensures Rates(Outputs(), Groups()).Keys == {"a", "b"}
  {
    assert Outputs()[..6] == Outputs() && Groups()[..6] == Groups();
    GroupCounts();
  }

  /** Outputs 1,0,1,1,0,0 over groups a,a,b,b,b,a give a 1/3 and b 2/3. */
  lemma TwoGroupRates()
    ensures Rates(Outputs(), Groups()) == map["a" := Rat(1, 3), "b" := Rat(2, 3)]
  {
    GroupCounts();
    WholeInput();
    assert Reduced(Rat(1, 3)) && Reduced(Rat(2, 3));
    RateOf(Outputs(), Groups(), "a", Rat(1, 3));
    RateOf(Outputs(), Groups(), "b", Rat(2, 3));
  }

  /** Empty inputs give no rates, a difference of 0 and a ratio of 1. */
  lemma EmptyInputs()
    ensures Rates<string>([], []) == map[]
    ensures DemographicParityDifference<string>([], []) == FromInt(0)
    ensures DemographicParityRatio<string>([], []) == FromInt(1)
  {
  }

  lemma ThreeSamples()
    ensures Elements(["A", "A", "A"]) == {"A"}
    ensures multiset(["A", "A", "A"])["A"] == 3
    ensures Positives([1, 1, 0], ["A", "A", "A"], "A") == 2
  {
  }

  /** `zip` drops the outputs that have no group; 1,1,0 in one group is 2/3. */
  lemma ZipTruncates()
    ensures Rates([1, 1, 0, 1, 1], ["A", "A", "A"]) == map["A" := Rat(2, 3)]
  {
    var os, gs := [1, 1, 0, 1, 1], ["A", "A", "A"];
    assert os[..3] == [1, 1, 0] && gs[..3] == gs && [1, 1, 0][..3] == [1, 1, 0];
    ThreeSamples();
    assert Reduced(Rat(2, 3));
    RateOf([1, 1, 0], gs, "A", Rat(2, 3));
    assert Rates(os, gs) == Rates([1, 1, 0], gs);
  }
}

=== FILE: global_invariants.dfy ===
/**
  The global lattice invariants of src/spectrum/invariants/global_invariants.py:
  distinct ids, no parent id that names no node, and no cycle through
  parent links.
 */
module GlobalInvariants {
  import opened Lattice
  import opened Collections
  import opened IdSets
  import opened ParentGraph

  /** `len(ids) == len(set(ids))`: true exactly when no id repeats. */
  function UniqueNodeIds(nodes: seq<Node>): (r: bool)
    ensures r <==> DistinctIds(nodes)
  {
    var ids := Ids(nodes);
    ElementsSize(ids);
    |ids| == |Elements(ids)|
  }

  /** Every parent id of every node is the id of some node. */
  ghost predicate NoDanglingParents(nodes: seq<Node>) {
    forall i, p :: 0 <= i < |nodes| && p in nodes[i].parents ==> p in IdSet(nodes)
  }

  /** `no_orphan_nodes`: scans every parent of every node and fails at the first unknown one. */
  method NoOrphanNodes(nodes: seq<Node>) returns (ok: bool)
    ensures ok <==> NoDanglingParents(nodes)
  {
    var ids := IdSet(nodes);
    var i := 0;
    while i < |nodes|
      invariant 0 <= i <= |nodes|
      invariant forall k, p :: 0 <= k < i && p in nodes[k].parents ==> p in ids
    {
      var todo := nodes[i].parents;
      while todo != {}
        invariant todo <= nodes[i].parents
        invariant forall p :: p in nodes[i].parents && p !in todo ==> p in ids
        decreases |todo|
      {
        ghost var someMember := Member(todo);
        var p :| p in todo;
        if p !in ids {
          return false;
        }
        todo := todo - {p};
      }
      i := i + 1;
    }
    return true;
  }

  /** Every rank is below the number of finished ids. */
  ghost predicate RankBound(done: set<int>, rank: map<int, int>) {
    forall x :: x in done && x in rank ==> 0 <= rank[x] < |done|
  }

  /** Finishing `nid` after all its parents keeps the rank certificate. */
  lemma Finish(g: Graph, done: set<int>, rank: map<int, int>, nid: int)
    requires Ranked(g, done, rank) && RankBound(done, rank) && nid !in done
    requires Succ(g, nid) <= done
    ensures Ranked(g, done + {nid}, rank[nid := |done|])
    ensures RankBound(done + {nid}, rank[nid := |done|])
  {
    var done2, rank2 := done + {nid}, rank[nid := |done|];
    forall x, y | x in done2 && y in Succ(g, x)
      ensures y in done2 && rank2[y] < rank2[x]
    {
      if x == nid {
        assert y in done;
      } else {
        RankedEdge(g, done, rank, x, y);
      }
    }
  }

  /**
    `visit(nid)`: depth-first search along parent links. `stack` holds the
    ids on the current path (`path`, ghost), `visited` the finished ids;
    reaching an id on the stack is a cycle. On success the finished ids
    carry a rank certificate.
   */
  method Visit(g: Graph, nid: int, stack: set<int>, visited: set<int>, ghost path: seq<int>, ghost rank: map<int, int>)
    returns (ok: bool, visitedOut: set<int>, ghost rankOut: map<int, int>)
    requires forall x :: x in stack <==> x in path
    requires IsWalk(g, path)
    requires |path| > 0 ==> nid in Succ(g, path[|path| - 1])
    requires Ranked(g, visited, rank) && RankBound(visited, rank)
    requires visited !! stack
    requires stack <= Vertices(g) && nid in Vertices(g)
    ensures ok ==> nid in visitedOut && visited <= visitedOut && visitedOut !! stack
    ensures ok ==> Ranked(g, visitedOut, rankOut) && RankBound(visitedOut, rankOut)
    ensures !ok ==> HasCycle(g)
    decreases Vertices(g) - stack
  {
    if nid in stack {
      CycleFromWalk(g, path, nid);
      return false, visited, rank;
    }
    if nid in visited {
      return true, visited, rank;
    }
    var inner := stack + {nid};
    ghost var innerPath := path + [nid];
    assert IsWalk(g, innerPath);
    var todo := Succ(g, nid);
    visitedOut, rankOut := visited, rank;
    while todo != {}
      invariant todo <= Succ(g, nid)
      invariant visited <= visitedOut && visitedOut !! inner
      invariant Ranked(g, visitedOut, rankOut) && RankBound(visitedOut, rankOut)
      invariant forall p :: p in Succ(g, nid) && p !in todo ==> p in visitedOut
      decreases |todo|
    {
      ghost var someMember := Member(todo);
      var p :| p in todo;
      var okp;
      okp, visitedOut, rankOut := Visit(g, p, inner, visitedOut, innerPath, rankOut);
      if !okp {
        return false, visitedOut, rankOut;
      }
      todo := todo - {p};
    }
    forall p | p in Succ(g, nid)
      ensures p in visitedOut
    {
      assert p !in todo;
    }
    Finish(g, visitedOut, rankOut, nid);
    rankOut := rankOut[nid := |visitedOut|];
    visitedOut := visitedOut + {nid};
    return true, visitedOut, rankOut;
  }

  /**
    `parents_are_acyclic`: searches from every node id in order, sharing
    the finished set; false exactly when the parent graph has a cycle,
    a self-loop included.
   */
  method ParentsAreAcyclic(nodes: seq<Node>) returns (ok: bool)
    ensures ok <==> !HasCycle(BuildGraph(nodes))
  {
    var g := BuildGraph(nodes);
    var starts := Ids(nodes);
    forall x | x in g
      ensures x in starts
    {
      var k :| 0 <= k < |nodes| && nodes[k].id == x;
      assert starts[k] == x;
    }
    ok := SearchAll(g, starts);
  }

  /** `all(visit(s) for s in starts)`, with the finished set shared between searches. */
  method SearchAll(g: Graph, starts: seq<int>) returns (ok: bool)
    requires forall x :: x in g ==> x in starts
    requires forall k :: 0 <= k < |starts| ==> starts[k] in g
    ensures ok <==> !HasCycle(g)
  {
    var visited: set<int> := {};
    ghost var rank: map<int, int> := map[];
    var i := 0;
    while i < |starts|
      invariant 0 <= i <= |starts|
      invariant Ranked(g, visited, rank) && RankBound(visited, rank)
      invariant forall k :: 0 <= k < i ==> starts[k] in visited
    {
      assert starts[i] in Vertices(g);
      var okv;
      okv, visited, rank := Visit(g, starts[i], {}, visited, [], rank);
      if !okv {
        return false;
      }
      i := i + 1;
    }
    forall x | x in g
      ensures x in visited
    {
      var k :| 0 <= k < |starts| && starts[k] == x;
    }
    RankedAcyclic(g, visited, rank);
    return true;
  }
}

=== FILE: global_invariants_examples.dfy ===
/**
  The lattices of tests/test_global_invariants.py: the chain 0 <- 1 <- 2
  passes all three checks and the mutual pair 0 <-> 1 has a cycle.
 */
module GlobalInvariantsExamples {
  import opened Rational
  import opened Lattice
  import opened ParentGraph
  import opened GlobalInvariants

  function Chain(): seq<Node> {
    [Plain(0, [FromInt(0)], {}), Plain(1, [FromInt(1)], {0}), Plain(2, [FromInt(2)], {1})]
  }

  function MutualPair(): seq<Node> {
    [Plain(0, [FromInt(0)], {1}), Plain(1, [FromInt(1)], {0})]
  }

  lemma ChainGraph()
    ensures BuildGraph(Chain()) == map[0 := {}, 1 := {0}, 2 := {1}]
  {
    var ns := Chain();
    assert ns[..2][..1] == [ns[0]] && [ns[0]][..0] == [];
  }

  lemma ChainIds()
    ensures IdSet(Chain()) == {0, 1, 2}
  {
    var ns := Chain();
    assert ns[0].id == 0 && ns[1].id == 1 && ns[2].id == 2;
  }

  /** The chain has distinct ids and no dangling parent. */
  lemma ChainWellFormed()
    ensures UniqueNodeIds(Chain())
    ensures NoDanglingParents(Chain())
  {
    ChainIds();
  }

  /** The chain has no cycle. */
  lemma ChainAcyclic()
    ensures !HasCycle(BuildGraph(Chain()))
  {
    ChainGraph();
    var g := BuildGraph(Chain());
    var rank := map[0 := 0, 1 := 1, 2 := 2];
    assert Ranked(g, {0, 1, 2}, rank);
    RankedAcyclic(g, {0, 1, 2}, rank);
  }

  /** Two nodes that are each other's parent form a cycle. */
  lemma MutualPairCycles()
    ensures HasCycle(BuildGraph(MutualPair()))
  {
    var ns := MutualPair();
    assert ns[..1] == [ns[0]] && [ns[0]][..0] == [];
    var g := BuildGraph(ns);
    assert g == map[0 := {1}, 1 := {0}];
    assert IsCycle(g, [0, 1, 0]);
  }

  /** A node that is its own parent is a cycle of one edge. */
  lemma SelfLoopCycles()
    ensures HasCycle(BuildGraph([Plain(7, [], {7})]))
  {
    var g := BuildGraph([Plain(7, [], {7})]);
    assert g == map[7 := {7}];
    assert IsCycle(g, [7, 7]);
  }

  /** A parent id naming no node is a leaf: a lone node with a dangling parent has no cycle. */
  lemma DanglingParentIsLeaf()
    ensures !HasCycle(BuildGraph([Plain(1, [], {5})]))
  {
    var g := BuildGraph([Plain(1, [], {5})]);
    assert g == map[1 := {5}];
    var rank := map[1 := 1, 5 := 0];
    assert Ranked(g, {1, 5}, rank);
    RankedAcyclic(g, {1, 5}, rank);
  }
}

=== FILE: id_sets.dfy ===
/**
  Finite sets of integer ids in ascending order: Python's `sorted` applied
  to a set.
 */
module IdSets {
  import opened Collections

  /** The smallest element of a non-empty finite set of ids. */
  function MinOf(ps: set<int>): (m: int)
    requires ps != {}
    ensures m in ps && forall x :: x in ps ==> m <= x
  {
    MinExists(ps);
    var m :| m in ps && forall x :: x in ps ==> m <= x;
    m
  }

  lemma {:induction false} MinExists(ps: set<int>)
    requires ps != {}
    ensures exists m :: m in ps && forall x :: x in ps ==> m <= x
  {
    var y := Member(ps);
    var rest := ps - {y};
    if rest == {} {
      LowerBound(ps, y, y);
    } else {
      MinExists(rest);
      var m :| m in rest && forall x :: x in rest ==> m <= x;
      LowerBound(ps, y, if y < m then y else m);
    }
  }

  lemma LowerBound(ps: set<int>, y: int, lo: int)
    requires y in ps && lo <= y
    requires forall x :: x in ps - {y} ==> lo <= x
    ensures forall x :: x in ps ==> lo <= x
  {
    forall x | x in ps
      ensures lo <= x
    {
      if x != y {
        assert x in ps - {y};
      }
    }
  }

  /** `sorted(ps)`: the members of the set, strictly ascending. */
  function SortedIds(ps: set<int>): (r: seq<int>)
    ensures |r| == |ps|
    ensures forall x :: x in r <==> x in ps
    ensures forall i, j :: 0 <= i < j < |r| ==> r[i] < r[j]
    decreases ps
  {
    if ps == {} then []
    else
      var m := MinOf(ps);
      [m] + SortedIds(ps - {m})
  }
}

=== FILE: invariant_maps.dfy ===
/**
  The invariant-mapping utilities of invariants/core.py. A Python mapping
  is a Dafny `map`; where the order of its items is observable
  (`to_invariants`) the items are given as a sequence of pairs.
 */
module InvariantMaps {
  import opened Collections

  /** `set(nodes)`: the distinct elements; as many as the input exactly when none repeats. */
  function UniqueNodeIds<T(!new)>(xs: seq<T>): (r: set<T>)
    ensures forall x :: x in r <==> x in xs
    ensures |r| <= |xs| && (|r| == |xs| <==> NoDuplicates(xs))
  {
    ElementsSize(xs);
    Elements(xs)
  }

  /** `i` is the last position of `ms` whose mapping has key `k`. */
  predicate IsLastWith<K(!new), V>(ms: seq<map<K, V>>, k: K, i: int) {
    0 <= i < |ms| && k in ms[i] && forall j :: i < j < |ms| ==> k !in ms[j]
  }

  /**
    `compose_invariants(*ms)`, the right-biased union: every key of every
    input, with the value of the last input that has it.
   */
  function ComposeInvariants<K(!new), V>(ms: seq<map<K, V>>): (r: map<K, V>)
    ensures forall k :: k in r <==> exists i :: 0 <= i < |ms| && k in ms[i]
    ensures forall k, i :: IsLastWith(ms, k, i) ==> k in r && r[k] == ms[i][k]
  {
    if |ms| == 0 then map[]
    else
      var front := ms[..|ms| - 1];
      var r := ComposeInvariants(front) + ms[|ms| - 1];
      forall k, i | IsLastWith(ms, k, i)
        ensures r[k] == ms[i][k]
      {
        if i < |ms| - 1 {
          assert IsLastWith(front, k, i);
        }
      }
      forall k | exists i :: 0 <= i < |ms| && k in ms[i]
        ensures k in r
      {
        var i :| 0 <= i < |ms| && k in ms[i];
        if i < |ms| - 1 {
          assert k in front[i];
        }
      }
      r
  }

  /** A key that some input has is given by a last input. */
  lemma {:induction false} LastExists<K(!new), V>(ms: seq<map<K, V>>, k: K, i: int)
    requires 0 <= i < |ms| && k in ms[i]
    ensures exists j :: IsLastWith(ms, k, j)
    decreases |ms| - i
  {
    if !IsLastWith(ms, k, i) {
      var j :| i < j < |ms| && k in ms[j];
      LastExists(ms, k, j);
    }
  }

  /** Composing one mapping more is the union with that mapping on the right. */
  lemma ComposeSnoc<K(!new), V>(ms: seq<map<K, V>>, m: map<K, V>)
    ensures ComposeInvariants(ms + [m]) == ComposeInvariants(ms) + m
  {
    assert (ms + [m])[..|ms|] == ms;
  }

  /** `flatten_invariants`: the groups' items, group after group, in order. */
  function FlattenInvariants<T(!new)>(nested: seq<seq<T>>): (r: seq<T>)
    ensures forall x :: x in r <==> exists i :: 0 <= i < |nested| && x in nested[i]
  {
    if |nested| == 0 then []
    else
      var rest := FlattenInvariants(nested[1..]);
      assert forall i :: 1 <= i < |nested| ==> nested[i] == nested[1..][i - 1];
      nested[0] + rest
  }

  /** Flattening distributes over concatenation of the group lists. */
  lemma {:induction false} FlattenAppend<T(!new)>(a: seq<seq<T>>, b: seq<seq<T>>)
    ensures FlattenInvariants(a + b) == FlattenInvariants(a) + FlattenInvariants(b)
  {
    if |a| == 0 {
      assert a + b == b;
    } else {
      assert (a + b)[0] == a[0];
      assert (a + b)[1..] == a[1..] + b;
      FlattenAppend(a[1..], b);
    }
  }

  /** Flattening a single group gives that group. */
  lemma FlattenSingle<T(!new)>(g: seq<T>)
    ensures FlattenInvariants([g]) == g
  {
  }

  /** The frozen `Invariant(identifier, value)` record. */
  datatype Invariant<K, V> = Invariant(identifier: K, value: V) {
    /** `as_tuple()`. */
    function AsTuple(): (K, V) {
      (identifier, value)
    }
  }

  /** The record is determined by its tuple. */
  lemma AsTupleInjective<K(!new), V>(a: Invariant<K, V>, b: Invariant<K, V>)
    ensures a.AsTuple() == b.AsTuple() ==> a == b
  {
  }

  /** `to_invariants(mapping)`, for the mapping's items in iteration order. */
  function ToInvariants<K(!new), V>(items: seq<(K, V)>): (r: seq<Invariant<K, V>>)
    ensures |r| == |items|
    ensures forall i :: 0 <= i < |items| ==> r[i].AsTuple() == items[i]
  {
    seq(|items|, i requires 0 <= i < |items| => Invariant(items[i].0, items[i].1))
  }

  /** `tuple(inv.as_tuple() for inv in to_invariants(m))` gives back the items. */
  lemma ToInvariantsRoundTrip<K(!new), V>(items: seq<(K, V)>)
    ensures Tuples(ToInvariants(items)) == items
  {
  }

  function Tuples<K(!new), V>(invs: seq<Invariant<K, V>>): (r: seq<(K, V)>)
    ensures |r| == |invs|
  {
    seq(|invs|, i requires 0 <= i < |invs| => invs[i].AsTuple())
  }

  /** `invariant_difference(a, b)`: the entries of `a` that `b` lacks or maps differently. */
  function InvariantDifference<K(!new), V(==)>(a: map<K, V>, b: map<K, V>): (r: map<K, V>)
    ensures r.Keys <= a.Keys
    ensures forall k :: k in r ==> r[k] == a[k] && (k !in b || b[k] != a[k])
    ensures forall k :: k in a && (k !in b || b[k] != a[k]) ==> k in r
  {
    map k | k in a && (k !in b || b[k] != a[k]) :: a[k]
  }

  /** `a` is contained in `b` entry by entry. */
  predicate SubMap<K(!new), V(==)>(a: map<K, V>, b: map<K, V>) {
    forall k :: k in a ==> k in b && b[k] == a[k]
  }

  /** The difference is empty exactly when every entry of `a` is already in `b`. */
  lemma DifferenceEmpty<K(!new), V>(a: map<K, V>, b: map<K, V>)
    ensures InvariantDifference(a, b) == map[] <==> SubMap(a, b)
  {
    var d := InvariantDifference(a, b);
    if d == map[] {
      forall k | k in a
        ensures k in b && b[k] == a[k]
      {
        assert k !in d;
      }
    } else {
      var k :| k in d;
    }
  }

  /** Composing `b` with the difference restores every entry of `a`: `b + diff(a, b) == b + a`. */
  lemma DifferenceRestores<K(!new), V>(a: map<K, V>, b: map<K, V>)
    ensures ComposeInvariants([b, InvariantDifference(a, b)]) == b + a
  {
    ComposeTwo(b, InvariantDifference(a, b));
    UnionDifference(a, b);
  }

  lemma ComposeTwo<K(!new), V>(a: map<K, V>, b: map<K, V>)
    ensures ComposeInvariants([a, b]) == a + b
  {
    ComposeSnoc([a], b);
    ComposeSnoc([], a);
    assert [a] == [] + [a];
    assert [a, b] == [a] + [b];
  }

  lemma UnionDifference<K(!new), V>(a: map<K, V>, b: map<K, V>)
    ensures b + InvariantDifference(a, b) == b + a
  {
    var lhs := b + InvariantDifference(a, b);
    assert lhs.Keys == (b + a).Keys;
  }

  /** No key is given two different values by two of the inputs. */
  predicate Consistent<K(!new), V(==)>(ms: seq<map<K, V>>) {
    forall i, j, k :: 0 <= i < |ms| && 0 <= j < |ms| && k in ms[i] && k in ms[j] ==> ms[i][k] == ms[j][k]
  }

  /** Consistent inputs compose without loss: the union agrees with every input. */
  lemma ConsistentCompose<K(!new), V>(ms: seq<map<K, V>>, i: int, k: K)
    requires Consistent(ms)
    requires 0 <= i < |ms| && k in ms[i]
    ensures k in ComposeInvariants(ms) && ComposeInvariants(ms)[k] == ms[i][k]
  {
    LastExists(ms, k, i);
    var j :| IsLastWith(ms, k, j);
  }

  function Restrict<K(!new), V>(m: map<K, V>, keys: set<K>): (r: map<K, V>)
    requires keys <= m.Keys
    ensures r.Keys == keys && forall k :: k in r ==> r[k] == m[k]
  {
    map k | k in keys :: m[k]
  }

  /**
    `verify_composition_consistency(*ms)`: walks the inputs in order, keeping
    the values seen so far, and fails at the first key whose value differs
    from the one seen.
   */
  method VerifyCompositionConsistency<K(!new), V(==)>(ms: seq<map<K, V>>) returns (ok: bool)
    ensures ok <==> Consistent(ms)
  {
    var seen: map<K, V> := map[];
    var i := 0;
    while i < |ms|
      invariant 0 <= i <= |ms|
      invariant Consistent(ms[..i])
      invariant seen == ComposeInvariants(ms[..i])
    {
      var fits;
      fits, seen := CheckMapping(ms, i, seen);
      if !fits {
        return false;
      }
      ComposeSnoc(ms[..i], ms[i]);
      assert ms[..i + 1] == ms[..i] + [ms[i]];
      ConsistentSnoc(ms[..i], ms[i]);
      i := i + 1;
    }
    assert ms[..i] == ms;
    return true;
  }

  /**
    The inner loop over the items of `ms[i]`, given the values `before` seen
    in the earlier inputs: either every item agrees with them and they are
    all recorded, or some item conflicts.
   */
  method CheckMapping<K(!new), V(==)>(ms: seq<map<K, V>>, i: int, before: map<K, V>) returns (fits: bool, seen: map<K, V>)
    requires 0 <= i < |ms|
    requires Consistent(ms[..i]) && before == ComposeInvariants(ms[..i])
    ensures fits ==> seen == before + ms[i]
    ensures fits ==> forall j, k :: 0 <= j < i && k in ms[j] && k in ms[i] ==> ms[j][k] == ms[i][k]
    ensures !fits ==> !Consistent(ms)
  {
    var cur := ms[i];
    var todo := cur.Keys;
    seen := before;
    while todo != {}
      invariant todo <= cur.Keys
      invariant seen == before + Restrict(cur, cur.Keys - todo)
      invariant forall j, k :: 0 <= j < i && k in ms[j] && k in cur.Keys - todo ==> ms[j][k] == cur[k]
      decreases todo
    {
      ghost var someMember := Member(todo);
      var k :| k in todo;
      RestrictStep(before, cur, todo, k);
      if k in seen && seen[k] != cur[k] {
        Conflict(ms, i, k);
        return false, seen;
      }
      AgreesWithEarlier(ms, i, k, k in seen);
      seen := seen[k := cur[k]];
      todo := todo - {k};
    }
    assert Restrict(cur, cur.Keys) == cur;
    return true, seen;
  }

  lemma RestrictStep<K(!new), V>(before: map<K, V>, cur: map<K, V>, todo: set<K>, k: K)
    requires todo <= cur.Keys && k in todo
    ensures var seen := before + Restrict(cur, cur.Keys - todo);
      (k in seen <==> k in before) && (k in before ==> seen[k] == before[k]) &&
      seen[k := cur[k]] == before + Restrict(cur, cur.Keys - (todo - {k}))
  {
  }

  /** A value of the current input that differs from the composed earlier value breaks consistency. */
  lemma Conflict<K(!new), V>(ms: seq<map<K, V>>, i: int, k: K)
    requires 0 <= i < |ms| && k in ms[i]
    requires k in ComposeInvariants(ms[..i]) && ComposeInvariants(ms[..i])[k] != ms[i][k]
    ensures !Consistent(ms)
  {
    var front := ms[..i];
    var j0 :| 0 <= j0 < |front| && k in front[j0];
    LastExists(front, k, j0);
    var j :| IsLastWith(front, k, j);
    assert ms[j] == front[j];
  }

  /** When the current value agrees with the composed earlier value, it agrees with every earlier input. */
  lemma AgreesWithEarlier<K(!new), V>(ms: seq<map<K, V>>, i: int, k: K, present: bool)
    requires 0 <= i < |ms| && k in ms[i]
    requires Consistent(ms[..i])
    requires present <==> k in ComposeInvariants(ms[..i])
    requires present ==> ComposeInvariants(ms[..i])[k] == ms[i][k]
    ensures forall j :: 0 <= j < i && k in ms[j] ==> ms[j][k] == ms[i][k]
  {
    var front := ms[..i];
    forall j | 0 <= j < i && k in ms[j]
      ensures ms[j][k] == ms[i][k]
    {
      assert front[j] == ms[j];
      LastExists(front, k, j);
      var last :| IsLastWith(front, k, last);
    }
  }

  lemma ConsistentSnoc<K(!new), V>(ms: seq<map<K, V>>, m: map<K, V>)
    requires Consistent(ms)
    requires forall j, k :: 0 <= j < |ms| && k in ms[j] && k in m ==> ms[j][k] == m[k]
    ensures Consistent(ms + [m])
  {
  }
}

=== FILE: invariant_maps_examples.dfy ===
/** The doc-comment examples of invariants/core.py. */
module InvariantMapsExamples {
  import opened InvariantMaps

  lemma UniqueNodeIdsExample()
    ensures UniqueNodeIds([1, 2, 2, 3]) == {1, 2, 3}
  {
    var r := UniqueNodeIds([1, 2, 2, 3]);
    assert 1 in [1, 2, 2, 3] && 2 in [1, 2, 2, 3] && 3 in [1, 2, 2, 3];
  }

  /** Later mappings win: `{'a': 1}, {'b': 2}, {'a': 3}` compose to `{'a': 3, 'b': 2}`. */
  lemma ComposeExample()
    ensures ComposeInvariants([map["a" := 1], map["b" := 2], map["a" := 3]]) == map["a" := 3, "b" := 2]
  {
    var ms := [map["a" := 1], map["b" := 2], map["a" := 3]];
    ComposeSnoc([map["a" := 1], map["b" := 2]], map["a" := 3]);
    ComposeTwo(map["a" := 1], map["b" := 2]);
    assert ms == [map["a" := 1], map["b" := 2]] + [map["a" := 3]];
  }

  lemma FlattenExample()
    ensures FlattenInvariants([[1, 2], [3]]) == [1, 2, 3]
  {
    FlattenAppend([[1, 2]], [[3]]);
    assert [[1, 2], [3]] == [[1, 2]] + [[3]];
  }

  /** Only the entry whose key `b` lacks remains: `{'x': 1, 'y': 2} - {'y': 2}` is `{'x': 1}`. */
  lemma DifferenceExample()
    ensures InvariantDifference(map["x" := 1, "y" := 2], map["y" := 2]) == map["x" := 1]
  {
    var d := InvariantDifference(map["x" := 1, "y" := 2], map["y" := 2]);
    assert "x" in d;
    assert d.Keys == {"x"};
  }

  /** Two inputs giving key `a` different values are inconsistent; disjoint ones are consistent. */
  lemma ConsistencyExamples()
    ensures !Consistent([map["a" := 1], map["a" := 2]])
    ensures Consistent([map["a" := 1], map["b" := 2]])
  {
    var ms := [map["a" := 1], map["a" := 2]];
    assert ms[0]["a"] != ms[1]["a"];
  }
}

=== FILE: invariant_registry.dfy ===
/**
  The invariant registry of src/spectrum/invariants/core.py and the three
  baseline invariants of src/spectrum/invariants/baseline.py. An invariant
  is a predicate on a state mapping; `check_invariants` evaluates every
  registered one, in registration order. A state argument that is not a
  mapping is `None`.
 */
module InvariantRegistry {
  import opened Wrappers
  import opened Registries

  datatype InvariantError = ValueError(name: string) | TypeError

  /**
    The `invariant(name)` decorator applied to `fn`: the registry gains the
    name and the decorator hands `fn` back; a taken name is a ValueError.
   */
  function RegisterInvariant<S(!new)>(reg: Registry<S -> bool>, name: string, fn: S -> bool): (r: Result<(Registry<S -> bool>, S -> bool), InvariantError>)
    ensures r.Failure? <==> name in reg.entries
    ensures r.Failure? ==> r.error == ValueError(name)
    ensures r.Success? ==> Register(reg, name, fn) == Some(r.value.0)
    ensures r.Success? ==> forall s :: r.value.1(s) == fn(s)
  {
    match Register(reg, name, fn)
    case None => Failure(ValueError(name))
    case Some(out) => Success((out, fn))
  }

  /**
    `check_invariants(state)`: one `(name, verdict)` pair per registered
    invariant, in registration order; a non-mapping state is a TypeError.
   */
  function CheckInvariants<S>(reg: Registry<S -> bool>, state: Option<S>): (r: Result<seq<(string, bool)>, InvariantError>)
    requires Valid(reg)
    ensures state.None? <==> r == Failure(TypeError)
    ensures r.Success? ==> |r.value| == |reg.names|
    ensures r.Success? ==> forall i :: 0 <= i < |reg.names| ==>
      r.value[i].0 == reg.names[i] && r.value[i].1 == reg.entries[reg.names[i]](state.value)
  {
    if state.None? then Failure(TypeError)
    else Success(seq(|reg.names|, i requires 0 <= i < |reg.names| => (reg.names[i], reg.entries[reg.names[i]](state.value))))
  }

  /** All registered invariants hold exactly when every verdict of the report is true. */
  lemma ReportAllTrue<S>(reg: Registry<S -> bool>, s: S)
    requires Valid(reg)
    ensures var r := CheckInvariants(reg, Some(s));
      (forall i :: 0 <= i < |r.value| ==> r.value[i].1) <==> forall k :: k in reg.entries ==> reg.entries[k](s)
  {
    var r := CheckInvariants(reg, Some(s));
    if forall i :: 0 <= i < |r.value| ==> r.value[i].1 {
      forall k | k in reg.entries
        ensures reg.entries[k](s)
      {
        var i :| 0 <= i < |reg.names| && reg.names[i] == k;
        assert r.value[i].1;
      }
    }
  }

  /** The state of the baseline invariants: a mapping from string keys to values. */
  type StateMap<V> = map<string, V>

  /** `non_empty_state`: the mapping has at least one entry. */
  function NonEmptyState<V>(state: StateMap<V>): (r: bool)
    ensures r <==> exists k :: k in state
  {
    if |state| > 0 then
      assert exists k :: k in state by {
        var k :| k in state;
      }
      true
    else
      assert state == map[];
      false
  }

  /** `no_time_dependency`: `"time"` is not a key. */
  function NoTimeDependency<V>(state: StateMap<V>): bool {
    "time" !in state
  }

  /** `no_randomness`: `"random"` is not a key. */
  function NoRandomness<V>(state: StateMap<V>): bool {
    "random" !in state
  }

  /** The registry after importing the baseline module into an empty registry. */
  function Baseline<V>(): (r: Registry<StateMap<V> -> bool>)
    ensures Valid(r)
    ensures r.names == ["non_empty_state", "no_time_dependency", "no_randomness"]
  {
    var r1 := Register(Empty(), "non_empty_state", NonEmptyState).value;
    var r2 := Register(r1, "no_time_dependency", NoTimeDependency).value;
    Register(r2, "no_randomness", NoRandomness).value
  }

  /** The baseline registry maps each name to its predicate. */
  lemma BaselineLookup<V>(s: StateMap<V>)
    ensures var b := Baseline<V>();
      b.entries["non_empty_state"](s) == NonEmptyState(s) &&
      b.entries["no_time_dependency"](s) == NoTimeDependency(s) &&
      b.entries["no_randomness"](s) == NoRandomness(s)
  {
  }

  /** On the baseline registry, the report on `{"x": v}` is all true. */
  lemma BaselineReportPlain<V>(v: V)
    ensures CheckInvariants(Baseline(), Some(map["x" := v])) ==
      Success([("non_empty_state", true), ("no_time_dependency", true), ("no_randomness", true)])
  {
    var st := map["x" := v];
    BaselineLookup(st);
    assert NonEmptyState(st) by {
      assert "x" in st;
    }
    var r := CheckInvariants(Baseline(), Some(st));
    assert r.Success? && |r.value| == 3;
    assert r.value[0] == ("non_empty_state", true);
    assert r.value[1] == ("no_time_dependency", true);
    assert r.value[2] == ("no_randomness", true);
    assert r.value == [("non_empty_state", true), ("no_time_dependency", true), ("no_randomness", true)];
  }

  /** A `"time"` key fails only its own check. */
  lemma BaselineReportTime<V>(v: V)
    ensures CheckInvariants(Baseline(), Some(map["time" := v])) ==
      Success([("non_empty_state", true), ("no_time_dependency", false), ("no_randomness", true)])
  {
    var st := map["time" := v];
    BaselineLookup(st);
    assert NonEmptyState(st) by {
      assert "time" in st;
    }
    var r := CheckInvariants(Baseline(), Some(st));
    assert r.Success? && |r.value| == 3;
    assert r.value[0] == ("non_empty_state", true);
    assert r.value[1] == ("no_time_dependency", false);
    assert r.value[2] == ("no_randomness", true);
    assert r.value == [("non_empty_state", true), ("no_time_dependency", false), ("no_randomness", true)];
  }

  /** A second registration under a baseline name is rejected. */
  lemma BaselineNamesTaken<V(!new)>(fn: StateMap<V> -> bool)
    ensures RegisterInvariant(Baseline(), "no_randomness", fn) == Failure(ValueError("no_randomness"))
  {
    assert "no_randomness" in Baseline<V>().names;
  }
}

=== FILE: irreversibility.dfy ===
/**
  The exact-change irreversibility detector of
  src/spectrum/irreversibility/detect.py. A sequence whose first element is
  a Transition record is handed back unchanged; a sequence of lattice nodes
  yields the parent-to-child edges along which the state vector changes.
 */
module Irreversibility {
  import opened Wrappers
  import opened Rational
  import opened Lattice
  import opened NodeIndex

  /** The frozen `Transition(parent_state, child_state)` record. */
  datatype Transition = Transition(parentState: seq<Fraction>, childState: seq<Fraction>)

  /** An element of the input: the detector accepts either kind. */
  datatype Item = TransitionItem(t: Transition) | NodeItem(n: Node)

  /** The two result shapes: the input tuple itself, or a set of `(parent_id, child_id)` edges. */
  datatype Detected = Unchanged(items: seq<Item>) | Edges(edges: set<(int, int)>)

  /** Reading `.id` or `.parents` of a Transition in the graph path. */
  datatype DetectError = AttributeError

  /** `p` is a parent of `child` that names a node whose state differs from the child's. */
  predicate Flagged(m: map<int, Node>, child: Node, p: int) {
    p in child.parents && p in m && m[p].state != child.state
  }

  /** The edges the inner loop adds for one child. */
  function ChildEdges(m: map<int, Node>, child: Node): (r: set<(int, int)>)
    ensures forall e :: e in r <==> e.1 == child.id && Flagged(m, child, e.0)
  {
    set p | p in child.parents && Flagged(m, child, p) :: (p, child.id)
  }

  /** The edges the outer loop collects over `children`, looking parents up in `m`. */
  function EdgesOf(m: map<int, Node>, children: seq<Node>): (r: set<(int, int)>)
    ensures forall e :: e in r <==> exists i :: 0 <= i < |children| && children[i].id == e.1 && Flagged(m, children[i], e.0)
  {
    if |children| == 0 then {}
    else
      var init, last := children[..|children| - 1], children[|children| - 1];
      var r := EdgesOf(m, init) + ChildEdges(m, last);
      forall e: (int, int) | exists i :: 0 <= i < |children| && children[i].id == e.1 && Flagged(m, children[i], e.0)
        ensures e in r
      {
        var i :| 0 <= i < |children| && children[i].id == e.1 && Flagged(m, children[i], e.0);
        if i < |init| {
          assert init[i] == children[i];
        }
      }
      r
  }

  function Nodes(items: seq<Item>): (ns: seq<Node>)
    requires forall k :: 0 <= k < |items| ==> items[k].NodeItem?
    ensures |ns| == |items| && forall k :: 0 <= k < |items| ==> ns[k] == items[k].n
  {
    seq(|items|, k requires 0 <= k < |items| => items[k].n)
  }

  /**
    `find_irreversible`: the transition path when the first element is a
    Transition; otherwise every element must be a node, and the result is
    the set of `(p, c.id)` with `p` a parent of `c` that names a node whose
    state differs from `c`'s. A parent id naming no node is skipped.
   */
  function FindIrreversible(items: seq<Item>): (r: Result<Detected, DetectError>)
    ensures |items| > 0 && items[0].TransitionItem? ==> r == Success(Unchanged(items))
    ensures (|items| == 0 || items[0].NodeItem?) && (exists k :: 0 <= k < |items| && items[k].TransitionItem?) ==> r == Failure(AttributeError)
    ensures r.Success? && r.value.Edges? ==> forall k :: 0 <= k < |items| ==> items[k].NodeItem?
    ensures (forall k :: 0 <= k < |items| ==> items[k].NodeItem?) ==>
      r.Success? && r.value.Edges? && forall e :: e in r.value.edges <==> IsIrreversibleEdge(Nodes(items), e.0, e.1)
  {
    if |items| > 0 && items[0].TransitionItem? then Success(Unchanged(items))
    else if exists k :: 0 <= k < |items| && items[k].TransitionItem? then Failure(AttributeError)
    else
      var ns := Nodes(items);
      Success(Edges(EdgesOf(NodeMap(ns), ns)))
  }

  /**
    The edge `(p, c)` is reported: some node with id `c` has parent `p`,
    `p` names a node, and the last node with id `p` has a different state.
   */
  predicate IsIrreversibleEdge(ns: seq<Node>, p: int, c: int) {
    exists i :: 0 <= i < |ns| && ns[i].id == c && Flagged(NodeMap(ns), ns[i], p)
  }

  /** Graph mode over node records: the result of the detector for plain nodes. */
  function DetectNodes(ns: seq<Node>): (r: set<(int, int)>)
    ensures forall e :: e in r <==> IsIrreversibleEdge(ns, e.0, e.1)
  {
    EdgesOf(NodeMap(ns), ns)
  }

  /** The node path of the detector is DetectNodes on the wrapped nodes. */
  lemma FindOnNodes(ns: seq<Node>)
    ensures FindIrreversible(seq(|ns|, k requires 0 <= k < |ns| => NodeItem(ns[k]))) == Success(Edges(DetectNodes(ns)))
  {
    var items := seq(|ns|, k requires 0 <= k < |ns| => NodeItem(ns[k]));
    assert Nodes(items) == ns;
  }

  /** The empty input takes the graph path and reports nothing. */
  lemma EmptyInput()
    ensures FindIrreversible([]) == Success(Edges({}))
  {
  }

  /**
    With distinct ids the lookup needs no last-wins rule: `(p, c)` is
    reported exactly when nodes with ids `p` and `c` exist, `p` is a parent
    of `c`, and their states differ.
   */
  lemma DistinctIdsEdges(ns: seq<Node>, p: int, c: int)
    requires DistinctIds(ns)
    ensures (p, c) in DetectNodes(ns) <==>
      exists i, j :: 0 <= i < |ns| && 0 <= j < |ns| && ns[i].id == c && ns[j].id == p &&
        p in ns[i].parents && ns[j].state != ns[i].state
  {
    forall j | 0 <= j < |ns|
      ensures NodeMap(ns)[ns[j].id] == ns[j]
    {
      NodeMapDistinct(ns, j);
    }
  }

  /** A parent id that names no node never appears in a reported edge. */
  lemma DanglingSkipped(ns: seq<Node>, p: int, c: int)
    requires p !in IdSet(ns)
    ensures (p, c) !in DetectNodes(ns)
  {
  }

  /** A child whose state equals its parent's is never reported. */
  lemma EqualStatesNotFlagged(ns: seq<Node>, p: int, c: int)
    requires forall i, j :: 0 <= i < |ns| && 0 <= j < |ns| ==> ns[i].state == ns[j].state
    ensures (p, c) !in DetectNodes(ns)
  {
    if (p, c) in DetectNodes(ns) {
      var i :| 0 <= i < |ns| && ns[i].id == c && Flagged(NodeMap(ns), ns[i], p);
      NodeMapMember(ns, p);
      assert false;
    }
  }

  /** Every reported edge is an edge of the parent relation between existing nodes. */
  lemma ReportedEdgesExist(ns: seq<Node>, p: int, c: int)
    requires (p, c) in DetectNodes(ns)
    ensures p in IdSet(ns) && c in IdSet(ns)
  {
  }
}

=== FILE: irreversibility_examples.dfy ===
/** The lattices of tests/test_irreversibility.py and its determinism companion. */
module IrreversibilityExamples {
  import opened Wrappers
  import opened Rational
  import opened Lattice
  import opened NodeIndex
  import opened Irreversibility

  /** Node 1 changes the state of its parent 0, so the edge (0, 1) is reported. */
  lemma ChangedStateFlagged()
    ensures (0, 1) in DetectNodes([Plain(0, [FromInt(0)], {}), Plain(1, [FromInt(1)], {0})])
  {
    var ns := [Plain(0, [FromInt(0)], {}), Plain(1, [FromInt(1)], {0})];
    assert DistinctIds(ns);
    assert ns[0].state != ns[1].state by {
      assert ns[0].state[0] != ns[1].state[0];
    }
    DistinctIdsEdges(ns, 0, 1);
  }

  /** Two children that keep their parent's state: nothing is reported. */
  lemma SameStateNotFlagged()
    ensures DetectNodes([Plain(0, [FromInt(0)], {}), Plain(1, [FromInt(0)], {0}), Plain(2, [FromInt(0)], {0})]) == {}
  {
    var ns := [Plain(0, [FromInt(0)], {}), Plain(1, [FromInt(0)], {0}), Plain(2, [FromInt(0)], {0})];
    forall e | e in DetectNodes(ns)
      ensures false
    {
      EqualStatesNotFlagged(ns, e.0, e.1);
    }
  }

  /** A sequence of Transition records is handed back as it is. */
  lemma TransitionsUnchanged()
    ensures var items := [TransitionItem(Transition([Normalize(1, 2)], [Normalize(3, 4)]))];
      FindIrreversible(items) == Success(Unchanged(items))
  {
  }

  /** A Transition after a node breaks the graph path. */
  lemma MixedInputFails()
    ensures FindIrreversible([NodeItem(Plain(0, [], {})), TransitionItem(Transition([], []))]) == Failure(AttributeError)
  {
    var items := [NodeItem(Plain(0, [], {})), TransitionItem(Transition([], []))];
    assert items[1].TransitionItem?;
  }
}

=== FILE: lattice.dfy ===
/**
  The lattice node record of spectrum/lattice/node.py: an id, a state vector
  of exact fractions, a set of parent ids, an optional transition-rule label
  and the (unused) causal input hash. Equality of nodes is the datatype's
  field-wise equality over all five fields, as for the frozen dataclass.
 */
module Lattice {
  import opened Wrappers
  import opened Rational

  newtype Byte = x: int | 0 <= x < 256

  datatype Node = Node(
    id: int,
    state: seq<Fraction>,
    parents: set<int>,
    rule: Option<string>,
    causalHash: seq<Byte>)

  /**
    The constructor with its keyword aliases: `id` wins over `node_id`,
    `parents` over `parent_ids`, and a missing or empty `parent_ids` gives
    the empty set. A node whose id is given by neither keyword has no
    integer id and is `None` here.
   */
  function NewNode(
    id: Option<int>, state: seq<Fraction>, parents: Option<set<int>>,
    rule: Option<string>, causalHash: seq<Byte>,
    nodeId: Option<int>, parentIds: Option<set<int>>): (r: Option<Node>)
    ensures r.Some? <==> id.Some? || nodeId.Some?
    ensures id.Some? ==> r.Some? && r.value.id == id.value
    ensures id.None? && nodeId.Some? ==> r.Some? && r.value.id == nodeId.value
    ensures r.Some? && parents.Some? ==> r.value.parents == parents.value
    ensures r.Some? && parents.None? ==> r.value.parents == parentIds.GetOr({})
    ensures r.Some? ==> r.value.state == state && r.value.rule == rule && r.value.causalHash == causalHash
  {
    var theId := if id.Some? then id else nodeId;
    var theParents := if parents.Some? then parents.value else parentIds.GetOr({});
    if theId.None? then None
    else Some(Node(theId.value, state, theParents, rule, causalHash))
  }

  /** The common positional form `LatticeNode(id, state_vector, parents)`: rule None, empty hash. */
  function Plain(id: int, state: seq<Fraction>, parents: set<int>): Node {
    Node(id, state, parents, None, [])
  }

  /** The legacy `node_id=` / `parent_ids=` spelling builds the same node as `id=` / `parents=`. */
  lemma LegacyAliases(i: int, state: seq<Fraction>, ps: set<int>, rule: Option<string>, h: seq<Byte>)
    ensures NewNode(None, state, None, rule, h, Some(i), Some(ps))
         == NewNode(Some(i), state, Some(ps), rule, h, None, None)
         == Some(Node(i, state, ps, rule, h))
  {
  }

  /** Rule label and hash take their defaults (None and empty bytes). */
  predicate HasDefaults(n: Node) {
    n.rule.None? && n.causalHash == []
  }

  /** The node with its rule label and hash reset to their defaults. */
  function Strip(n: Node): (r: Node)
    ensures HasDefaults(r)
    ensures r.id == n.id && r.state == n.state && r.parents == n.parents
    ensures HasDefaults(n) ==> r == n
  {
    Node(n.id, n.state, n.parents, None, [])
  }

  /** Every node of the sequence with its rule label and hash reset. */
  function StripAll(ns: seq<Node>): (r: seq<Node>)
    ensures |r| == |ns| && forall i :: 0 <= i < |ns| ==> r[i] == Strip(ns[i])
  {
    seq(|ns|, i requires 0 <= i < |ns| => Strip(ns[i]))
  }

  /** No two positions of the collection carry the same id. */
  predicate DistinctIds(ns: seq<Node>) {
    forall i, j :: 0 <= i < j < |ns| ==> ns[i].id != ns[j].id
  }

  /** The ids of the collection, in order. */
  function Ids(ns: seq<Node>): (r: seq<int>)
    ensures |r| == |ns| && forall i :: 0 <= i < |ns| ==> r[i] == ns[i].id
  {
    seq(|ns|, i requires 0 <= i < |ns| => ns[i].id)
  }

  /** `{n.id for n in nodes}`. */
  function IdSet(ns: seq<Node>): (r: set<int>)
    ensures forall x :: x in r <==> exists i :: 0 <= i < |ns| && ns[i].id == x
  {
    set i | 0 <= i < |ns| :: ns[i].id
  }
}

=== FILE: mining.dfy ===
/**
  The invariant miner of spectrum/invariant/mine.py and its twin in
  src/spectrum/invariant/mine.py. Over a non-empty sequence of states, with
  the dimension taken from the first one, it reports every coordinate on
  which all states share one value (`const`) and every pair of coordinates
  `i < j` on which every state agrees with itself (`equal`).
 */
module Mining {
  import opened Wrappers
  import opened Collections

  /** `("const", (i,), (v,))` and `("equal", (i, j), ())`. */
  datatype Mined<T> = Const(index: nat, value: T) | Equal(first: nat, second: nat)

  /** A state shorter than the first one is indexed past its end. */
  datatype MineError = IndexError

  /** Every state has at least `n` coordinates. */
  predicate Wide<T>(states: seq<seq<T>>, n: nat) {
    forall k :: 0 <= k < |states| ==> n <= |states[k]|
  }

  /** Every state has value `v` at coordinate `i`. */
  predicate ConstantAt<T(==,!new)>(states: seq<seq<T>>, i: nat, v: T)
    requires Wide(states, i + 1)
  {
    forall k :: 0 <= k < |states| ==> states[k][i] == v
  }

  /** `all(s[i] == s[j] for s in states)`. */
  predicate EqualAt<T(==,!new)>(states: seq<seq<T>>, i: nat, j: nat)
    requires Wide(states, i + 1) && Wide(states, j + 1)
  {
    forall k :: 0 <= k < |states| ==> states[k][i] == states[k][j]
  }

  /** What the miner reports on states of dimension `dim`. */
  predicate Holds<T(==,!new)>(states: seq<seq<T>>, dim: nat, m: Mined<T>)
    requires Wide(states, dim)
  {
    match m
    case Const(i, v) => i < dim && ConstantAt(states, i, v)
    case Equal(i, j) => i < j < dim && EqualAt(states, i, j)
  }

  /** `{s[i] for s in states}`. */
  function Values<T(==,!new)>(states: seq<seq<T>>, i: nat): set<T>
    requires Wide(states, i + 1)
  {
    set k | 0 <= k < |states| :: states[k][i]
  }

  /** One value at coordinate `i` is the same as every state agreeing with the first there. */
  lemma SingleValue<T(!new)>(states: seq<seq<T>>, i: nat)
    requires |states| > 0 && Wide(states, i + 1)
    ensures |Values(states, i)| == 1 <==> ConstantAt(states, i, states[0][i])
  {
    var vs := Values(states, i);
    SingletonSize(vs);
    assert states[0][i] in vs;
    if ConstantAt(states, i, states[0][i]) {
      forall y | y in vs
        ensures y == states[0][i]
      {
        var k :| 0 <= k < |states| && states[k][i] == y;
      }
      assert vs == {states[0][i]};
    }
    if |vs| == 1 {
      var x :| vs == {x};
      forall k | 0 <= k < |states|
        ensures states[k][i] == states[0][i]
      {
        assert states[k][i] in vs;
      }
    }
  }

  /** The first loop over coordinates `0 .. n-1`: a `const` entry for each single-valued one. */
  function ConstLoop<T(==,!new)>(states: seq<seq<T>>, n: nat): (r: set<Mined<T>>)
    requires |states| > 0 && Wide(states, n)
    ensures forall m :: m in r <==> m.Const? && m.index < n && ConstantAt(states, m.index, m.value)
  {
    if n == 0 then {}
    else
      var prev := ConstLoop(states, n - 1);
      SingleValue(states, n - 1);
      if |Values(states, n - 1)| == 1 then prev + {Const(n - 1, states[0][n - 1])} else prev
  }

  /** The inner loop for coordinate `i`: `equal` entries for the partners `j` in `i+1 .. n-1`. */
  function EqualRow<T(==,!new)>(states: seq<seq<T>>, i: nat, n: nat): (r: set<Mined<T>>)
    requires Wide(states, n) && i < n
    ensures forall m :: m in r <==> m.Equal? && m.first == i && i < m.second < n && EqualAt(states, i, m.second)
    decreases n - i
  {
    if n == i + 1 then {}
    else
      var prev := EqualRow(states, i, n - 1);
      if EqualAt(states, i, n - 1) then prev + {Equal(i, n - 1)} else prev
  }

  /** The outer equality loop over coordinates `0 .. n-1`, partners below `dim`. */
  function EqualLoop<T(==,!new)>(states: seq<seq<T>>, n: nat, dim: nat): (r: set<Mined<T>>)
    requires Wide(states, dim) && n <= dim
    ensures forall m :: m in r <==> m.Equal? && m.first < n && m.first < m.second < dim && EqualAt(states, m.first, m.second)
  {
    if n == 0 then {} else EqualLoop(states, n - 1, dim) + EqualRow(states, n - 1, dim)
  }

  /**
    `mine(states)` for state tuples: the empty input mines nothing; a state
    shorter than the first one makes `s[i]` fail; otherwise exactly the
    invariants that hold of every state are reported.
   */
  function Mine<T(==,!new)>(states: seq<seq<T>>): (r: Result<set<Mined<T>>, MineError>)
    ensures |states| == 0 ==> r == Success({})
    ensures r.Failure? <==> |states| > 0 && !Wide(states, |states[0]|)
    ensures r.Success? && |states| > 0 ==> forall m :: m in r.value <==> Holds(states, |states[0]|, m)
  {
    if |states| == 0 then Success({})
    else
      var dim := |states[0]|;
      if !Wide(states, dim) then Failure(IndexError)
      else Success(ConstLoop(states, dim) + EqualLoop(states, dim, dim))
  }

  /** Every mined invariant holds of every single state. */
  lemma MinedHoldEverywhere<T(!new)>(states: seq<seq<T>>, m: Mined<T>, k: int)
    requires Mine(states).Success? && m in Mine(states).value && 0 <= k < |states|
    ensures m.Const? ==> m.index < |states[k]| && states[k][m.index] == m.value
    ensures m.Equal? ==> m.first < m.second < |states[k]| && states[k][m.first] == states[k][m.second]
  {
  }

  /** No `equal` entry has its indices out of order or equal. */
  lemma EqualOrdered<T(!new)>(states: seq<seq<T>>, i: nat, j: nat)
    requires Mine(states).Success? && Equal(i, j) in Mine(states).value
    ensures i < j
  {
  }

  /**
    One more state of the same dimension can only remove invariants:
    everything mined from the longer input is mined from the shorter one.
   */
  lemma MoreStatesFewerInvariants<T(!new)>(states: seq<seq<T>>, s: seq<T>, m: Mined<T>)
    requires |states| > 0 && |s| == |states[0]|
    requires Mine(states + [s]).Success? && m in Mine(states + [s]).value
    ensures Mine(states).Success? && m in Mine(states).value
  {
    var more := states + [s];
    assert more[0] == states[0];
    assert forall k :: 0 <= k < |states| ==> more[k] == states[k];
  }

  /**
    The state the miner in src/spectrum/invariant/mine.py reads: a
    `coordinates` sequence and `dimension()`, taken to be its length.
   */
  datatype CoordinateState<T> = CoordinateState(coordinates: seq<T>) {
    function Dimension(): nat {
      |coordinates|
    }
  }

  function Coordinates<T>(s: CoordinateState<T>): seq<T> {
    s.coordinates
  }

  /** `mine(states)` of src/spectrum/invariant/mine.py: the same algorithm over each state's coordinates. */
  function MineStates<T(==,!new)>(states: seq<CoordinateState<T>>): (r: Result<set<Mined<T>>, MineError>)
    ensures |states| == 0 ==> r == Success({})
    ensures r.Failure? <==> |states| > 0 && exists k :: 0 <= k < |states| && states[k].Dimension() < states[0].Dimension()
    ensures r.Success? && |states| > 0 ==> forall m :: m in r.value <==> Holds(Map(states, Coordinates), states[0].Dimension(), m)
  {
    Mine(Map(states, Coordinates))
  }
}

=== FILE: mining_examples.dfy ===
/** The cases of tests/test_invariant_mining.py. */
module MiningExamples {
  import opened Wrappers
  import opened Rational
  import opened Mining

  /** Coordinate 0 is 1 in every state; coordinate 1 varies, so it gives no `const` entry. */
  lemma ConstantCoordinate()
    ensures var r := Mine([[FromInt(1), FromInt(2)], [FromInt(1), FromInt(3)], [FromInt(1), FromInt(4)]]);
      r.Success? && Const(0, FromInt(1)) in r.value && Const(1, FromInt(2)) !in r.value
  {
    var states := [[FromInt(1), FromInt(2)], [FromInt(1), FromInt(3)], [FromInt(1), FromInt(4)]];
    assert states[1][1] != FromInt(2);
  }

  /** Both states agree on coordinates 0 and 1, so `("equal", (0, 1), ())` is mined. */
  lemma EqualCoordinates()
    ensures var r := Mine([[FromInt(5), FromInt(5)], [FromInt(7), FromInt(7)]]);
      r.Success? && Equal(0, 1) in r.value && Equal(1, 0) !in r.value
  {
  }

  /** A state shorter than the first is indexed past its end. */
  lemma ShortStateFails()
    ensures Mine([[FromInt(1), FromInt(2)], [FromInt(1)]]) == Failure(IndexError)
  {
    var states := [[FromInt(1), FromInt(2)], [FromInt(1)]];
    assert |states[1]| < |states[0]|;
  }
}

=== FILE: node_index.dfy ===
/**
  `{n.id: ... for n in nodes}`: a dictionary keyed by node id, where a
  later node overwrites an earlier one with the same id.
 */
module NodeIndex {
  import opened Lattice

  /** No later node than position `i` has the same id. */
  predicate LastWithId(ns: seq<Node>, i: int)
    requires 0 <= i < |ns|
  {
    forall j :: i < j < |ns| ==> ns[j].id != ns[i].id
  }

  /** Every id present in the collection has a last position. */
  lemma LastExists(ns: seq<Node>, x: int)
    requires x in IdSet(ns)
    ensures exists i :: 0 <= i < |ns| && ns[i].id == x && LastWithId(ns, i)
  {
    var i :| 0 <= i < |ns| && ns[i].id == x;
    while !LastWithId(ns, i)
      invariant 0 <= i < |ns| && ns[i].id == x
      decreases |ns| - i
    {
      var next :| i < next < |ns| && ns[next].id == x;
      i := next;
    }
  }

  /** `{n.id: n for n in nodes}`: every id maps to the last node carrying it. */
  function NodeMap(ns: seq<Node>): (m: map<int, Node>)
    ensures m.Keys == IdSet(ns)
    ensures forall i :: 0 <= i < |ns| && LastWithId(ns, i) ==> m[ns[i].id] == ns[i]
  {
    if |ns| == 0 then map[]
    else
      var init, last := ns[..|ns| - 1], ns[|ns| - 1];
      var m := NodeMap(init)[last.id := last];
      NodeMapStep(ns, init, last, NodeMap(init), m);
      m
  }

  lemma NodeMapStep(ns: seq<Node>, init: seq<Node>, last: Node, h: map<int, Node>, m: map<int, Node>)
    requires |ns| > 0 && init == ns[..|ns| - 1] && last == ns[|ns| - 1]
    requires h.Keys == IdSet(init) && m == h[last.id := last]
    requires forall i :: 0 <= i < |init| && LastWithId(init, i) ==> h[init[i].id] == init[i]
    ensures m.Keys == IdSet(ns)
    ensures forall i :: 0 <= i < |ns| && LastWithId(ns, i) ==> m[ns[i].id] == ns[i]
  {
    forall x
      ensures x in m.Keys <==> x in IdSet(ns)
    {
      if x in IdSet(ns) && x != last.id {
        var i :| 0 <= i < |ns| && ns[i].id == x;
        assert init[i] == ns[i];
      }
    }
    forall i | 0 <= i < |ns| && LastWithId(ns, i)
      ensures m[ns[i].id] == ns[i]
    {
      if i < |init| {
        assert init[i] == ns[i];
        assert LastWithId(init, i);
      }
    }
  }

  /** A looked-up node carries the id it was looked up by and is one of the inputs. */
  lemma NodeMapMember(ns: seq<Node>, x: int)
    requires x in IdSet(ns)
    ensures NodeMap(ns)[x].id == x && NodeMap(ns)[x] in ns
  {
    LastExists(ns, x);
  }

  /** With distinct ids every node is found under its own id. */
  lemma NodeMapDistinct(ns: seq<Node>, i: int)
    requires DistinctIds(ns) && 0 <= i < |ns|
    ensures NodeMap(ns)[ns[i].id] == ns[i]
  {
    assert LastWithId(ns, i);
  }
}

=== FILE: node_order.dfy ===
/**
  `sorted(nodes, key=lambda n: n.id)`, the canonical order every lattice
  operation uses. Python's sort is stable; it is modelled as a stable
  insertion sort. The main fact is order independence: for distinct ids,
  every permutation of the input sorts to the same sequence.
 */
module NodeOrder {
  import opened Lattice
  import opened Results

  predicate SortedById(s: seq<Node>) {
    forall i, j :: 0 <= i < j < |s| ==> s[i].id <= s[j].id
  }

  predicate StrictlySortedById(s: seq<Node>) {
    forall i, j :: 0 <= i < j < |s| ==> s[i].id < s[j].id
  }

  /** The test `n.id == k`, for picking out the nodes that share an id. */
  function HasId(k: int): Node -> bool {
    (n: Node) => n.id == k
  }

  /** Inserts `x` before the first element whose id is not smaller. */
  function InsertById(x: Node, t: seq<Node>): (r: seq<Node>)
    ensures |r| == |t| + 1
    ensures multiset(r) == multiset(t) + multiset{x}
    ensures SortedById(t) ==> SortedById(r)
  {
    if |t| == 0 || x.id <= t[0].id then [x] + t
    else
      var rest := InsertById(x, t[1..]);
      assert t == [t[0]] + t[1..];
      if SortedById(t) then
        InsertStep(x, t, rest);
        [t[0]] + rest
      else
        [t[0]] + rest
  }

  lemma InsertStep(x: Node, t: seq<Node>, rest: seq<Node>)
    requires |t| > 0 && x.id > t[0].id && SortedById(t) && SortedById(rest)
    requires multiset(rest) == multiset(t[1..]) + multiset{x}
    ensures SortedById([t[0]] + rest)
  {
    forall k | 0 <= k < |rest|
      ensures t[0].id <= rest[k].id
    {
      assert rest[k] in multiset(rest);
      if rest[k] != x {
        assert rest[k] in t[1..];
      }
    }
  }

  /**
    Inserting a node keeps the relative order of the nodes that share an
    id: it goes in front of every node with its own id.
   */
  lemma {:induction false} InsertKeepsOrder(x: Node, t: seq<Node>, k: int)
    ensures Filter(InsertById(x, t), HasId(k)) == (if x.id == k then [x] else []) + Filter(t, HasId(k))
    decreases |t|
  {
    if |t| == 0 || x.id <= t[0].id {
      FilterCons(x, t, HasId(k));
    } else {
      var rest := InsertById(x, t[1..]);
      var first := if t[0].id == k then [t[0]] else [];
      var mine := if x.id == k then [x] else [];
      assert InsertById(x, t) == [t[0]] + rest;
      FilterCons(t[0], rest, HasId(k));
      InsertKeepsOrder(x, t[1..], k);
      assert t == [t[0]] + t[1..];
      FilterCons(t[0], t[1..], HasId(k));
      EitherEmptyCommutes(first, mine, Filter(t[1..], HasId(k)));
    }
  }

  /** Two prefixes, one of them empty, can be put in front in either order. */
  lemma EitherEmptyCommutes<A>(a: seq<A>, b: seq<A>, rest: seq<A>)
    requires a == [] || b == []
    ensures a + (b + rest) == b + (a + rest)
  {
  }

  /**
    The stable sort by id: nodes with the same id keep their input order.
    An input already sorted by id comes back unchanged.
   */
  function SortById(s: seq<Node>): (r: seq<Node>)
    ensures |r| == |s|
    ensures SortedById(r)
    ensures multiset(r) == multiset(s)
    ensures forall k :: Filter(r, HasId(k)) == Filter(s, HasId(k))
    ensures SortedById(s) ==> r == s
  {
    if |s| == 0 then []
    else
      assert s == [s[0]] + s[1..];
      var rest := SortById(s[1..]);
      forall k
        ensures Filter(InsertById(s[0], rest), HasId(k)) == Filter(s, HasId(k))
      {
        InsertKeepsOrder(s[0], rest, k);
        FilterCons(s[0], s[1..], HasId(k));
      }
      InsertById(s[0], rest)
  }

  /** The sort returns exactly the input's elements: same length, same members. */
  lemma SortMembers(s: seq<Node>)
    ensures |SortById(s)| == |s|
    ensures forall n :: n in SortById(s) <==> n in s
  {
    var r := SortById(s);
    assert |multiset(r)| == |multiset(s)|;
    forall n ensures n in r <==> n in s {
      assert n in r <==> n in multiset(r);
      assert n in s <==> n in multiset(s);
    }
  }

  /** A sorted and a strictly sorted sequence with the same elements start with the same node. */
  lemma SameHead(s: seq<Node>, t: seq<Node>)
    requires SortedById(s) && StrictlySortedById(t) && multiset(s) == multiset(t)
    requires |s| > 0 && |t| > 0
    ensures s[0] == t[0]
  {
    assert s[0] in multiset(t);
    var k :| 0 <= k < |t| && t[k] == s[0];
    assert t[0] in multiset(s);
    var j :| 0 <= j < |s| && s[j] == t[0];
    assert s[0].id <= s[j].id == t[0].id <= t[k].id == s[0].id;
    assert k == 0;
  }

  /** Removing the same first element from two sequences with equal multisets keeps them equal. */
  lemma SameTails(s: seq<Node>, t: seq<Node>)
    requires |s| > 0 && |t| > 0 && s[0] == t[0] && multiset(s) == multiset(t)
    ensures multiset(s[1..]) == multiset(t[1..])
  {
    assert s == [s[0]] + s[1..] && t == [t[0]] + t[1..];
    assert multiset(s[1..]) == multiset(s) - multiset{s[0]};
    assert multiset(t[1..]) == multiset(t) - multiset{t[0]};
  }

  /** A sorted and a strictly sorted sequence with the same elements are equal. */
  lemma {:induction false} SortedUnique(s: seq<Node>, t: seq<Node>)
    requires SortedById(s) && StrictlySortedById(t) && multiset(s) == multiset(t)
    ensures s == t
  {
    assert |s| == |multiset(s)| == |multiset(t)| == |t|;
    if |s| > 0 {
      SameHead(s, t);
      SameTails(s, t);
      SortedUnique(s[1..], t[1..]);
      assert s == [s[0]] + s[1..] && t == [t[0]] + t[1..];
    }
  }

  lemma {:induction false} InsertStrict(x: Node, t: seq<Node>)
    requires StrictlySortedById(t)
    requires forall k :: 0 <= k < |t| ==> t[k].id != x.id
    ensures StrictlySortedById(InsertById(x, t))
  {
    if |t| > 0 && x.id > t[0].id {
      InsertStrict(x, t[1..]);
      var rest := InsertById(x, t[1..]);
      forall k | 0 <= k < |rest|
        ensures t[0].id < rest[k].id
      {
        assert rest[k] in multiset(t[1..]) + multiset{x};
        if rest[k] != x {
          assert rest[k] in t[1..];
        }
      }
      assert InsertById(x, t) == [t[0]] + rest;
    }
  }

  /** With distinct ids the sorted sequence is strictly increasing. */
  lemma {:induction false} SortStrict(s: seq<Node>)
    requires DistinctIds(s)
    ensures StrictlySortedById(SortById(s))
  {
    if |s| > 0 {
      SortStrict(s[1..]);
      var t := SortById(s[1..]);
      forall k | 0 <= k < |t|
        ensures t[k].id != s[0].id
      {
        assert t[k] in multiset(s[1..]);
        var j :| 0 <= j < |s[1..]| && s[1..][j] == t[k];
        assert s[j + 1] == t[k];
      }
      InsertStrict(s[0], t);
    }
  }

  /**
    Order independence: for a collection with distinct ids, every permutation
    of it sorts to the same sequence.
   */
  lemma SortOrderIndependent(a: seq<Node>, b: seq<Node>)
    requires multiset(a) == multiset(b) && DistinctIds(a)
    ensures SortById(a) == SortById(b)
  {
    SortStrict(a);
    SortedUnique(SortById(b), SortById(a));
  }
}

=== FILE: parent_graph.dfy ===
/**
  The child-to-parent graph of a node collection, as
  `parents_are_acyclic` builds it: every node id maps to its parent set,
  with the last node winning for a repeated id, and a parent id that names
  no node has no outgoing edges.
 */
module ParentGraph {
  import opened Lattice
  import opened NodeIndex

  type Graph = map<int, set<int>>

  /** `{n.id: set(n.parents) for n in nodes}`. */
  function BuildGraph(ns: seq<Node>): (g: Graph)
    ensures g.Keys == IdSet(ns)
    ensures forall i :: 0 <= i < |ns| && LastWithId(ns, i) ==> g[ns[i].id] == ns[i].parents
  {
    if |ns| == 0 then map[]
    else
      var init, last := ns[..|ns| - 1], ns[|ns| - 1];
      var g := BuildGraph(init)[last.id := last.parents];
      BuildGraphStep(ns, init, last, BuildGraph(init), g);
      g
  }

  lemma BuildGraphStep(ns: seq<Node>, init: seq<Node>, last: Node, h: Graph, g: Graph)
    requires |ns| > 0 && init == ns[..|ns| - 1] && last == ns[|ns| - 1]
    requires h.Keys == IdSet(init) && g == h[last.id := last.parents]
    requires forall i :: 0 <= i < |init| && LastWithId(init, i) ==> h[init[i].id] == init[i].parents
    ensures g.Keys == IdSet(ns)
    ensures forall i :: 0 <= i < |ns| && LastWithId(ns, i) ==> g[ns[i].id] == ns[i].parents
  {
    forall x
      ensures x in g.Keys <==> x in IdSet(ns)
    {
      if x in IdSet(ns) && x != last.id {
        var i :| 0 <= i < |ns| && ns[i].id == x;
        assert init[i] == ns[i];
      }
    }
    forall i | 0 <= i < |ns| && LastWithId(ns, i)
      ensures g[ns[i].id] == ns[i].parents
    {
      if i < |init| {
        assert init[i] == ns[i];
        assert LastWithId(init, i);
      }
    }
  }

  /** `graph.get(nid, [])`: the parents recorded for `x`, none when `x` names no node. */
  function Succ(g: Graph, x: int): set<int> {
    if x in g then g[x] else {}
  }

  /** Every id the search can reach: the node ids and all parent ids. */
  ghost function Vertices(g: Graph): (vs: set<int>)
    ensures g.Keys <= vs
    ensures forall x, y :: y in Succ(g, x) ==> y in vs
  {
    g.Keys + set x, y | x in g && y in g[x] :: y
  }

  /** Consecutive entries are joined by child-to-parent edges. */
  predicate IsWalk(g: Graph, p: seq<int>) {
    forall k :: 0 <= k < |p| - 1 ==> p[k + 1] in Succ(g, p[k])
  }

  /** A walk of at least one edge that returns to its start; a self-loop is `[x, x]`. */
  predicate IsCycle(g: Graph, p: seq<int>) {
    |p| >= 2 && IsWalk(g, p) && p[0] == p[|p| - 1]
  }

  ghost predicate HasCycle(g: Graph) {
    exists p :: IsCycle(g, p)
  }

  /**
    Every id in `done` has a rank, and each of its parents is in `done`
    with a smaller rank: the certificate a finished search leaves behind.
   */
  ghost predicate Ranked(g: Graph, done: set<int>, rank: map<int, int>) {
    done <= rank.Keys &&
    forall x, y :: x in done && y in Succ(g, x) ==> y in done && rank[y] < rank[x]
  }

  lemma RankedEdge(g: Graph, done: set<int>, rank: map<int, int>, x: int, y: int)
    requires Ranked(g, done, rank) && x in done && y in Succ(g, x)
    ensures y in done && rank[y] < rank[x]
  {
  }

  lemma {:induction false} WalkDescends(g: Graph, done: set<int>, rank: map<int, int>, p: seq<int>, k: int)
    requires Ranked(g, done, rank) && IsWalk(g, p) && 0 < k < |p| && p[0] in done
    ensures p[k] in done && rank[p[k]] < rank[p[0]]
  {
    var prev := p[k - 1];
    assert p[k] in Succ(g, prev);
    if k > 1 {
      WalkDescends(g, done, rank, p, k - 1);
    }
    RankedEdge(g, done, rank, prev, p[k]);
  }

  /** A ranked set holding every node id leaves no room for a cycle. */
  lemma RankedAcyclic(g: Graph, done: set<int>, rank: map<int, int>)
    requires Ranked(g, done, rank) && g.Keys <= done
    ensures !HasCycle(g)
  {
    if HasCycle(g) {
      var p :| IsCycle(g, p);
      assert p[1] in Succ(g, p[0]);
      WalkDescends(g, done, rank, p, |p| - 1);
      assert false;
    }
  }

  /** Every cycle runs through node ids only: a parent id naming no node has no edges. */
  lemma CycleWithinNodes(g: Graph, p: seq<int>)
    requires IsCycle(g, p)
    ensures forall k :: 0 <= k < |p| ==> p[k] in g
  {
    forall k | 0 <= k < |p|
      ensures p[k] in g
    {
      if k < |p| - 1 {
        assert p[k + 1] in Succ(g, p[k]);
      } else {
        assert p[1] in Succ(g, p[0]);
      }
    }
  }

  /** Closing a walk back to one of its own entries gives a cycle. */
  lemma CycleFromWalk(g: Graph, path: seq<int>, x: int)
    requires IsWalk(g, path) && |path| > 0 && x in Succ(g, path[|path| - 1]) && x in path
    ensures HasCycle(g)
  {
    var j :| 0 <= j < |path| && path[j] == x;
    var c := path[j..] + [x];
    assert forall k :: 0 <= k < |c| - 1 ==> c[k] == path[j + k];
    assert IsCycle(g, c);
  }
}

=== FILE: proof_registry.dfy ===
/**
  The proof-obligation registry of src/spectrum/invariants/proof.py: named
  predicates over a node collection, run in registration order until one
  fails.
 */
module ProofRegistry {
  import opened Wrappers
  import opened Lattice
  import opened Registries
  import opened Compose

  type Proof = seq<Node> -> bool

  datatype ProofError = ValueError(name: string)

  /** `register_proof(name, proof)`: a taken name is a ValueError. */
  function RegisterProof(reg: Registry<Proof>, name: string, proof: Proof): (r: Result<Registry<Proof>, ProofError>)
    ensures r.Failure? <==> name in reg.entries
    ensures r.Failure? ==> r.error == ValueError(name)
    ensures r.Success? ==> Some(r.value) == Register(reg, name, proof)
  {
    match Register(reg, name, proof)
    case None => Failure(ValueError(name))
    case Some(out) => Success(out)
  }

  /**
    `run_proofs(nodes)`: true when every registered proof passes; the
    proofs run in registration order and `calls` of them run.
   */
  method RunProofs(reg: Registry<Proof>, nodes: seq<Node>) returns (ok: bool, calls: nat)
    requires Valid(reg)
    ensures ok <==> forall name :: name in reg.entries ==> reg.entries[name](nodes)
    ensures ok ==> calls == |reg.names|
    ensures !ok ==> 1 <= calls <= |reg.names| && !reg.entries[reg.names[calls - 1]](nodes)
    ensures !ok ==> forall i :: 0 <= i < calls - 1 ==> reg.entries[reg.names[i]](nodes)
  {
    var proofs := Values(reg);
    ok, calls := AllInvariantsHold(nodes, proofs);
    if ok {
      forall name | name in reg.entries
        ensures reg.entries[name](nodes)
      {
        var i :| 0 <= i < |reg.names| && reg.names[i] == name;
        assert proofs[i] == reg.entries[name];
      }
    }
  }

  /** `list_proofs()`: the registered names in insertion order. */
  function ListProofs(reg: Registry<Proof>): (names: seq<string>)
    requires Valid(reg)
    ensures forall name :: name in names <==> name in reg.entries
    ensures |names| == |reg.entries.Keys|
  {
    NamesCount(reg);
    reg.names
  }

  lemma NamesCount<V>(reg: Registry<V>)
    requires Valid(reg)
    ensures |reg.names| == |reg.entries.Keys|
  {
    Collections.ElementsSize(reg.names);
    assert Collections.Elements(reg.names) == reg.entries.Keys;
  }

  /** A freshly registered proof is listed last. */
  lemma RegisterListsLast(reg: Registry<Proof>, name: string, proof: Proof)
    requires Valid(reg) && RegisterProof(reg, name, proof).Success?
    ensures ListProofs(RegisterProof(reg, name, proof).value) == ListProofs(reg) + [name]
  {
  }

  /** The registry of tests/test_proof_hooks.py: one proof that always passes, listed and passing. */
  lemma TrivialProofRegistered(nodes: seq<Node>)
    ensures var r := RegisterProof(Empty(), "trivial_proof", (ns: seq<Node>) => true);
      r.Success? && "trivial_proof" in ListProofs(r.value) &&
      forall name :: name in r.value.entries ==> r.value.entries[name](nodes)
  {
  }
}

=== FILE: public_api.dfy ===
/**
  The public interface of api/public.py: `run_deterministic` hands the
  instructions to the engine, and `replay` rebuilds the instructions from
  a log and runs them again. Replay first rebuilds every instruction (a
  malformed entry anywhere is a KeyError before anything runs), reads only
  the operation and the operands of each entry, and returns the results
  without a log.
 */
module PublicApi {
  import opened Wrappers
  import opened Results
  import opened Collections
  import opened Engine

  /** `run_deterministic(instructions)`: the engine itself. */
  function RunDeterministic(instrs: seq<Instruction>): Result<(seq<Entry>, seq<LogEntry>), EngineError> {
    Execute(instrs)
  }

  /**
    The instruction a log entry describes, read as `entry['operation']`,
    `entry['operands']['a']`, `entry['operands']['b']` in that order.
   */
  function Rebuild(e: LogEntry): (r: Result<Instruction, EngineError>)
    ensures e.operation.None? ==> r == Failure(KeyError("operation"))
    ensures e.operation.Some? && e.operands.None? ==> r == Failure(KeyError("operands"))
    ensures e.operation.Some? && e.operands.Some? && e.operands.value.a.None? ==> r == Failure(KeyError("a"))
    ensures e.operation.Some? && e.operands.Some? && e.operands.value.a.Some? && e.operands.value.b.None? ==>
      r == Failure(KeyError("b"))
    ensures r.Success? <==> e.operation.Some? && e.operands.Some? && e.operands.value.a.Some? && e.operands.value.b.Some?
    ensures r.Success? ==> r.value == Instruction(e.operation, e.operands.value.a, e.operands.value.b)
  {
    if e.operation.None? then Failure(KeyError("operation"))
    else if e.operands.None? then Failure(KeyError("operands"))
    else if e.operands.value.a.None? then Failure(KeyError("a"))
    else if e.operands.value.b.None? then Failure(KeyError("b"))
    else Success(Instruction(e.operation, e.operands.value.a, e.operands.value.b))
  }

  /**
    `replay(log)`: rebuild every instruction, then execute them and keep the
    results. The first malformed entry decides the KeyError; once every entry
    rebuilds, the outcome is the engine's run of the rebuilt instructions.
   */
  function Replay(log: seq<LogEntry>): (r: Result<seq<Entry>, EngineError>)
    ensures (exists i :: 0 <= i < |log| && Rebuild(log[i]).Failure?) ==>
      r.Failure? && exists i :: 0 <= i < |log| && Rebuild(log[i]) == Failure(r.error)
    ensures forall i :: 0 <= i < |log| && Rebuild(log[i]).Failure? && FirstFailure(log, Rebuild, i) ==>
      r == Failure(Rebuild(log[i]).error)
    ensures (forall i :: 0 <= i < |log| ==> Rebuild(log[i]).Success?) ==>
      (r.Success? <==> forall i :: 0 <= i < |log| ==> Step(i, Rebuild(log[i]).value).Success?)
    ensures (forall i :: 0 <= i < |log| ==> Rebuild(log[i]).Success?) && r.Failure? ==>
      exists i :: 0 <= i < |log| && Step(i, Rebuild(log[i]).value) == Failure(r.error) &&
        forall j :: 0 <= j < i ==> Step(j, Rebuild(log[j]).value).Success?
    ensures r.Success? ==>
      && |r.value| == |log|
      && forall i :: 0 <= i < |log| ==>
        && Step(i, Rebuild(log[i]).value) == Success(r.value[i])
        && r.value[i].step == i
        && Some(r.value[i].operation) == log[i].operation
        && log[i].operands == Some(Operands(Some(r.value[i].a), Some(r.value[i].b)))
        && Computes(r.value[i].operation, r.value[i].a, r.value[i].b, r.value[i].result)
  {
    forall i | 0 <= i < |log| && Rebuild(log[i]).Failure? && FirstFailure(log, Rebuild, i)
      ensures MapAll(log, Rebuild) == Failure(Rebuild(log[i]).error)
    {
      MapAllFirstFailure(log, Rebuild, i);
    }
    var instrs :- MapAll(log, Rebuild);
    assert forall i :: 0 <= i < |log| ==> instrs[i] == Rebuild(log[i]).value;
    var run :- Execute(instrs);
    ExecuteComputes(instrs);
    Success(run.0)
  }

  /** Rebuilding a log entry written by the engine gives back its instruction. */
  lemma RebuildLogEntry(e: Entry)
    ensures Rebuild(ToLogEntry(e)) == Success(Instruction(Some(e.operation), Some(e.a), Some(e.b)))
  {
  }

  /** Two runs whose steps succeed with the same entries have the same results. */
  lemma SameSteps(xs: seq<Instruction>, ys: seq<Instruction>)
    requires Execute(xs).Success? && |xs| == |ys|
    requires forall i :: 0 <= i < |xs| ==> Step(i, ys[i]) == Step(i, xs[i])
    ensures Execute(ys) == Execute(xs)
  {
    var rx := Execute(xs).value.0;
    assert Execute(ys).Success?;
    var ry := Execute(ys).value.0;
    assert |rx| == |ry|;
    forall i | 0 <= i < |rx|
      ensures rx[i] == ry[i]
    {
      assert Success(rx[i]) == Step(i, xs[i]) == Step(i, ys[i]) == Success(ry[i]);
    }
    assert rx == ry;
  }

  /**
    The deterministic guarantee: replaying the log of a successful run gives
    exactly that run's results.
   */
  lemma ReplayRoundTrip(instrs: seq<Instruction>)
    requires RunDeterministic(instrs).Success?
    ensures Replay(RunDeterministic(instrs).value.1) == Success(RunDeterministic(instrs).value.0)
  {
    var (results, log) := Execute(instrs).value;
    var rebuilt := MapAll(log, Rebuild);
    forall i | 0 <= i < |log|
      ensures Rebuild(log[i]) == Success(Instruction(Some(results[i].operation), Some(results[i].a), Some(results[i].b)))
    {
      RebuildLogEntry(results[i]);
    }
    assert rebuilt.Success?;
    var ys := rebuilt.value;
    forall i | 0 <= i < |instrs|
      ensures Step(i, ys[i]) == Step(i, instrs[i])
    {
      assert Step(i, instrs[i]) == Success(results[i]);
      assert ys[i] == Instruction(Some(results[i].operation), Some(results[i].a), Some(results[i].b));
    }
    SameSteps(instrs, ys);
  }

  /** A prefix of a successful run is a successful run with the prefix of its results and log. */
  lemma ExecutePrefix(instrs: seq<Instruction>, k: nat)
    requires Execute(instrs).Success? && k <= |instrs|
    ensures Execute(instrs[..k]) == Success((Execute(instrs).value.0[..k], Execute(instrs).value.1[..k]))
  {
    var (results, log) := Execute(instrs).value;
    var p := instrs[..k];
    assert forall i :: 0 <= i < |p| ==> Step(i, p[i]) == Step(i, instrs[i]);
    assert Execute(p).Success?;
    var rp := Execute(p).value.0;
    forall i | 0 <= i < k
      ensures rp[i] == results[i]
    {
      assert Success(rp[i]) == Step(i, p[i]) == Step(i, instrs[i]) == Success(results[i]);
    }
    assert rp == results[..k];
    assert Map(rp, ToLogEntry) == log[..k];
  }

  /**
    A run that fails at step i still has a replayable partial log: the
    first i instructions run on their own, and replaying their log gives
    their results.
   */
  lemma PartialLogReplays(instrs: seq<Instruction>, i: nat, e: EngineError)
    requires FirstFailingStep(instrs, i, e)
    ensures Execute(instrs).Failure?
    ensures RunDeterministic(instrs[..i]).Success?
    ensures Replay(RunDeterministic(instrs[..i]).value.1) == Success(RunDeterministic(instrs[..i]).value.0)
  {
    var p := instrs[..i];
    assert forall j :: 0 <= j < |p| ==> Step(j, p[j]) == Step(j, instrs[j]);
    ReplayRoundTrip(p);
  }

  /** Replay reads only the operation and the operands: the recorded step and result do not matter. */
  lemma {:induction false} ReplayIgnoresRecorded(log: seq<LogEntry>, other: seq<LogEntry>)
    requires |log| == |other|
    requires forall i :: 0 <= i < |log| ==> log[i].operation == other[i].operation && log[i].operands == other[i].operands
    ensures Replay(log) == Replay(other)
  {
    forall i | 0 <= i < |log|
      ensures Rebuild(log[i]) == Rebuild(other[i])
    {
    }
    MapAllPointwise(log, other, Rebuild);
  }

  /** `MapAll` depends only on the images of the elements. */
  lemma {:induction false} MapAllPointwise<A, B, E>(xs: seq<A>, ys: seq<A>, f: A -> Result<B, E>)
    requires |xs| == |ys| && forall i :: 0 <= i < |xs| ==> f(xs[i]) == f(ys[i])
    ensures MapAll(xs, f) == MapAll(ys, f)
  {
    if |xs| > 0 {
      assert f(xs[0]) == f(ys[0]);
      MapAllPointwise(xs[1..], ys[1..], f);
    }
  }
}

=== FILE: rational.dfy ===
/**
  Exact rationals as Python's `fractions.Fraction` keeps them: a numerator
  and a positive denominator in lowest terms. `Normalize` is the constructor
  `Fraction(n, d)`; `RationalDivide` is `rational_divide` of
  spectrum/rational/exact.py. Values are read through `Value`, a real.
 */
module Rational {
  import opened Wrappers
  import opened Divisibility

  datatype Rat = Rat(num: int, den: int)

  function Abs(x: int): nat {
    if x < 0 then -x else x
  }

  /** Lowest terms with a positive denominator: the only form a Fraction takes. */
  predicate Reduced(r: Rat) {
    r.den > 0 && Gcd(Abs(r.num), r.den) == 1
  }

  type Fraction = r: Rat | Reduced(r) witness Rat(0, 1)

  /** The number a rational denotes. */
  ghost function Value(r: Rat): real
    requires r.den != 0
  {
    r.num as real / r.den as real
  }

  /** `Fraction(n)` for an integer `n`. */
  function FromInt(n: int): (r: Fraction)
    ensures Value(r) == n as real
  {
    assert Gcd(Abs(n), 1) == Gcd(1, 0);
    Rat(n, 1)
  }

  lemma NormalizeFacts(n: int, d: int, g: nat, a: nat, b: nat)
    requires d != 0 && g == Gcd(Abs(n), Abs(d)) && g > 0 && a == Abs(n) / g && b == Abs(d) / g
    ensures b > 0 && Gcd(a, b) == 1
    ensures Abs(n) == g * a && Abs(d) == g * b
  {
    GcdDivides(Abs(n), Abs(d));
    DividesFactor(g, Abs(n));
    DividesFactor(g, Abs(d));
    assert Abs(n) == a * g && Abs(d) == b * g;
    GcdScale(g, a, b);
    var c := Gcd(a, b);
    assert c * g == 1 * g;
    MulCancel(c, 1, g);
  }

  /**
    `Fraction(n, d)`: divides both by their gcd and moves the sign to the
    numerator. The result denotes n/d.
   */
  function Normalize(n: int, d: int): (r: Fraction)
    requires d != 0
    ensures r.num * d == n * r.den
    ensures Value(r) == n as real / d as real
  {
    var g := Gcd(Abs(n), Abs(d));
    GcdPositive(Abs(n), Abs(d));
    var a, b := Abs(n) / g, Abs(d) / g;
    NormalizeFacts(n, d, g, a, b);
    var r := Rat(if (n < 0) != (d < 0) then -a else a, b);
    assert Gcd(Abs(r.num), r.den) == 1;
    SignedCross(n, d, g, a, b);
    CrossValue(r.num, r.den, n, d);
    r
  }

  lemma SignedCross(n: int, d: int, g: nat, a: nat, b: nat)
    requires Abs(n) == g * a && Abs(d) == g * b
    ensures (if (n < 0) != (d < 0) then -(a as int) else a as int) * d == n * b
  {
    var ga, gb := g * a, g * b;
    assert a * gb == ga * b;
    if n < 0 && d < 0 {
      assert n == -ga && d == -gb;
    } else if n < 0 {
      assert n == -ga && d == gb;
    } else if d < 0 {
      assert n == ga && d == -gb;
    } else {
      assert n == ga && d == gb;
    }
  }

  lemma CrossValue(p: int, q: int, n: int, d: int)
    requires q > 0 && d != 0 && p * d == n * q
    ensures p as real / q as real == n as real / d as real
  {
    assert (p as real) * (d as real) == (n as real) * (q as real);
  }

  /** A fraction already in lowest terms is its own normal form. */
  lemma NormalizeReduced(x: Fraction)
    ensures Normalize(x.num, x.den) == x
  {
  }

  /**
    Two fractions with the same value are the same pair: equality of
    Fractions (value equality in Python) is structural equality here.
   */
  lemma CanonicalForm(x: Fraction, y: Fraction)
    requires x.num * y.den == y.num * x.den
    ensures x == y
  {
    AbsMul(x.num, y.den);
    AbsMul(y.num, x.den);
    assert Abs(x.num) * y.den == x.den * Abs(y.num);
    MultipleIsDivisible(x.den, Abs(y.num));
    Euclid(x.den, Abs(x.num), y.den);
    assert Abs(y.num) * x.den == y.den * Abs(x.num);
    MultipleIsDivisible(y.den, Abs(x.num));
    Euclid(y.den, Abs(y.num), x.den);
    DividesAntisymmetric(x.den, y.den);
    MulCancel(x.num, y.num, x.den);
  }

  lemma AbsMul(a: int, b: int)
    requires b > 0
    ensures Abs(a * b) == Abs(a) * b
  {
    if a < 0 {
      assert a * b == -(Abs(a) * b);
    }
  }

  lemma MulCancel(a: int, b: int, c: int)
    requires c > 0 && a * c == b * c
    ensures a == b
  {
    assert (a - b) * c == a * c - b * c;
  }

  /** Equal values means equal fractions, in terms of `Value`. */
  lemma ValueInjective(x: Fraction, y: Fraction)
    requires Value(x) == Value(y)
    ensures x == y
  {
    var xn, xd, yn, yd := x.num as real, x.den as real, y.num as real, y.den as real;
    assert xn == Value(x) * xd;
    assert yn == Value(y) * yd;
    assert xn * yd == yn * xd;
    assert (x.num * y.den) as real == (y.num * x.den) as real;
    CanonicalForm(x, y);
  }

  function Add(x: Fraction, y: Fraction): (r: Fraction)
    ensures Value(r) == Value(x) + Value(y)
  {
    var r := Normalize(x.num * y.den + y.num * x.den, x.den * y.den);
    SumValue(x.num, x.den, y.num, y.den);
    r
  }

  lemma SumValue(a: int, b: int, c: int, d: int)
    requires b > 0 && d > 0
    ensures (a * d + c * b) as real / (b * d) as real == a as real / b as real + c as real / d as real
  {
    var A, B, C, D := a as real, b as real, c as real, d as real;
    assert (a * d + c * b) as real == A * D + C * B;
    assert (b * d) as real == B * D;
    assert (A * D + C * B) / (B * D) == A / B + C / D;
  }

  function Negate(x: Fraction): (r: Fraction)
    ensures Value(r) == -Value(x)
  {
    assert Abs(-x.num) == Abs(x.num);
    Rat(-x.num, x.den)
  }

  function Sub(x: Fraction, y: Fraction): (r: Fraction)
    ensures Value(r) == Value(x) - Value(y)
  {
    Add(x, Negate(y))
  }

  /** `x / y` of two Fractions; Python raises ZeroDivisionError when `y` is 0. */
  function Div(x: Fraction, y: Fraction): (r: Fraction)
    requires y.num != 0
    ensures Value(r) * Value(y) == Value(x)
  {
    var r := Normalize(x.num * y.den, x.den * y.num);
    QuotientValue(x.num, x.den, y.num, y.den);
    r
  }

  lemma QuotientValue(a: int, b: int, c: int, d: int)
    requires b > 0 && d > 0 && c != 0
    ensures ((a * d) as real / (b * c) as real) * (c as real / d as real) == a as real / b as real
  {
    var A, B, C, D := a as real, b as real, c as real, d as real;
    assert (a * d) as real == A * D;
    assert (b * c) as real == B * C;
    assert (A * D) / (B * C) * (C / D) == A / B;
  }

  /** Exact order: `x < y`. */
  predicate Less(x: Fraction, y: Fraction) {
    x.num * y.den < y.num * x.den
  }

  lemma LessValue(x: Fraction, y: Fraction)
    ensures Less(x, y) <==> Value(x) < Value(y)
  {
    var xn, xd, yn, yd := x.num as real, x.den as real, y.num as real, y.den as real;
    FracLess(xn, xd, yn, yd);
    assert (x.num * y.den) as real == xn * yd;
    assert (y.num * x.den) as real == yn * xd;
  }

  lemma FracLess(p: real, q: real, n: real, d: real)
    requires q > 0.0 && d > 0.0
    ensures p / q < n / d <==> p * d < n * q
  {
    assert (p / q) * (q * d) == p * d;
    assert (n / d) * (q * d) == n * q;
    ScaleLess(p / q, n / d, q * d);
  }

  lemma ScaleLess(a: real, b: real, p: real)
    requires p > 0.0
    ensures a < b <==> a * p < b * p
  {
    assert b * p - a * p == (b - a) * p;
  }

  function Max(x: Fraction, y: Fraction): (r: Fraction)
    ensures Value(x) <= Value(r) && Value(y) <= Value(r)
    ensures r == x || r == y
  {
    LessValue(x, y);
    if Less(x, y) then y else x
  }

  function Min(x: Fraction, y: Fraction): (r: Fraction)
    ensures Value(r) <= Value(x) && Value(r) <= Value(y)
    ensures r == x || r == y
  {
    LessValue(y, x);
    if Less(y, x) then y else x
  }

  datatype DivisionError = ZeroDivisionError

  /**
    `rational_divide(n, d)`: the exact quotient in lowest terms, or
    ZeroDivisionError when `d` is 0.
   */
  function RationalDivide(n: int, d: int): (r: Result<Fraction, DivisionError>)
    ensures r.Failure? <==> d == 0
    ensures r.Success? ==> r.value.num * d == n * r.value.den
    ensures r.Success? ==> Value(r.value) == n as real / d as real
  {
    if d == 0 then Failure(ZeroDivisionError) else Success(Normalize(n, d))
  }

  /** Two fractions that both equal `p / c` (cross-multiplied) equal each other. */
  lemma CrossCancel(a: int, b: int, x: int, y: int, c: int, p: int)
    requires c > 0 && a * c == p * b && x * c == p * y
    ensures a * y == x * b
  {
    assert a * y * c == p * b * y;
    assert x * b * c == p * y * b;
    MulCancel(a * y, x * b, c);
  }

  /** Two fractions in lowest terms that both times `d` give `n` are equal. */
  lemma SameQuotient(r: Fraction, q: Fraction, n: int, d: int)
    requires d != 0 && r.num * d == n * r.den && q.num * d == n * q.den
    ensures r == q
  {
    if d > 0 {
      CrossCancel(r.num, r.den, q.num, q.den, d, n);
    } else {
      assert r.num * -d == -n * r.den;
      assert q.num * -d == -n * q.den;
      CrossCancel(r.num, r.den, q.num, q.den, -d, -n);
    }
    CanonicalForm(r, q);
  }

  /** The quotient is the only fraction in lowest terms that times `d` gives `n`. */
  lemma RationalDivideExact(n: int, d: int, q: Fraction)
    requires d != 0 && q.num * d == n * q.den
    ensures RationalDivide(n, d) == Success(q)
  {
    SameQuotient(Normalize(n, d), q, n, d);
  }

  /** The documented examples: (2, 4) gives 1/2 and (1, 3) gives 1/3. */
  lemma RationalDivideExamples()
    ensures RationalDivide(2, 4) == Success(Rat(1, 2))
    ensures RationalDivide(1, 3) == Success(Rat(1, 3))
  {
    assert Reduced(Rat(1, 2)) && Reduced(Rat(1, 3));
    RationalDivideExact(2, 4, Rat(1, 2));
    RationalDivideExact(1, 3, Rat(1, 3));
  }
}

=== FILE: registries.dfy ===
/**
  The name-keyed registries of the system (invariants, proofs, engines):
  a Python dict filled once per name. The dict's insertion order is kept as
  the sequence of names.
 */
module Registries {
  import opened Wrappers
  import opened Collections

  datatype Registry<V> = Registry(names: seq<string>, entries: map<string, V>)

  /** The names are listed once each, in insertion order, and are exactly the keys. */
  predicate Valid<V>(r: Registry<V>) {
    NoDuplicates(r.names) &&
    (forall k :: k in r.entries ==> k in r.names) &&
    (forall i :: 0 <= i < |r.names| ==> r.names[i] in r.entries)
  }

  function Empty<V>(): (r: Registry<V>)
    ensures Valid(r) && r.names == [] && r.entries == map[]
  {
    Registry([], map[])
  }

  /**
    `if name in REG: raise ...; REG[name] = v`: `None` when the name is
    taken, otherwise the registry with the name appended.
   */
  function Register<V>(r: Registry<V>, name: string, v: V): (out: Option<Registry<V>>)
    ensures out.None? <==> name in r.entries
    ensures Valid(r) && out.Some? ==> Valid(out.value)
  {
    if name in r.entries then None
    else Some(Registry(r.names + [name], r.entries[name := v]))
  }

  /** A registered name looks up the registered value, and every other name keeps its entry and place. */
  lemma RegisterThenLookup<V>(r: Registry<V>, name: string, v: V, other: string)
    requires Valid(r) && name !in r.entries
    ensures var out := Register(r, name, v).value;
      name in out.entries && out.entries[name] == v &&
      out.names == r.names + [name] &&
      (other != name ==>
        (other in out.entries <==> other in r.entries) &&
        (other in r.entries ==> out.entries[other] == r.entries[other]))
  {
  }

  /** Registering the same name twice fails the second time. */
  lemma RegisterTwiceFails<V>(r: Registry<V>, name: string, v: V, w: V)
    requires Register(r, name, v).Some?
    ensures Register(Register(r, name, v).value, name, w).None?
  {
  }

  /** The values in insertion order. */
  function Values<V>(r: Registry<V>): (vs: seq<V>)
    requires Valid(r)
    ensures |vs| == |r.names| && forall i :: 0 <= i < |vs| ==> vs[i] == r.entries[r.names[i]]
  {
    seq(|r.names|, i requires 0 <= i < |r.names| => r.entries[r.names[i]])
  }
}

=== FILE: replay.dfy ===
/**
  The replay parser of src/spectrum/replay/replay.py: it reads canonical
  lines back into nodes. Python exceptions become `ParseError` values: a
  malformed integer, a wrong number of `/`-separated pieces or a field
  without `=` is ValueError, a missing field is KeyError, a zero
  denominator is ZeroDivisionError. The first failing step decides the
  error, in the order the code evaluates.
 */
module Replay {
  import opened Wrappers
  import opened Decimal
  import opened Text
  import opened Rational
  import opened Lattice
  import opened NodeOrder
  import opened IdSets
  import opened Canonical
  import opened Results

  datatype ParseError = ValueError | KeyError(key: string) | ZeroDivisionError

  /** `int(s)`, raising ValueError on text that is not an integer. */
  function ToInt(s: string): (r: Result<int, ParseError>)
    ensures r.Success? <==> ParseInt(s).Some?
    ensures r.Success? ==> ParseInt(s) == Some(r.value)
    ensures r.Failure? ==> r.error == ValueError
  {
    match ParseInt(s)
    case None => Failure(ValueError)
    case Some(v) => Success(v)
  }

  /**
    `parse_fraction`: exactly two `/`-separated integers, numerator first;
    the result is the normalised fraction, and a zero denominator is
    ZeroDivisionError.
   */
  function ParseFraction(s: string): (r: Result<Fraction, ParseError>)
    ensures |Split(s, '/')| != 2 ==> r == Failure(ValueError)
    ensures r.Success? ==>
      var p := Split(s, '/');
      s == p[0] + "/" + p[1] && ParseInt(p[0]).Some? && ParseInt(p[1]).Some? &&
      r.value.num * ParseInt(p[1]).value == ParseInt(p[0]).value * r.value.den
    ensures r == Failure(ParseError.ZeroDivisionError) <==>
      var p := Split(s, '/');
      |p| == 2 && ParseInt(p[0]).Some? && ParseInt(p[1]) == Some(0)
    ensures r.Success? <==>
      var p := Split(s, '/');
      |p| == 2 && ParseInt(p[0]).Some? && ParseInt(p[1]).Some? && ParseInt(p[1]) != Some(0)
    ensures r.Failure? && r.error != ParseError.ZeroDivisionError ==> r.error == ValueError
  {
    var parts := Split(s, '/');
    if |parts| != 2 then Failure(ValueError)
    else
      assert s == Join(parts, '/') == parts[0] + "/" + parts[1];
      var num :- ToInt(parts[0]);
      var den :- ToInt(parts[1]);
      if den == 0 then Failure(ParseError.ZeroDivisionError) else Success(Normalize(num, den))
  }

  /** The key of a field `k=v`: the text before the first `=` (the whole part when there is none). */
  function FieldKey(p: string): string {
    match SplitOnce(p, '=')
    case None => p
    case Some(kv) => kv.0
  }

  /** The value of a field `k=v`: the text after the first `=`. */
  function FieldValue(p: string): string {
    match SplitOnce(p, '=')
    case None => ""
    case Some(kv) => kv.1
  }

  /** No later part than `i` has the same key: `dict` keeps the last value per key. */
  predicate LastWithKey(parts: seq<string>, i: int)
    requires 0 <= i < |parts|
  {
    forall j :: i < j < |parts| ==> FieldKey(parts[j]) != FieldKey(parts[i])
  }

  /**
    `dict(p.split("=", 1) for p in parts)`: a part without `=` is
    ValueError; the keys are the parts' keys and each key maps to the value
    of its last part.
   */
  function Fields(parts: seq<string>): (r: Result<map<string, string>, ParseError>)
    ensures r.Failure? <==> exists i :: 0 <= i < |parts| && '=' !in parts[i]
    ensures r.Failure? ==> r.error == ValueError
    ensures r.Success? ==> forall k :: k in r.value <==> exists i :: 0 <= i < |parts| && FieldKey(parts[i]) == k
    ensures r.Success? ==> forall i :: 0 <= i < |parts| && LastWithKey(parts, i) ==>
      FieldKey(parts[i]) in r.value && r.value[FieldKey(parts[i])] == FieldValue(parts[i])
  {
    if |parts| == 0 then Success(map[])
    else
      var init, last := parts[..|parts| - 1], parts[|parts| - 1];
      assert parts == init + [last];
      match Fields(init)
      case Failure(e) =>
        var i :| 0 <= i < |init| && '=' !in init[i];
        assert parts[i] == init[i];
        Failure(e)
      case Success(m) =>
        match SplitOnce(last, '=')
        case None => Failure(ValueError)
        case Some(kv) =>
          FieldsStep(init, last, m);
          Success(m[kv.0 := kv.1])
  }

  lemma FieldsStep(init: seq<string>, last: string, m: map<string, string>)
    requires '=' in last
    requires forall i :: 0 <= i < |init| ==> '=' in init[i]
    requires forall k :: k in m <==> exists i :: 0 <= i < |init| && FieldKey(init[i]) == k
    requires forall i :: 0 <= i < |init| && LastWithKey(init, i) ==>
      FieldKey(init[i]) in m && m[FieldKey(init[i])] == FieldValue(init[i])
    ensures var parts, r := init + [last], m[FieldKey(last) := FieldValue(last)];
      (forall i :: 0 <= i < |parts| ==> '=' in parts[i]) &&
      (forall k :: k in r <==> exists i :: 0 <= i < |parts| && FieldKey(parts[i]) == k) &&
      (forall i :: 0 <= i < |parts| && LastWithKey(parts, i) ==>
        FieldKey(parts[i]) in r && r[FieldKey(parts[i])] == FieldValue(parts[i]))
  {
    var parts, r := init + [last], m[FieldKey(last) := FieldValue(last)];
    FieldsKeysStep(init, last, m, parts, r);
    FieldsValuesStep(init, last, m, parts, r);
  }

  lemma FieldsKeysStep(init: seq<string>, last: string, m: map<string, string>, parts: seq<string>, r: map<string, string>)
    requires parts == init + [last] && r == m[FieldKey(last) := FieldValue(last)]
    requires forall k :: k in m <==> exists i :: 0 <= i < |init| && FieldKey(init[i]) == k
    ensures forall k :: k in r <==> exists i :: 0 <= i < |parts| && FieldKey(parts[i]) == k
  {
    forall k
      ensures k in r <==> exists i :: 0 <= i < |parts| && FieldKey(parts[i]) == k
    {
      if k in r && k != FieldKey(last) {
        var i :| 0 <= i < |init| && FieldKey(init[i]) == k;
        assert parts[i] == init[i];
      }
      if k == FieldKey(last) {
        assert parts[|init|] == last;
      }
      if exists i :: 0 <= i < |parts| && FieldKey(parts[i]) == k {
        var i :| 0 <= i < |parts| && FieldKey(parts[i]) == k;
        if i < |init| {
          assert parts[i] == init[i];
        }
      }
    }
  }

  lemma FieldsValuesStep(init: seq<string>, last: string, m: map<string, string>, parts: seq<string>, r: map<string, string>)
    requires parts == init + [last] && r == m[FieldKey(last) := FieldValue(last)]
    requires forall i :: 0 <= i < |init| && LastWithKey(init, i) ==>
      FieldKey(init[i]) in m && m[FieldKey(init[i])] == FieldValue(init[i])
    ensures forall i :: 0 <= i < |parts| && LastWithKey(parts, i) ==>
      FieldKey(parts[i]) in r && r[FieldKey(parts[i])] == FieldValue(parts[i])
  {
    forall i | 0 <= i < |parts| && LastWithKey(parts, i)
      ensures FieldKey(parts[i]) in r && r[FieldKey(parts[i])] == FieldValue(parts[i])
    {
      if i < |init| {
        assert parts[i] == init[i];
        assert FieldKey(parts[|init|]) != FieldKey(parts[i]);
        forall j | i < j < |init|
          ensures FieldKey(init[j]) != FieldKey(init[i])
        {
          assert parts[j] == init[j];
        }
        assert LastWithKey(init, i);
      }
    }
  }

  predicate NonEmptyText(s: string) {
    s != ""
  }

  /**
    The state tuple: empty tokens are skipped, every other token must parse
    as a fraction, and the first failing token decides the error.
   */
  function ParseState(tokens: seq<string>): (r: Result<seq<Fraction>, ParseError>)
    ensures (forall i :: 0 <= i < |tokens| ==> tokens[i] == "") ==> r == Success([])
    ensures (forall i :: 0 <= i < |tokens| ==> tokens[i] != "") ==> r == MapAll(tokens, ParseFraction)
    ensures r.Success? ==> |r.value| <= |tokens|
  {
    var kept := Filter(tokens, NonEmptyText);
    assert (forall i :: 0 <= i < |tokens| ==> tokens[i] == "") ==> kept == [] by {
      if |kept| > 0 {
        assert kept[0] in tokens;
      }
    }
    MapAll(kept, ParseFraction)
  }

  /** An empty token, such as the one a trailing or doubled comma leaves, is skipped wherever it stands. */
  lemma EmptyTokenSkipped(before: seq<string>, after: seq<string>)
    ensures ParseState(before + [""] + after) == ParseState(before + after)
  {
    FilterSkips(before, "", after, NonEmptyText);
  }

  /** `set(int(x) for x in tokens)`: every token must be an integer. */
  function ParseIds(tokens: seq<string>): (r: Result<set<int>, ParseError>)
    ensures r.Success? <==> forall i :: 0 <= i < |tokens| ==> ParseInt(tokens[i]).Some?
    ensures r.Failure? ==> r.error == ValueError
    ensures r.Success? ==> forall x :: x in r.value <==> exists i :: 0 <= i < |tokens| && ParseInt(tokens[i]) == Some(x)
  {
    var xs :- MapAll(tokens, ToInt);
    Success(set i | 0 <= i < |xs| :: xs[i])
  }

  /** The parents field: empty text is the empty set, otherwise comma-separated integers. */
  function ParseParents(text: string): (r: Result<set<int>, ParseError>)
    ensures text == "" ==> r == Success({})
    ensures text != "" ==> r == ParseIds(Split(text, ','))
  {
    if text == "" then Success({}) else ParseIds(Split(text, ','))
  }

  /** `parts[key]`, raising KeyError for a missing key. */
  function Lookup(fields: map<string, string>, key: string): (r: Result<string, ParseError>)
    ensures r.Success? <==> key in fields
    ensures r.Success? ==> r.value == fields[key]
    ensures r.Failure? ==> r.error == KeyError(key)
  {
    if key in fields then Success(fields[key]) else Failure(KeyError(key))
  }

  /**
    `parse_node`: the fields of the line, then the id, the state and the
    parents in that order. The parsed node carries the default rule label
    and hash.
   */
  function ParseNode(line: string): (r: Result<Node, ParseError>)
    ensures r.Success? ==> HasDefaults(r.value)
    ensures Fields(Split(line, '|')).Failure? ==> r == Failure(ValueError)
    ensures Fields(Split(line, '|')).Success? && "id" !in Fields(Split(line, '|')).value ==> r == Failure(KeyError("id"))
    ensures r.Success? <==> Fields(Split(line, '|')).Success? && FieldsParse(Fields(Split(line, '|')).value)
    ensures Fields(Split(line, '|')).Success? ==> r == NodeFromFields(Fields(Split(line, '|')).value)
    ensures r.Success? ==>
      var f := Fields(Split(line, '|')).value;
      "id" in f && "state" in f && "parents" in f &&
      ParseInt(f["id"]) == Some(r.value.id) &&
      ParseState(Split(f["state"], ',')) == Success(r.value.state) &&
      ParseParents(f["parents"]) == Success(r.value.parents)
  {
    var fields :- Fields(Split(line, '|'));
    NodeFromFields(fields)
  }

  /** The three fields a node line needs are present and each one parses. */
  predicate FieldsParse(fields: map<string, string>)
  {
    && "id" in fields && ParseInt(fields["id"]).Some?
    && "state" in fields && ParseState(Split(fields["state"], ',')).Success?
    && "parents" in fields && ParseParents(fields["parents"]).Success?
  }

  /**
    The steps of `parse_node` after the field dictionary is built: the
    first missing key or unparsable field decides the error.
   */
  function NodeFromFields(fields: map<string, string>): (r: Result<Node, ParseError>)
    ensures r.Success? ==> HasDefaults(r.value)
    ensures r.Success? <==> FieldsParse(fields)
    ensures "id" !in fields ==> r == Failure(KeyError("id"))
    ensures "id" in fields && ParseInt(fields["id"]).None? ==> r == Failure(ValueError)
    ensures "id" in fields && ParseInt(fields["id"]).Some? && "state" !in fields ==> r == Failure(KeyError("state"))
    ensures "id" in fields && ParseInt(fields["id"]).Some? && "state" in fields &&
            ParseState(Split(fields["state"], ',')).Failure? ==>
              r == Failure(ParseState(Split(fields["state"], ',')).error)
    ensures "id" in fields && ParseInt(fields["id"]).Some? && "state" in fields &&
            ParseState(Split(fields["state"], ',')).Success? && "parents" !in fields ==>
              r == Failure(KeyError("parents"))
    ensures "id" in fields && ParseInt(fields["id"]).Some? && "state" in fields &&
            ParseState(Split(fields["state"], ',')).Success? && "parents" in fields &&
            ParseParents(fields["parents"]).Failure? ==>
              r == Failure(ParseParents(fields["parents"]).error)
    ensures FieldsParse(fields) ==>
      r == Success(Node(ParseInt(fields["id"]).value, ParseState(Split(fields["state"], ',')).value,
                        ParseParents(fields["parents"]).value, None, []))
    ensures r.Success? ==>
      "id" in fields && "state" in fields && "parents" in fields &&
      ParseInt(fields["id"]) == Some(r.value.id) &&
      ParseState(Split(fields["state"], ',')) == Success(r.value.state) &&
      ParseParents(fields["parents"]) == Success(r.value.parents)
  {
    var idText :- Lookup(fields, "id");
    var id :- ToInt(idText);
    var stateText :- Lookup(fields, "state");
    var state :- ParseState(Split(stateText, ','));
    var parentsText :- Lookup(fields, "parents");
    var parents :- ParseParents(parentsText);
    Success(Node(id, state, parents, None, []))
  }

  /** `replay_nodes`: every line parsed, then the stable sort by id. */
  function ReplayNodes(lines: seq<string>): (r: Result<seq<Node>, ParseError>)
    ensures r.Success? <==> forall i :: 0 <= i < |lines| ==> ParseNode(lines[i]).Success?
    ensures r.Failure? ==> r == Failure(MapAll(lines, ParseNode).error)
    ensures r.Success? ==> |r.value| == |lines| && SortedById(r.value)
    ensures r.Success? ==> multiset(r.value) == multiset(MapAll(lines, ParseNode).value)
    ensures r.Success? ==> forall k :: Filter(r.value, HasId(k)) == Filter(MapAll(lines, ParseNode).value, HasId(k))
  {
    var nodes :- MapAll(lines, ParseNode);
    Success(SortById(nodes))
  }

  /** Every replayed node carries the default rule label and hash. */
  lemma ReplayDefaults(lines: seq<string>)
    requires ReplayNodes(lines).Success?
    ensures forall i :: 0 <= i < |ReplayNodes(lines).value| ==> HasDefaults(ReplayNodes(lines).value[i])
  {
    var nodes := MapAll(lines, ParseNode).value;
    var sorted := ReplayNodes(lines).value;
    ParsedDefaults(lines, nodes);
    forall i | 0 <= i < |sorted|
      ensures HasDefaults(sorted[i])
    {
      assert sorted[i] in multiset(nodes);
    }
  }

  /** Every node parsed from a line, before sorting, carries the defaults. */
  lemma ParsedDefaults(lines: seq<string>, nodes: seq<Node>)
    requires MapAll(lines, ParseNode) == Success(nodes)
    ensures forall n :: n in nodes ==> HasDefaults(n)
  {
    forall n | n in nodes
      ensures HasDefaults(n)
    {
      var j :| 0 <= j < |nodes| && nodes[j] == n;
      assert ParseNode(lines[j]) == Success(nodes[j]);
    }
  }
}

=== FILE: replay_examples.dfy ===
/**
  Concrete inputs of the replay parser and the value or error each gives.
 */
module ReplayExamples {
  import opened Wrappers
  import opened Decimal
  import opened Text
  import opened Rational
  import opened Replay

  /** `2/4` normalises to 1/2. */
  lemma ParseFractionNormalises()
    ensures ParseFraction("2/4") == Success(Rat(1, 2))
  {
    assert "2/4" == "2" + ['/'] + "4";
    SplitAtSeparator("2", "4", '/');
    SplitNoSeparator("4", '/');
    assert ParseInt("2") == Some(2) && ParseInt("4") == Some(4);
    assert Reduced(Rat(1, 2));
    RationalDivideExact(2, 4, Rat(1, 2));
  }

  /** A zero denominator is ZeroDivisionError. */
  lemma ParseFractionZero()
    ensures ParseFraction("1/0") == Failure(ParseError.ZeroDivisionError)
  {
    assert "1/0" == "1" + ['/'] + "0";
    SplitAtSeparator("1", "0", '/');
    SplitNoSeparator("0", '/');
    assert ParseInt("1") == Some(1) && ParseInt("0") == Some(0);
  }

  /** Anything but exactly one `/` is ValueError. */
  lemma ParseFractionShape()
    ensures ParseFraction("1") == Failure(ValueError)
    ensures ParseFraction("1/2/3") == Failure(ValueError)
  {
    SplitNoSeparator("1", '/');
    assert "1/2/3" == "1" + ['/'] + ("2" + ['/'] + "3");
    SplitAtSeparator("1", "2/3", '/');
    assert "2/3" == "2" + ['/'] + "3";
    SplitAtSeparator("2", "3", '/');
    SplitNoSeparator("3", '/');
  }

  /** A side that is not an integer is ValueError. */
  lemma ParseFractionNotInteger()
    ensures ParseFraction("a/2") == Failure(ValueError)
  {
    assert "a/2" == "a" + ['/'] + "2";
    SplitAtSeparator("a", "2", '/');
    SplitNoSeparator("2", '/');
    assert ParseInt("a") == None;
  }

  lemma TwoParts()
    ensures Split("id=0|state=", '|') == ["id=0", "state="]
  {
    var parts := ["id=0", "state="];
    assert "id=0|state=" == parts[0] + ['|'] + parts[1];
    SplitAtSeparator(parts[0], parts[1], '|');
    SplitNoSeparator(parts[1], '|');
  }

  lemma TwoFields()
    ensures Fields(["id=0", "state="]) == Success(map["id" := "0", "state" := ""])
  {
    var parts := ["id=0", "state="];
    assert parts[0] == "id" + ['='] + "0" && parts[1] == "state" + ['='] + "";
    SplitOnceAt("id", "0", '=');
    SplitOnceAt("state", "", '=');
    assert parts[..1] == ["id=0"] && ["id=0"][..0] == [];
    assert Fields(["id=0"]) == Success(map["id" := "0"]);
  }

  lemma MissingParents()
    ensures NodeFromFields(map["id" := "0", "state" := ""]) == Failure(KeyError("parents"))
  {
    assert ParseInt("0") == Some(0);
    assert Split("", ',') == [""];
    assert ParseState([""]) == Success([]);
  }

  /** A line without a `parents` field is KeyError for that key. */
  lemma ParseNodeMissingField()
    ensures ParseNode("id=0|state=") == Failure(KeyError("parents"))
  {
    TwoParts();
    TwoFields();
    MissingParents();
  }

  /** A part without `=` is ValueError. */
  lemma ParseNodeNoEquals()
    ensures ParseNode("id=0|junk") == Failure(ValueError)
  {
    assert "id=0|junk" == "id=0" + ['|'] + "junk";
    SplitAtSeparator("id=0", "junk", '|');
    SplitNoSeparator("junk", '|');
    assert '=' !in ["id=0", "junk"][1];
  }
}

=== FILE: replay_round_trip.dfy ===
/**
  Replay undoes serialisation: every rendered piece parses back to what was
  rendered, a node line parses to the node with default rule and hash, and
  replaying the lines of any collection gives its id-sorted nodes and the
  same hash.
 */
module ReplayRoundTrip {
  import opened Wrappers
  import opened Decimal
  import opened Text
  import opened Rational
  import opened Lattice
  import opened NodeOrder
  import opened IdSets
  import opened Canonical
  import opened Results
  import opened Replay

  lemma FractionRoundTrip(f: Fraction)
    ensures ParseFraction(FractionText(f)) == Success(f)
  {
    NormalizeReduced(f);
  }

  /** The state text of a non-empty vector splits on commas into the component texts. */
  lemma SplitStateText(state: seq<Fraction>)
    requires |state| > 0
    ensures Split(StateText(state), ',') == FractionTexts(state)
  {
    var parts := FractionTexts(state);
    assert StateText(state) == Join(parts, ',');
    SplitJoin(parts, ',');
  }

  /** Every component text parses back to its component. */
  lemma ParseFractionTexts(state: seq<Fraction>)
    ensures MapAll(FractionTexts(state), ParseFraction) == Success(state)
  {
    var parts := FractionTexts(state);
    forall i | 0 <= i < |parts|
      ensures ParseFraction(parts[i]) == Success(state[i])
    {
      FractionRoundTrip(state[i]);
    }
    var r := MapAll(parts, ParseFraction);
    assert r.Success?;
    assert r.value == state;
  }

  lemma StateRoundTrip(state: seq<Fraction>)
    ensures ParseState(Split(StateText(state), ',')) == Success(state)
  {
    if |state| > 0 {
      SplitStateText(state);
      ParseFractionTexts(state);
    }
  }

  lemma IdsRoundTrip(ids: seq<int>)
    ensures ParseIds(IdTexts(ids)).Success?
    ensures forall x :: x in ParseIds(IdTexts(ids)).value <==> x in ids
  {
    var parts := IdTexts(ids);
    forall i | 0 <= i < |parts|
      ensures ParseInt(parts[i]) == Some(ids[i])
    {
      IntRoundTrip(ids[i]);
    }
    var r := ParseIds(parts);
    forall x
      ensures x in r.value <==> x in ids
    {
      if x in ids {
        var i :| 0 <= i < |ids| && ids[i] == x;
        assert ParseInt(parts[i]) == Some(x);
      }
    }
  }

  /** No decimal id text holds a comma. */
  lemma IdTextsNoComma(ids: seq<int>)
    ensures forall i :: 0 <= i < |ids| ==> ',' !in IdTexts(ids)[i]
  {
    forall i | 0 <= i < |ids|
      ensures ',' !in IdTexts(ids)[i]
    {
      var t := IntToString(ids[i]);
      assert forall k :: 0 <= k < |t| ==> IsNumeral(t[k]);
    }
  }

  /** The parents text of a non-empty set splits on commas into the sorted ids' texts. */
  lemma SplitParentsText(ps: set<int>)
    requires ps != {}
    ensures Split(ParentsText(ps), ',') == IdTexts(SortedIds(ps))
  {
    var parts := IdTexts(SortedIds(ps));
    IdTextsNoComma(SortedIds(ps));
    SplitJoin(parts, ',');
  }

  /** The texts of a sequence holding exactly the members of a set parse back to that set. */
  lemma ParseIdsOfMembers(ids: seq<int>, ps: set<int>)
    requires forall x :: x in ids <==> x in ps
    ensures ParseIds(IdTexts(ids)) == Success(ps)
  {
    IdsRoundTrip(ids);
    var r := ParseIds(IdTexts(ids)).value;
    forall x
      ensures x in r <==> x in ps
    {
      assert x in r <==> x in ids;
    }
    assert r == ps;
  }

  lemma ParentsRoundTrip(ps: set<int>)
    ensures ParseParents(ParentsText(ps)) == Success(ps)
  {
    if ps != {} {
      SplitParentsText(ps);
      ParseIdsOfMembers(SortedIds(ps), ps);
    }
  }

  /** The field dictionary of a canonical line maps each of its three keys to its text. */
  lemma LineFields(i: string, st: string, ps: string)
    ensures Fields(["id=" + i, "state=" + st, "parents=" + ps]).Success?
    ensures var f := Fields(["id=" + i, "state=" + st, "parents=" + ps]).value;
      "id" in f && "state" in f && "parents" in f &&
      f["id"] == i && f["state"] == st && f["parents"] == ps
  {
    var parts := ["id=" + i, "state=" + st, "parents=" + ps];
    assert parts[0] == "id" + ['='] + i;
    assert parts[1] == "state" + ['='] + st;
    assert parts[2] == "parents" + ['='] + ps;
    SplitOnceAt("id", i, '=');
    SplitOnceAt("state", st, '=');
    SplitOnceAt("parents", ps, '=');
    assert FieldKey(parts[0]) == "id" && FieldValue(parts[0]) == i;
    assert FieldKey(parts[1]) == "state" && FieldValue(parts[1]) == st;
    assert FieldKey(parts[2]) == "parents" && FieldValue(parts[2]) == ps;
    assert LastWithKey(parts, 0) && LastWithKey(parts, 1) && LastWithKey(parts, 2);
  }

  /** A node line parses to the node with its rule label and hash reset. */
  lemma LineRoundTrip(n: Node)
    ensures ParseNode(SerializeNode(n)) == Success(Strip(n))
  {
    LineFields(IntToString(n.id), StateText(n.state), ParentsText(n.parents));
    IntRoundTrip(n.id);
    StateRoundTrip(n.state);
    ParentsRoundTrip(n.parents);
  }

  /** Parsing the lines of a collection gives its id-sorted nodes, with defaults restored. */
  lemma ParseLinesRoundTrip(ns: seq<Node>)
    ensures MapAll(SerializeNodes(ns), ParseNode) == Success(StripAll(SortById(ns)))
  {
    var lines, sorted := SerializeNodes(ns), SortById(ns);
    forall i | 0 <= i < |lines|
      ensures ParseNode(lines[i]) == Success(Strip(sorted[i]))
    {
      LineRoundTrip(sorted[i]);
    }
    var r := MapAll(lines, ParseNode);
    assert r.Success?;
    assert r.value == StripAll(sorted);
  }

  lemma StripAllSorted(ns: seq<Node>)
    requires SortedById(ns)
    ensures SortedById(StripAll(ns))
  {
  }

  /**
    `replay_nodes(serialize_nodes(ns))` is the id-sorted input with every
    rule label and hash reset, whatever the input order and even with
    duplicate ids.
   */
  lemma ReplaySerialized(ns: seq<Node>)
    ensures ReplayNodes(SerializeNodes(ns)) == Success(StripAll(SortById(ns)))
  {
    ParseLinesRoundTrip(ns);
    StripAllSorted(SortById(ns));
  }

  /** An id-sorted collection with default rule labels and hashes replays to itself. */
  lemma ReplayIdentity(ns: seq<Node>)
    requires SortedById(ns)
    requires forall i :: 0 <= i < |ns| ==> HasDefaults(ns[i])
    ensures ReplayNodes(SerializeNodes(ns)) == Success(ns)
  {
    ReplaySerialized(ns);
    assert StripAll(ns) == ns;
  }

  /** The stripped, sorted collection serialises to the same lines as the input. */
  lemma SerializeStripped(ns: seq<Node>)
    ensures SerializeNodes(StripAll(SortById(ns))) == SerializeNodes(ns)
  {
    var sorted := SortById(ns);
    var back := StripAll(sorted);
    StripAllSorted(sorted);
    assert SortById(back) == back;
    var a, b := SerializeNodes(back), SerializeNodes(ns);
    forall i | 0 <= i < |back|
      ensures a[i] == b[i]
    {
      LineIgnoresRuleAndHash(sorted[i]);
    }
  }

  /** Replaying the serialisation keeps the hash, for any input. */
  lemma ReplayHashStable<D>(ns: seq<Node>, digest: string -> D)
    ensures ReplayNodes(SerializeNodes(ns)).Success?
    ensures HashNodes(ReplayNodes(SerializeNodes(ns)).value, digest) == HashNodes(ns, digest)
  {
    ReplaySerialized(ns);
    SerializeStripped(ns);
  }

  /** `id=0|state=|parents=` is node 0 with the empty state and no parents. */
  lemma ParseNodeEmptyFields()
    ensures ParseNode("id=0|state=|parents=") == Success(Node(0, [], {}, None, []))
  {
    var n := Node(0, [], {}, None, []);
    assert IntToString(0) == "0";
    assert StateText([]) == "" && ParentsText({}) == "";
    assert SerializeNode(n) == "id=0|state=|parents=";
    LineRoundTrip(n);
  }
}

=== FILE: results.dfy ===
/**
  Evaluating a step over every element of a sequence in order, the way a
  Python generator consumed by `tuple(...)` or `set(...)` does: the first
  element whose step raises ends the whole evaluation with that error.
 */
module Results {
  import opened Wrappers

  /** `tuple(f(x) for x in xs)`, stopping at the first failure. */
  function MapAll<A, B, E>(xs: seq<A>, f: A -> Result<B, E>): (r: Result<seq<B>, E>)
    ensures r.Success? <==> forall i :: 0 <= i < |xs| ==> f(xs[i]).Success?
    ensures r.Success? ==> |r.value| == |xs| && forall i :: 0 <= i < |xs| ==> f(xs[i]) == Success(r.value[i])
    ensures r.Failure? ==> exists i :: 0 <= i < |xs| && f(xs[i]) == Failure(r.error) && FirstFailure(xs, f, i)
  {
    if |xs| == 0 then Success([])
    else
      assert forall i :: 1 <= i < |xs| ==> xs[i] == xs[1..][i - 1];
      match f(xs[0])
      case Failure(e) => Failure(e)
      case Success(y) =>
        match MapAll(xs[1..], f)
        case Failure(e) =>
          assert exists i :: 0 <= i < |xs| && f(xs[i]) == Failure(e) && FirstFailure(xs, f, i) by {
            var i :| 0 <= i < |xs[1..]| && f(xs[1..][i]) == Failure(e) && FirstFailure(xs[1..], f, i);
            assert FirstFailure(xs, f, i + 1);
          }
          Failure(e)
        case Success(ys) => Success([y] + ys)
  }

  /** Every element before position `i` succeeds. */
  predicate FirstFailure<A, B, E>(xs: seq<A>, f: A -> Result<B, E>, i: int)
    requires 0 <= i <= |xs|
  {
    forall j :: 0 <= j < i ==> f(xs[j]).Success?
  }

  /** The error of the whole evaluation is the error of the first element that fails. */
  lemma MapAllFirstFailure<A, B, E>(xs: seq<A>, f: A -> Result<B, E>, i: int)
    requires 0 <= i < |xs| && f(xs[i]).Failure? && FirstFailure(xs, f, i)
    ensures MapAll(xs, f) == Failure(f(xs[i]).error)
  {
    var r := MapAll(xs, f);
    var j :| 0 <= j < |xs| && f(xs[j]) == Failure(r.error) && FirstFailure(xs, f, j);
    assert j == i;
  }

  /** The elements of `xs` that satisfy `keep`, in order: `(x for x in xs if keep(x))`. */
  function Filter<A>(xs: seq<A>, keep: A -> bool): (r: seq<A>)
    ensures |r| <= |xs|
    ensures forall i :: 0 <= i < |r| ==> keep(r[i]) && r[i] in xs
    ensures forall x :: x in xs && keep(x) ==> x in r
    ensures (forall i :: 0 <= i < |xs| ==> keep(xs[i])) ==> r == xs
  {
    if |xs| == 0 then []
    else
      var rest := Filter(xs[1..], keep);
      assert forall x :: x in xs ==> x == xs[0] || x in xs[1..];
      if keep(xs[0]) then
        assert xs == [xs[0]] + xs[1..];
        [xs[0]] + rest
      else rest
  }

  /** Filtering an element placed in front of a sequence. */
  lemma FilterCons<A>(x: A, t: seq<A>, keep: A -> bool)
    ensures Filter([x] + t, keep) == (if keep(x) then [x] else []) + Filter(t, keep)
  {
    assert ([x] + t)[0] == x && ([x] + t)[1..] == t;
  }

  lemma Associative<A>(a: seq<A>, b: seq<A>, c: seq<A>)
    ensures a + (b + c) == (a + b) + c
  {
  }

  /** Filtering a concatenation filters each part. */
  lemma {:induction false} FilterAppend<A>(xs: seq<A>, ys: seq<A>, keep: A -> bool)
    ensures Filter(xs + ys, keep) == Filter(xs, keep) + Filter(ys, keep)
  {
    if |xs| == 0 {
      assert xs + ys == ys;
    } else {
      var x, t := xs[0], xs[1..];
      assert xs == [x] + t && xs + ys == [x] + (t + ys);
      var head := if keep(x) then [x] else [];
      calc {
        Filter(xs + ys, keep);
        { FilterCons(x, t + ys, keep); }
        head + Filter(t + ys, keep);
        { FilterAppend(t, ys, keep); }
        head + (Filter(t, keep) + Filter(ys, keep));
        { Associative(head, Filter(t, keep), Filter(ys, keep)); }
        (head + Filter(t, keep)) + Filter(ys, keep);
        { FilterCons(x, t, keep); }
        Filter(xs, keep) + Filter(ys, keep);
      }
    }
  }

  /** A rejected element at the end of a sequence leaves no trace. */
  lemma FilterDropLast<A>(xs: seq<A>, x: A, keep: A -> bool)
    requires !keep(x)
    ensures Filter(xs + [x], keep) == Filter(xs, keep)
  {
    FilterAppend(xs, [x], keep);
    FilterCons(x, [], keep);
    assert [x] + [] == [x];
  }

  /** An element `keep` rejects leaves no trace wherever it stands. */
  lemma FilterSkips<A>(xs: seq<A>, x: A, ys: seq<A>, keep: A -> bool)
    requires !keep(x)
    ensures Filter(xs + [x] + ys, keep) == Filter(xs + ys, keep)
  {
    FilterAppend(xs + [x], ys, keep);
    FilterDropLast(xs, x, keep);
    FilterAppend(xs, ys, keep);
  }
}

=== FILE: spectrum_invariants_core.dfy ===
/**
  spectrum/invariants/core.py: `check_invariants` reports every name of
  the `INVARIANTS` registry as holding, without looking at the state. (Its
  `unique_node_ids` is the same definition as the global invariant, see
  GlobalInvariants.UniqueNodeIds.)
 */
module SpectrumInvariantsCore {
  /** `{name: True for name in INVARIANTS}` for a registry holding `names`. */
  function CheckInvariants<S>(names: seq<string>, state: S): (r: map<string, bool>)
    ensures forall k :: k in r <==> k in names
    ensures forall k :: k in r ==> r[k]
    ensures |names| == 0 ==> r == map[]
  {
    map k | k in names :: true
  }

  /** The report does not depend on the state. */
  lemma CheckIgnoresState<S>(names: seq<string>, s: S, t: S)
    ensures CheckInvariants(names, s) == CheckInvariants(names, t)
  {
  }
}

=== FILE: text.dfy ===
/**
  The Python string operations the canonical line format relies on:
  `str.split` and `str.join` with a one-character separator,
  `str.split(sep, 1)`, and the substring test `sub in s`.
 */
module Text {
  import opened Wrappers

  /** `sep.join(parts)`. */
  function Join(parts: seq<string>, sep: char): string {
    if |parts| == 0 then ""
    else if |parts| == 1 then parts[0]
    else parts[0] + [sep] + Join(parts[1..], sep)
  }

  /**
    `s.split(sep)`: never empty, no piece holds the separator, and joining the
    pieces back gives `s`.
   */
  function Split(s: string, sep: char): (r: seq<string>)
    ensures |r| >= 1
    ensures forall i :: 0 <= i < |r| ==> sep !in r[i]
    ensures Join(r, sep) == s
  {
    if |s| == 0 then [""]
    else if s[0] == sep then [""] + Split(s[1..], sep)
    else
      var rest := Split(s[1..], sep);
      assert Join(rest, sep) == s[1..];
      var r := [[s[0]] + rest[0]] + rest[1..];
      assert Join(r, sep) == s by {
        if |rest| > 1 {
          assert r[1..] == rest[1..];
          assert Join(r, sep) == [s[0]] + (rest[0] + [sep] + Join(rest[1..], sep));
        }
      }
      r
  }

  lemma SplitNoSeparator(s: string, sep: char)
    requires sep !in s
    ensures Split(s, sep) == [s]
  {
    if |s| > 0 {
      SplitNoSeparator(s[1..], sep);
      assert [s[0]] + s[1..] == s;
    }
  }

  lemma SplitAtSeparator(a: string, b: string, sep: char)
    requires sep !in a
    ensures Split(a + [sep] + b, sep) == [a] + Split(b, sep)
  {
    if |a| > 0 {
      assert (a + [sep] + b)[1..] == a[1..] + [sep] + b;
      SplitAtSeparator(a[1..], b, sep);
      assert [a[0]] + a[1..] == a;
    } else {
      assert a + [sep] + b == [sep] + b;
    }
  }

  /** Splitting undoes joining when no part holds the separator. */
  lemma {:induction false} SplitJoin(parts: seq<string>, sep: char)
    requires |parts| >= 1
    requires forall i :: 0 <= i < |parts| ==> sep !in parts[i]
    ensures Split(Join(parts, sep), sep) == parts
  {
    if |parts| == 1 {
      SplitNoSeparator(parts[0], sep);
    } else {
      SplitJoin(parts[1..], sep);
      SplitAtSeparator(parts[0], Join(parts[1..], sep), sep);
      assert [parts[0]] + parts[1..] == parts;
    }
  }

  /**
    `s.split(sep, 1)` read as a pair: `None` when `s` has no separator,
    otherwise the text before the first separator and everything after it.
   */
  function SplitOnce(s: string, sep: char): (r: Option<(string, string)>)
    ensures r.None? <==> sep !in s
    ensures r.Some? ==> sep !in r.value.0 && r.value.0 + [sep] + r.value.1 == s
  {
    if |s| == 0 then None
    else if s[0] == sep then Some(([], s[1..]))
    else
      match SplitOnce(s[1..], sep)
      case None => None
      case Some(p) => Some(([s[0]] + p.0, p.1))
  }

  lemma SplitOnceAt(a: string, b: string, sep: char)
    requires sep !in a
    ensures SplitOnce(a + [sep] + b, sep) == Some((a, b))
  {
    if |a| > 0 {
      assert (a + [sep] + b)[1..] == a[1..] + [sep] + b;
      SplitOnceAt(a[1..], b, sep);
      assert [a[0]] + a[1..] == a;
    }
  }

  predicate IsPrefix(pre: string, s: string) {
    |pre| <= |s| && s[..|pre|] == pre
  }

  /** `sub` occurs in `s` starting at index `i`. */
  predicate OccursAt(s: string, sub: string, i: int) {
    0 <= i <= |s| - |sub| && s[i..i + |sub|] == sub
  }

  /** `sub in s` for strings: `sub` occurs at some position of `s`. */
  function Contains(s: string, sub: string): (r: bool)
    ensures r <==> exists i :: OccursAt(s, sub, i)
  {
    if IsPrefix(sub, s) then
      assert OccursAt(s, sub, 0);
      true
    else if |s| == 0 then false
    else
      var r := Contains(s[1..], sub);
      assert r ==> exists i :: OccursAt(s, sub, i) by {
        if r {
          var j :| OccursAt(s[1..], sub, j);
          assert s[j + 1..j + 1 + |sub|] == s[1..][j..j + |sub|];
          assert OccursAt(s, sub, j + 1);
        }
      }
      assert (exists i :: OccursAt(s, sub, i)) ==> r by {
        if exists i :: OccursAt(s, sub, i) {
          var i :| OccursAt(s, sub, i);
          assert i != 0;
          assert s[1..][i - 1..i - 1 + |sub|] == s[i..i + |sub|];
          assert OccursAt(s[1..], sub, i - 1);
        }
      }
      r
  }

  /** Every character of `s` satisfies `ok`. */
  predicate OnlyChars(s: string, ok: char -> bool) {
    forall k :: 0 <= k < |s| ==> ok(s[k])
  }

  lemma {:induction false} JoinOnlyChars(parts: seq<string>, sep: char, ok: char -> bool)
    requires ok(sep)
    requires forall i :: 0 <= i < |parts| ==> OnlyChars(parts[i], ok)
    ensures OnlyChars(Join(parts, sep), ok)
  {
    if |parts| > 1 {
      JoinOnlyChars(parts[1..], sep, ok);
      var j := Join(parts, sep);
      assert j == parts[0] + [sep] + Join(parts[1..], sep);
      forall k | 0 <= k < |j|
        ensures ok(j[k])
      {
        if k < |parts[0]| {
          assert j[k] == parts[0][k];
        } else if k == |parts[0]| {
          assert j[k] == sep;
        } else {
          assert j[k] == Join(parts[1..], sep)[k - |parts[0]| - 1];
        }
      }
    }
  }

  /** Joining at least one non-empty part gives a non-empty string. */
  lemma {:induction false} JoinNonEmpty(parts: seq<string>, sep: char)
    requires |parts| >= 1 && |parts[0]| >= 1
    ensures |Join(parts, sep)| >= 1
  {
  }

  /** Two separator-free pieces joined by the separator split back into those pieces. */
  lemma SplitTwo(a: string, b: string, sep: char)
    requires sep !in a && sep !in b
    ensures Split(a + [sep] + b, sep) == [a, b]
  {
    SplitAtSeparator(a, b, sep);
    SplitNoSeparator(b, sep);
  }

  /** Three separator-free pieces joined by the separator split back into those pieces. */
  lemma SplitThree(a: string, b: string, c: string, sep: char)
    requires sep !in a && sep !in b && sep !in c
    ensures Split(a + [sep] + b + [sep] + c, sep) == [a, b, c]
  {
    assert a + [sep] + b + [sep] + c == a + [sep] + (b + [sep] + c);
    SplitAtSeparator(a, b + [sep] + c, sep);
    SplitAtSeparator(b, c, sep);
    SplitNoSeparator(c, sep);
  }
}

=== FILE: text_baseline.dfy ===
/**
  The baseline predicates of spectrum/invariants/baseline.py, which read the
  state as program text: it must be non-empty, must not mention `time`, and
  must not contain any of eight calls into nondeterministic sources.
 */
module TextBaseline {
  import opened Text

  /** The eight substrings that mark a nondeterministic source. */
  function Forbidden(): seq<string> {
    ["numpy.random", "random.", "time.time(", "datetime.now(", "datetime.utcnow(", "uuid.", "secrets.", "os.environ"]
  }

  /** `non_empty_state`: `len(state) > 0`. */
  function NonEmptyState(state: string): (r: bool)
    ensures !r <==> state == ""
  {
    |state| > 0
  }

  /** `no_time_dependency`: `"time"` is not a substring. */
  function NoTimeDependency(state: string): (r: bool)
    ensures !r <==> exists i :: OccursAt(state, "time", i)
  {
    !Contains(state, "time")
  }

  /** Some pattern of `fs` occurs in `s`, scanning the patterns in order. */
  function AnyOccurs(s: string, fs: seq<string>): (r: bool)
    ensures r <==> exists k :: 0 <= k < |fs| && Contains(s, fs[k])
  {
    if |fs| == 0 then false
    else if Contains(s, fs[0]) then true
    else
      var rest := AnyOccurs(s, fs[1..]);
      assert rest ==> exists k :: 0 <= k < |fs| && Contains(s, fs[k]) by {
        if rest {
          var k :| 0 <= k < |fs[1..]| && Contains(s, fs[1..][k]);
          assert Contains(s, fs[k + 1]);
        }
      }
      assert (exists k :: 0 <= k < |fs| && Contains(s, fs[k])) ==> rest by {
        if exists k :: 0 <= k < |fs| && Contains(s, fs[k]) {
          var k :| 0 <= k < |fs| && Contains(s, fs[k]);
          assert k != 0;
          assert fs[1..][k - 1] == fs[k];
        }
      }
      rest
  }

  /** `no_nondeterministic_sources`: false exactly when one of the eight patterns occurs. */
  function NoNondeterministicSources(state: string): (r: bool)
    ensures !r <==> exists k :: 0 <= k < |Forbidden()| && exists i :: OccursAt(state, Forbidden()[k], i)
  {
    !AnyOccurs(state, Forbidden())
  }

  /** A pattern that occurs in `s` occurs in every text that has `s` as a piece. */
  lemma OccursInLarger(pre: string, s: string, post: string, sub: string, i: int)
    requires OccursAt(s, sub, i)
    ensures OccursAt(pre + s + post, sub, |pre| + i)
  {
    assert (pre + s + post)[|pre| + i..|pre| + i + |sub|] == s[i..i + |sub|];
  }

  /** Every piece of a text that passes the check passes it too. */
  lemma {:induction false} PiecesPass(pre: string, s: string, post: string)
    requires NoNondeterministicSources(pre + s + post)
    ensures NoNondeterministicSources(s)
  {
    if !NoNondeterministicSources(s) {
      var k :| 0 <= k < |Forbidden()| && exists i :: OccursAt(s, Forbidden()[k], i);
      var i :| OccursAt(s, Forbidden()[k], i);
      OccursInLarger(pre, s, post, Forbidden()[k], i);
      assert false;
    }
  }

  /** A text that calls `time.time(` also fails the `time` check. */
  lemma {:induction false} TimeCallMentionsTime(state: string)
    requires Contains(state, "time.time(")
    ensures !NoTimeDependency(state)
  {
    var i :| OccursAt(state, "time.time(", i);
    assert state[i..i + 4] == state[i..i + 10][..4];
    assert OccursAt(state, "time", i);
  }

  /** The empty text is rejected as empty but passes the other two checks. */
  lemma EmptyText()
    ensures !NonEmptyState("")
    ensures NoTimeDependency("")
    ensures NoNondeterministicSources("")
  {
    assert forall k :: 0 <= k < |Forbidden()| ==> |Forbidden()[k]| > 0;
  }

  lemma Examples()
    ensures !NoNondeterministicSources("x = uuid.uuid4()")
    ensures NoNondeterministicSources("x = 1")
  {
    assert OccursAt("x = uuid.uuid4()", Forbidden()[5], 4);
    forall k | 0 <= k < |Forbidden()|
      ensures !exists i :: OccursAt("x = 1", Forbidden()[k], i)
    {
      if k == 5 {
        assert "x = 1"[0..5][0] == 'x';
      }
    }
  }
}

=== FILE: wrappers.dfy ===
/**
  Failure-compatible result types used throughout the model. A Python call
  that raises is modelled as a `Failure` carrying the exception kind; a call
  that returns is a `Success`.
 */
module Wrappers {

  datatype Option<+T> = None | Some(value: T) {

    function GetOr(default: T): T {
      match this
      case Some(v) => v
      case None => default
    }
  }

  datatype Result<+R, +E> = Success(value: R) | Failure(error: E) {

    predicate IsFailure() {
      Failure?
    }

    function PropagateFailure<U>(): Result<U, E>
      requires Failure?
    {
      Failure(error)
    }

    function Extract(): R
      requires Success?
    {
      value
    }
  }
}
